=== FILE: README.md ===
# PDF manager core in Dafny

A model of the document-processing core of the PDF manager web application:

- the booklet pipeline: split a PDF into chunks that start on even page
  indices, impose each chunk as a saddle-stitched booklet on A4 landscape
  sheets, and merge the booklets into one printable file;
- joining PDFs with optional parity blanks, so that each document starts
  on an odd printed page;
- the OCR service around the external `ocrmypdf` command, and the
  background task that records its outcome on the job record;
- the settings derived from environment variables (debug flag, allowed
  hosts, CSRF origins, the sub-path and the static and media URLs);
- the clickable URL that `manage.py runserver` announces;
- the upload handling of the views: choosing a file name that does not
  exist yet, and the per-file loop in which one failing upload is reported
  while the others go on.

The model does not hold PDF files. A document is a list of abstract pages.
Each page has a size, a rotation, and the text blocks, raw blocks and
drawings that the PDF library reports for it. The things the code asks of
the outside world become parameters:

- the job id, a uuid in the code;
- the width of the "*" glyph;
- which `show_pdf_page` calls the library rejects;
- which paths exist;
- what `shutil.which` finds;
- what the subprocess returns, or the exception it raises;
- the environment;
- the argument vector.

Every operation is a pure function, or a method with a loop, and the
lemmas state what the code promises about them.

Modules, one per file:

- `errors`: Python exceptions as a `Result`, plus `Option`.
- `text`: the string and path built-ins the code relies on: `strip`,
  `rstrip`, `split`, `lower`, `isdigit`, `str(int)`, `os.path.join`,
  `os.path.basename`, `os.path.splitext`, and the jobs' output file names.
- `sequences`: concatenation of page lists.
- `geometry`: rectangles, pages, `detect_content_bbox`, column geometry.
- `splitter`: `split_pdf_to_dir`.
- `imposer`: `create_booklet` and `add_watermark_to_first_page`.
- `merger`: `merge_pdfs`, `join_pdfs`, `build_join_pipeline`.
- `pipeline`: `build_booklets_pipeline`.
- `ocr`: `ocrpdf/services.py`.
- `tasks`: `run_ocr_job` and the job record.
- `settings`: `pdf_manager_project/settings.py`.
- `manage`: `_print_clickable_url_if_runserver`.
- `views`: `_unique_path` and the upload loop.

`_unique_path` appears three times in the code, as identical copies at
booklets/views.py:19-33, joinpdf/views.py:24-34 and ocrpdf/views.py:23-33.
It is modelled once.

Two behaviours of the code look surprising and are modelled as written:

- **The watermark.** `create_booklet` calls `add_watermark_to_first_page`
  inside the sheet loop (booklets/services.py:232-234), so the first sheet
  receives one "*" per sheet, not a single one. The comment on line 232
  says the code keeps this behaviour from an earlier script on purpose.
- **The split size.** `split_pdf_to_dir` does not check the split size.
  With a size of one or less, only the even-indexed pages are kept, one
  per split.

## Model

| member | source | states |
|---|---|---|
| Geometry.BlankLike | booklets/services.py:76-79 | a blank page made like `p` has `p`'s page rectangle and no content |
| Geometry.ImageRectsMembers | booklets/services.py:22-26 | a rectangle is collected from the raw blocks exactly when some block of type 1 carries it as its "bbox" |
| Geometry.DrawingRectsMembers | booklets/services.py:28-32 | a drawing's rectangle is collected exactly when it is present, truthy and valid |
| Geometry.Union | booklets/services.py:37-41 | the min/max union contains every content rectangle, and each of its four edges is the edge of some content rectangle |
| Geometry.DetectContentBbox | booklets/services.py:15-50 | a page without content gives the whole page (no margin); otherwise the result is the whole page or a valid rectangle inside the page |
| Geometry.DetectContentBboxCovers | booklets/services.py:37-50 | a crop other than the whole page contains every content rectangle widened by the margin and clamped, and each edge comes from one of them |
| Geometry.EdgesFromContent | booklets/services.py:43-48 | widening and clamping the union gives a rectangle containing each widened, clamped content rectangle, with every edge taken from one of them |
| Geometry.OrdinaryPageIsCropped | booklets/services.py:43-50 | with a non-negative margin and valid content inside the page, the validity fallback never fires: the crop is the widened, clamped union |
| Geometry.MarginPoints | booklets/services.py:167 | the margin in points times 2.54 equals the margin in centimetres times 72 |
| Geometry.ColumnsFor | booklets/services.py:192-193 | three margins and two columns fill the 842-point width; two margins and a column fill the 595-point height |
| Geometry.FitInColumn | booklets/services.py:199-203 | the scaled crop box lies inside its column, is centred in both directions and fills the column's width or height |
| Geometry.FitInColumnKeepsAspect | booklets/services.py:199-201 | the drawn rectangle has the crop box's aspect ratio |
| Geometry.ScaleFits | booklets/services.py:199 | the scale `min(cw / w, ch / h)` fits both sides and fills one |
| Splitter.ChunkEnd | booklets/services.py:126-133 | a chunk ends inside the document, holds at most `max(maxPages, 1)` pages, and, for sizes of two or more, ends just before an even index or at the document's end; from an even start it is full (the size, rounded down to even) unless it reaches the end |
| Splitter.ChunksFull | booklets/services.py:118-143 | with a size of two or more, every chunk but the last holds exactly the size rounded down to even |
| Splitter.ChunkStart | booklets/services.py:121-124 | after the first chunk, an odd cursor moves to the next (even) index |
| Splitter.ChunksWellFormed | booklets/services.py:118-143 | for every split size the loop's ranges are non-empty, start on even indices, stay in order inside the document and respect the size bound |
| Splitter.ChunksTile | booklets/services.py:118-143 | with a size of two or more the ranges tile the rest of the document with no gap |
| Splitter.ChunksSkipOdd | booklets/services.py:121-124 | from an odd cursor after the first split, the loop behaves as from the next index |
| Splitter.ChunksAtMostOne | booklets/services.py:118-143 | with a size of at most one the loop yields exactly the even indices, one page each |
| Splitter.SplitRangesPartition | booklets/services.py:113-143 | with a size of two or more the ranges are contiguous, in order, cover every page index exactly once, and all but the last are full (the size rounded down to even) |
| Splitter.SplitRangesAtMostOne | booklets/services.py:113-143 | with a size of at most one the ranges are the single even indices |
| Splitter.FullSizeExamples | booklets/services.py:118-143 | 100 pages by 40 give ranges of 40, 40 and 20 pages; 10 pages by 5 give 4, 4 and 2 |
| Splitter.SplitRangesExamples | booklets/services.py:118-143 | 9 pages by 4 give [0-3], [4-7], [8]; 3 pages by 1 give [0], [2]; no pages give no ranges |
| Splitter.WorkingDocument | booklets/services.py:94-111 | with parity kept the input is used as is; otherwise an empty input raises ValueError("PDF vacío") and a blank page sized like page 1 is put in front |
| Splitter.Extract | booklets/services.py:135 | each split holds exactly the pages of its inclusive range |
| Splitter.ExtractTilesConcat | booklets/services.py:135-143 | gluing the pages of tiling ranges back together gives the tiled part of the document |
| Splitter.SplitPdf | booklets/services.py:82-153 | the split fails only for an empty input without parity; every split has between 1 and `max(maxPages, 1)` pages; with a size of two or more every split but the last is full (the size rounded down to even) |
| Splitter.SplitPdfRoundTrip | booklets/services.py:82-153 | with a size of two or more, concatenating the splits gives back the working document: the input, or the blank followed by the input |
| Splitter.SplitPdfAtMostOne | booklets/services.py:82-153 | with a size of at most one, split `i` is the single page `2i` of the working document |
| Splitter.Pad2 | booklets/services.py:138 | `f"{n:02}"` is at least two digits: "0" then the digit below ten, the plain number from ten on |
| Splitter.SplitFileNamesDistinct | booklets/services.py:138 | different split counters give different split file names |
| Imposer.Pad | booklets/services.py:175-178 | padding keeps the pages, appends fewer than four default blanks, and reaches a multiple of four |
| Imposer.SheetOf | booklets/services.py:180-183 | every page index of a padded document is the high or the low page of some sheet `1..n/2` |
| Imposer.PairingIsBijective | booklets/services.py:180-183 | sheet `k` pairs a first-half page with a second-half page summing to `n - 1`, and a page is on sheet `k` exactly when `k` is its sheet |
| Imposer.PairingExample | booklets/services.py:180-183 | 12 pages pair as (11, 0), …, (6, 5) |
| Imposer.SheetRotation | booklets/services.py:195-196 | on odd sheets the rotation becomes `(r + 180) % 360`, a half turn in `[0, 360)`; even sheets keep it |
| Imposer.Place | booklets/services.py:198-226 | a zero-width or zero-height crop box raises ZeroDivisionError; any other placement stays inside its column and shows the given page with the given rotation |
| Imposer.PlaceAttempts | booklets/services.py:205-226 | the clipped, centred draw wins unless rejected; then the unclipped whole-column draw; then a white fill of the column |
| Imposer.StarStamp | booklets/services.py:57-62 | the "*" in 20-point Helvetica sits 20 points from the right edge at y = 40 |
| Imposer.AddWatermark | booklets/services.py:53-69 | an empty document is unchanged; otherwise only the first sheet gains one star |
| Imposer.PlacePage | booklets/services.py:189-230 | page `i` fails exactly when its crop box is degenerate; otherwise it stays in its column and is drawn with its sheet's rotation |
| Imposer.PlacementsWell | booklets/services.py:183-230 | every page of the padded document keeps the promise of `place_page` on its sheet |
| Imposer.BuildSheetShape | booklets/services.py:183-230 | sheet `k` fails exactly when one of its two pages is degenerate; otherwise page `k - 1` is in the left column and page `n - k` in the right one |
| Imposer.SheetLoopShape | booklets/services.py:183-234 | the loop either builds every remaining sheet in shape, or stops with ZeroDivisionError exactly when a later sheet holds a degenerate page |
| Imposer.CreateBookletFailure | booklets/services.py:160-238 | an empty input fails with the zero-page save error ValueError("cannot save with zero pages") (line 236); a non-empty input fails, with ZeroDivisionError, exactly when some padded page has a degenerate crop box |
| Imposer.CreateBookletShape | booklets/services.py:160-238 | success gives `ceil(n / 4) * 2` sheets, each pairing pages `k - 1` and `N - k` in the right columns, odd sheets half-turned, and every stamp on the first sheet |
| Imposer.CreateBookletSize | booklets/services.py:175-183 | a booklet of `n` pages has `ceil(n / 4) * 2` sheets |
| Imposer.DegenerateOnSomeSheet | booklets/services.py:180-190 | some sheet holds a degenerate page exactly when some page of the padded document is degenerate |
| Imposer.WatermarkOnlyOnFirstSheet | booklets/services.py:233-234 | with the watermark on, the first sheet carries one star per sheet and no other sheet carries any |
| Merger.MergedPages | booklets/services.py:245-249 | the inserted pages have the total page count and hold every input whole, in order, at its offset |
| Merger.MergePdfs | booklets/services.py:245-251 | the save raises ValueError("cannot save with zero pages") exactly when the inputs hold no page; otherwise the merged document has the total page count and holds every input whole, in order, at its offset |
| Merger.AppendDoc | joinpdf/services.py:44-54 | an empty document is skipped; a parity blank sized like the document's first page goes in before it exactly when the output is non-empty and odd |
| Merger.JoinStartsEven | joinpdf/services.py:48-52 | with parity preserved, every non-empty document starts at an even zero-based index, i.e. on an odd printed page |
| Merger.JoinPrefix | joinpdf/services.py:40-54 | joining a prefix of the documents gives a prefix of the output |
| Merger.JoinPlacesEach | joinpdf/services.py:40-54 | every document appears whole and contiguous at its offset in the output |
| Merger.JoinLength | joinpdf/services.py:40-54 | the output has every input page plus the inserted blanks |
| Merger.JoinBlanksBound | joinpdf/services.py:40-58 | the output is empty exactly when every input is; there are fewer blanks than non-empty inputs, and none without parity |
| Merger.JoinFirstAtZero | joinpdf/services.py:51 | no blank comes before the first non-empty document |
| Merger.JoinLastAtEnd | joinpdf/services.py:40-54 | the last non-empty document ends the output, so the last page is never a blank |
| Merger.JoinWithoutParityIsMerge | joinpdf/services.py:40-54 | without parity, joining is plain merging |
| Merger.JoinExample | joinpdf/services.py:40-54 | a 3-page then a 2-page document give 3 pages, 1 blank, 2 pages, the second starting at index 4 |
| Merger.FirstMissing | joinpdf/services.py:40-42 | the index of the first path that is not a file: every earlier path is a file |
| Merger.JoinPdfs | joinpdf/services.py:22-62 | an empty path list raises ValueError("No hay PDFs para unir"); a success is never empty |
| Merger.JoinLoopResult | joinpdf/services.py:40-54 | the loop stops at the first missing path, or joins every document |
| Merger.JoinPdfsOutcome | joinpdf/services.py:22-62 | empty list: ValueError; the first missing path: FileNotFoundError("No existe: p"); all empty: ValueError("Resultado vacío …"); otherwise the join of every document |
| Text.JobFileName | joinpdf/services.py:72 | a job's output name (`_joined.pdf`, `_booklets_for_printing.pdf`, `_ocr.pdf`) starts with the job id and ends with the suffix, and is exactly as long as both |
| Merger.BuildJoinPipeline | joinpdf/services.py:65-80 | the pipeline fails exactly when the join fails, with its error; success reports the job id and the joined path |
| Text.JobPathsDistinct | joinpdf/services.py:70-72 | distinct relative job ids give distinct output paths in one directory, for any relative suffix |
| Pipeline.Booklets | booklets/services.py:289-297 | the booklets come out in split order; the loop fails exactly when some split fails to impose, with the error of the first such split, every earlier split having imposed |
| Pipeline.BuildBookletsPipeline | booklets/services.py:260-301 | an empty input without parity gives ValueError("PDF vacío"); no split at all (an empty input with parity) gives the zero-page save error of `merge_pdfs`; otherwise success exactly when every split imposes; success reports the job id and the final path |
| Pipeline.BookletsHaveSheets | booklets/services.py:289-299 | the imposed booklets of non-empty splits hold their splits' sheet counts, at least two sheets per split, so the merge has pages to save |
| Pipeline.PipelineErrors | booklets/services.py:260-301 | an empty input always fails: ValueError("PDF vacío") without parity, the zero-page save ValueError with it; a non-empty input fails only with the ZeroDivisionError of a degenerate crop box |
| Pipeline.PipelineLayout | booklets/services.py:289-299 | the final document holds every booklet whole, in split order, and has `sum ceil(n_i / 4) * 2` sheets |
| Pipeline.BookletLengths | booklets/services.py:289-297 | each booklet has the sheet count of its split |
| Pipeline.SheetCapacity | booklets/services.py:175-183 | the sheets hold every page of the splits and waste fewer than four sides per split |
| Pipeline.PipelineCapacity | booklets/services.py:279-299 | with a split size of two or more, the output has room for every page of the working document, wasting fewer than four sides per split |
| Pipeline.BookletPath | booklets/services.py:289-290 | booklet `k` is written under the booklets directory with the split's file name |
| Pipeline.BookletPathsDistinct | booklets/services.py:289-290 | no two booklets are written to the same file |
| Ocr.RequireOcrmypdf | ocrpdf/services.py:17-24 | the executable is returned exactly when `which` finds a non-empty path; otherwise RuntimeError with the installation hint |
| Ocr.LanguageArgs | ocrpdf/services.py:45-48 | the arguments are non-empty exactly when the stripped code is not blank, and are then exactly `-l` followed by the stripped code |
| Ocr.BuildCommand | ocrpdf/services.py:38-64 | the command starts with the executable, `--output-type pdf --optimize n`, and ends with input then output |
| Ocr.CommandRoundTrip | ocrpdf/services.py:38-64 | reading the built command back recovers the executable, the optimisation level, the stripped language when present, each switch, the input and the output |
| Ocr.FlagMembership | ocrpdf/services.py:50-61 | each switch is present exactly when its option is set, and none of them is `-l` |
| Ocr.FlagOrder | ocrpdf/services.py:50-57 | the switches appear once each, in the order deskew, rotate-pages, force-ocr |
| Ocr.DefaultCommand | ocrpdf/services.py:27-64 | the default options give `-l spa --deskew --rotate-pages` and no `--force-ocr` |
| Ocr.Take | ocrpdf/services.py:76 | `s[:n]` is the prefix of length `min(n, len(s))` |
| Ocr.ErrorDetail | ocrpdf/services.py:75-76 | at most 2000 characters of the stripped stderr, or of the stripped stdout when stderr is empty |
| Ocr.BlankStderrWins | ocrpdf/services.py:75 | a whitespace-only stderr still hides stdout, and the detail is empty |
| Ocr.FailureMessage | ocrpdf/services.py:76 | the message starts with "OCR falló (code=" and ends with the detail |
| Ocr.FailureMessageInjective | ocrpdf/services.py:73-76 | different return codes or details give different messages |
| Ocr.RunOcrmypdf | ocrpdf/services.py:27-76 | a missing executable raises the installation hint; otherwise the built command runs; an exception of `subprocess.run` passes through unchanged, and a non-zero return code raises the failure message |
| Ocr.BuildOcrPipeline | ocrpdf/services.py:79-103 | the pipeline fails exactly when the run fails, with its error; success reports the job id and the output path |
| Ocr.OcrPipelineRanCommand | ocrpdf/services.py:79-103 | a success found the executable and ran the command built from the options, on the input and the output path, with return code 0 |
| Tasks.Status.Code | ocrpdf/models.py:8-19 | each status is stored as one of the field's four choices, within the field's 16-character limit |
| Tasks.RunOcrJob | ocrpdf/tasks.py:11-36 | the job is first saved as running with no error; it ends done or error, and only the status, the error message and the output path change |
| Tasks.RunOcrJobOutcome | ocrpdf/tasks.py:20-36 | done, with the pipeline's output path and no message, exactly when the pipeline succeeds; otherwise error with the exception's text and the output path untouched |
| Tasks.MissingExecutableFails | ocrpdf/tasks.py:33-36 | a missing `ocrmypdf` ends the job in error with the installation hint |
| Tasks.FailedProcessRecorded | ocrpdf/tasks.py:33-36 | a non-zero return code ends the job in error with the code and the detail in the message |
| Tasks.LaunchFailureRecorded | ocrpdf/tasks.py:33-36 | a subprocess that cannot be started ends the job in error with the exception's text |
| Settings.EnvGet | pdf_manager_project/settings.py:14 | `os.environ.get` gives the variable when set and the default otherwise |
| Settings.DebugSpec | pdf_manager_project/settings.py:14 | DEBUG is off when the variable is unset, and on exactly for "true" in any ASCII case |
| Settings.StrippedNonEmptyMembers | pdf_manager_project/settings.py:22 | a host is kept exactly when it is the non-empty strip of some piece |
| Settings.StrippedNonEmptyAppend | pdf_manager_project/settings.py:22 | the comprehension keeps the pieces' order: `a + b` gives the hosts of `a` then those of `b` |
| Settings.StrippedNonEmptyOne | pdf_manager_project/settings.py:22 | one piece gives its strip when that is not empty, and nothing otherwise |
| Settings.StrippedNonEmptyInOrder | pdf_manager_project/settings.py:22 | when no piece is blank there is one host per piece, host `k` being the strip of piece `k` |
| Settings.HostsOfMembers | pdf_manager_project/settings.py:16-22 | a lone "*" gives ["*"]; otherwise a host is allowed exactly when it is the non-empty strip of a comma-separated piece |
| Settings.HostsOfInOrder | pdf_manager_project/settings.py:16-22 | for a value other than "*" whose comma pieces are all non-blank, host `k` is the strip of piece `k` |
| Settings.AllowedHostsWellFormed | pdf_manager_project/settings.py:16-22 | no allowed host is empty, holds a comma or has whitespace around it |
| Settings.HostListRoundTrip | pdf_manager_project/settings.py:16-22 | setting the variable to well-formed hosts joined by commas gives back exactly those hosts |
| Settings.DefaultAllowedHosts | pdf_manager_project/settings.py:16-22 | with the variable unset the hosts are localhost and 127.0.0.1 |
| Settings.HttpsOriginsMembers | pdf_manager_project/settings.py:145 | an origin is trusted exactly when it is "https://" followed by a listed host other than "*" |
| Settings.HttpsOriginsAppend | pdf_manager_project/settings.py:145 | the origins keep the hosts' order: `a + b` gives the origins of `a` then those of `b` |
| Settings.HttpsOriginsOne | pdf_manager_project/settings.py:145 | one host gives "https://" followed by the host, unless it is "*", which gives nothing |
| Settings.HttpsOriginsInOrder | pdf_manager_project/settings.py:145 | with no "*" among the hosts there is one origin per host, origin `k` being "https://" followed by host `k` |
| Settings.CsrfSpec | pdf_manager_project/settings.py:142-145 | the lone wildcard trusts no origin; otherwise an origin is trusted exactly when it is the https form of a non-wildcard host, and with no wildcard among the hosts origin `k` is the https form of host `k` |
| Settings.CsrfExample | pdf_manager_project/settings.py:142-145 | ["a.example", "*", "b.example"] trusts the two https origins; ["*"] trusts none |
| Settings.TrimSubpath | pdf_manager_project/settings.py:27 | the trimmed sub-path is a prefix of the value, does not end with '/', and only slashes were removed |
| Settings.TrimSubpathIdempotent | pdf_manager_project/settings.py:27 | trimming twice is trimming once |
| Settings.AppSubpath | pdf_manager_project/settings.py:27 | APP_SUBPATH never ends with a slash |
| Settings.UrlsUnderSubpath | pdf_manager_project/settings.py:119-126 | STATIC_URL and MEDIA_URL are the sub-path followed by "/static/" and "/media/" ("/pdf_manager/…" by default), whatever trailing slashes the variable had |
| Settings.TrailingSlashes | pdf_manager_project/settings.py:27 | trailing slashes added to a trimmed sub-path are removed again |
| Text.StripSpec | pdf_manager_project/settings.py:16 | `str.strip` gives the slice between the leading and trailing whitespace; it neither starts nor ends with whitespace |
| Text.SplitExt | booklets/views.py:23 | `os.path.splitext` gives a base and an extension that concatenate back to the name; the extension is empty or a dot followed by no further dot or slash |
| Text.PathJoin | booklets/views.py:24 | `os.path.join` gives the second part when it is absolute; otherwise the result starts with the first part and ends with the second, with one '/' between them when the first part is non-empty and lacks one |
| Manage.Decide | manage.py:32-41 | `h:p` splits at the first ':' and an empty side keeps its default; digits alone replace only the port |
| Manage.FirstDecisive | manage.py:29-41 | the position of the first argument that is not an option and holds a ':' or only digits |
| Manage.ScanArgsSpec | manage.py:29-41 | the loop's outcome is decided by the first such argument, and the defaults survive when there is none |
| Manage.ScanArgsStops | manage.py:29-41 | arguments after the deciding one are never looked at |
| Manage.ScanArgsNonEmpty | manage.py:20-41 | with the default host and port the announced host and port are never empty |
| Manage.ClickHost | manage.py:44 | 0.0.0.0 and the empty host are shown as 127.0.0.1; any other host is shown as given |
| Manage.ClickableUrl | manage.py:6-49 | a URL is announced exactly when the second argument is "runserver" |
| Manage.ClickableUrlSpec | manage.py:6-49 | the URL is `http://host:port` + the sub-path without trailing slashes + "/booklets/", for the first deciding argument or the defaults |
| Manage.HostPortArgument | manage.py:32-38 | `runserver h:p` announces exactly that host (127.0.0.1 for 0.0.0.0) and port |
| Manage.PortArgument | manage.py:39-41 | `runserver 8001` announces 127.0.0.1 with that port |
| Manage.OtherCommandsSilent | manage.py:11-14 | any other command announces nothing |
| Views.CandidatesDistinct | booklets/views.py:28-33 | the numbered names `base_i.ext` are pairwise different paths |
| Views.NumberedCount | booklets/views.py:28-33 | the first `i` numbered candidates are `i` different paths |
| Views.UniquePath | booklets/views.py:19-33 | the result does not exist, and it is the first candidate in the order tried (the name itself, then `_1`, `_2`, …) that does not; the search always ends |
| Views.FreeNameKept | booklets/views.py:24-26 | when the plain name is free, it is the one returned |
| Views.FileErrorMessage | booklets/views.py:85 | a failed upload's message ends with the exception's text |
| Views.SuccessesAndFailures | booklets/views.py:68-94 | every upload gives either a result row or an error message, and all succeed when every pipeline run does |
| Views.ChosenFresh | booklets/views.py:69-70 | upload paths chosen in turn are new and pairwise different |
| Views.ProcessUploads | booklets/views.py:68-94 | each upload is stored under the first free candidate, given the earlier uploads; the rows and messages are the successes and the failures, in upload order, and a failure does not stop the loop |
| Views.BookletsPost | booklets/views.py:64-97 | no file gives the single "No se recibió ningún fichero …" error; otherwise every file is accounted for, and the success message with the count appears exactly when some file succeeded |

## Left out

- File I/O is not modelled: opening, saving and closing documents,
  `os.makedirs`, temporary directories, and removing the temporary
  parity file (booklets/services.py:147-151). Documents are page lists,
  and a "saved" document is the page list returned.
- `uuid.uuid4().hex` is not modelled. The job id is a parameter.
- The text extraction of PyMuPDF (`get_text`, `get_drawings`) is not
  modelled. A page carries the rectangles these calls would report.
- `fitz.get_text_length` is not modelled. The glyph width is a parameter.
- Floating point is not modelled. Sizes and margins are exact reals, so
  rounding in the scale and the centring is not reproduced.
- The text of an exception raised by `subprocess.run` (for example an
  OSError when the executable cannot be started) is not modelled. It
  comes from the `run` oracle, and the model passes it through.
- Imposer.Place: a `show_pdf_page` rejection is the `fails` oracle, and
  only the ValueError that the code catches is modelled. Other exceptions
  of the library are not.
- Views.ProcessUploads: the loop is modelled over a list of uploads, as
  the comment at booklets/views.py:57 describes. The form at
  booklets/forms.py:8 declares a single `FileField`, so as written
  `cleaned_data["input_pdf"]` would be one uploaded file, not a list.
- Imposer.CreateBooklet: the placements of all pages are computed before
  the sheets are built. `place_page` only reads its page, so the result
  and the first error (sheet order, the low page — the code's `page_right`,
  drawn in the left column — first) are the same as
  placing sheet by sheet.
- Text.Lower: `str.lower` is modelled for ASCII letters only. This matters
  only for the DEBUG comparison with "true".
- Text.IsDigits: `str.isdigit` is modelled for ASCII digits only.
  Python also accepts other Unicode digits as a port.
- Views.ProcessUploads: the result rows keep the job id, not the URL
  `reverse` builds from it. Writing the upload's bytes is not modelled,
  only that the path becomes taken. `run` stands for
  `build_booklets_pipeline` on the stored path.
- Django's forms, rendering, messages framework, ORM queries and saves,
  the download views, URL routing and the `runserver` command override
  are not modelled. The job record is a value, and each save is a state
  of it.
- `print` in `manage.py` is replaced by returning the URL.
- Settings that are plain constants are not modelled: SECRET_KEY,
  INSTALLED_APPS, the database, the time zone and the static storage.

=== FILE: errors.dfy ===
/** Failure-carrying results for the Python exceptions the modelled code raises.
    Each exception is raised with a single message argument, so Python's
    `str(e)` is that message. */
module Errors {

  datatype Option<+T> = None | Some(value: T)

  /** The exception classes the core raises, each with its message. */
  datatype Error =
    | ValueError(message: string)
    | FileNotFoundError(message: string)
    | RuntimeError(message: string)
    | ZeroDivisionError(message: string)
      // raised by the operating system when a process cannot be started;
      // `message` is its whole `str(e)`
    | OSError(message: string)
  {
    /** Python's `str(e)` of an exception built from one string argument. */
    function Str(): string {
      message
    }
  }

  /** The message of the ValueError PyMuPDF raises when asked to save a
      document without pages. */
  const ZeroPagesMessage: string := "cannot save with zero pages"

  /** `save` on a finished document: its pages, or the zero-page ValueError. */
  function SaveDocument<T>(pages: seq<T>): (r: Result<seq<T>>)
    ensures r.Err? <==> pages == []
    ensures r.Err? ==> r.error == ValueError(ZeroPagesMessage)
    ensures r.Ok? ==> r.value == pages
  {
    if pages == [] then Err(ValueError(ZeroPagesMessage)) else Ok(pages)
  }

  /** Either the value an operation returns or the exception it raises. */
  datatype Result<+T> = Ok(value: T) | Err(error: Error) {

    predicate IsFailure() {
      Err?
    }

    function PropagateFailure<U>(): Result<U>
      requires Err?
    {
      Err(error)
    }

    function Extract(): T
      requires Ok?
    {
      value
    }
  }

  /** Applies `f` to each element in order; the first failure stops the loop
      and is returned. */
  function MapUntilError<A, B>(xs: seq<A>, f: A -> Result<B>): (r: Result<seq<B>>)
    ensures r.Ok? <==> forall i :: 0 <= i < |xs| ==> f(xs[i]).Ok?
    ensures r.Ok? ==> |r.value| == |xs| && forall i :: 0 <= i < |xs| ==> r.value[i] == f(xs[i]).value
    ensures r.Err? ==> exists i :: 0 <= i < |xs| && f(xs[i]) == Err(r.error) &&
                                   forall j :: 0 <= j < i ==> f(xs[j]).Ok?
  {
    if xs == [] then Ok([])
    else
      var first :- f(xs[0]);
      var rest := MapUntilError(xs[1..], f);
      assert forall i :: 1 <= i < |xs| ==> xs[i] == xs[1..][i - 1];
      if rest.Err? then
        var i :| 0 <= i < |xs[1..]| && f(xs[1..][i]) == Err(rest.error) &&
                 forall j :: 0 <= j < i ==> f(xs[1..][j]).Ok?;
        assert f(xs[i + 1]) == Err(rest.error) && forall j :: 0 <= j < i + 1 ==> f(xs[j]).Ok?;
        Err(rest.error)
      else
        Ok([first] + rest.value)
  }
}

=== FILE: geometry.dfy ===
/** Page records, rectangles and the content bounding box
    (`detect_content_bbox` in booklets/services.py). Coordinates are `real`:
    the floating-point rounding of the original is not modelled. */
module Geometry {
  import opened Errors

  /** A rectangle in page coordinates, PyMuPDF's `Rect(x0, y0, x1, y1)`. */
  datatype Rect = Rect(x0: real, y0: real, x1: real, y1: real) {

    /** PyMuPDF's `Rect.is_valid`: corners are not swapped (empty allowed). */
    predicate IsValid() {
      x0 <= x1 && y0 <= y1
    }

    /** PyMuPDF's truth value of a `Rect`: false only for the all-zero one. */
    predicate IsTruthy() {
      !(x0 == 0.0 && y0 == 0.0 && x1 == 0.0 && y1 == 0.0)
    }

    /** `Rect.width`, never negative. */
    function Width(): real {
      if x1 - x0 > 0.0 then x1 - x0 else 0.0
    }

    /** `Rect.height`, never negative. */
    function Height(): real {
      if y1 - y0 > 0.0 then y1 - y0 else 0.0
    }

    /** `other` lies inside this rectangle. */
    predicate Contains(other: Rect) {
      x0 <= other.x0 && y0 <= other.y0 && other.x1 <= x1 && other.y1 <= y1
    }
  }

  /** One block of `page.get_text("rawdict")`: its optional "type" and "bbox". */
  datatype RawBlock = RawBlock(kind: Option<int>, bbox: Option<Rect>)

  /** An abstract page: its size, its rotation and what the document library
      reports as its content (text blocks, raw blocks, drawing rectangles). */
  datatype Page = Page(
    width: real,
    height: real,
    rotation: int,
    textBlocks: seq<Rect>,
    rawBlocks: seq<RawBlock>,
    drawings: seq<Option<Rect>>)

  /** `page.rect`. */
  function PageRect(p: Page): (r: Rect)
    ensures r.x0 == 0.0 && r.y0 == 0.0 && r.x1 == p.width && r.y1 == p.height
  {
    Rect(0.0, 0.0, p.width, p.height)
  }

  /** A fresh blank page of the given size (`new_page(width=…, height=…)`). */
  function BlankPage(width: real, height: real): (p: Page)
    ensures p.width == width && p.height == height && p.rotation == 0
    ensures ContentRects(p) == []
  {
    Page(width, height, 0, [], [], [])
  }

  /** A blank page sized like `p` (`_create_blank_page_like`, `_add_blank_page`). */
  function BlankLike(p: Page): (b: Page)
    ensures PageRect(b) == PageRect(p)
    ensures ContentRects(b) == []
  {
    BlankPage(p.width, p.height)
  }

  // ---------------------------------------------------------------
  // Collecting content rectangles
  // ---------------------------------------------------------------

  /** The raw block is an image block (type 1) carrying a "bbox". */
  predicate IsImageBox(b: RawBlock) {
    b.kind == Some(1) && b.bbox.Some?
  }

  /** The bounding boxes of the image blocks, in order. */
  function ImageRects(blocks: seq<RawBlock>): (rs: seq<Rect>)
    ensures |rs| <= |blocks|
  {
    if blocks == [] then []
    else
      var rest := ImageRects(blocks[1..]);
      if IsImageBox(blocks[0]) then [blocks[0].bbox.value] + rest else rest
  }

  /** A rectangle is collected exactly when some image block carries it. */
  lemma {:induction false} ImageRectsMembers(blocks: seq<RawBlock>, r: Rect)
    ensures r in ImageRects(blocks) <==> exists b :: b in blocks && IsImageBox(b) && b.bbox == Some(r)
    decreases |blocks|
  {
    if blocks != [] {
      ImageRectsMembers(blocks[1..], r);
      assert forall b :: b in blocks[1..] ==> b in blocks;
      assert forall b :: b in blocks ==> b == blocks[0] || b in blocks[1..];
    }
  }

  /** A drawing's rectangle is kept when present, truthy and valid. */
  predicate IsKeptDrawing(d: Option<Rect>) {
    d.Some? && d.value.IsTruthy() && d.value.IsValid()
  }

  /** The rectangles of the drawings that are kept, in order. */
  function DrawingRects(drawings: seq<Option<Rect>>): (rs: seq<Rect>)
    ensures |rs| <= |drawings|
  {
    if drawings == [] then []
    else
      var rest := DrawingRects(drawings[1..]);
      if IsKeptDrawing(drawings[0]) then [drawings[0].value] + rest else rest
  }

  /** A rectangle is collected exactly when it is a kept drawing. */
  lemma {:induction false} DrawingRectsMembers(drawings: seq<Option<Rect>>, r: Rect)
    ensures r in DrawingRects(drawings) <==> Some(r) in drawings && IsKeptDrawing(Some(r))
    decreases |drawings|
  {
    if drawings != [] {
      DrawingRectsMembers(drawings[1..], r);
      assert forall d :: d in drawings[1..] ==> d in drawings;
      assert forall d :: d in drawings ==> d == drawings[0] || d in drawings[1..];
    }
  }

  /** Every rectangle `detect_content_bbox` collects: text blocks, then image
      blocks, then valid drawings. */
  function ContentRects(p: Page): seq<Rect> {
    p.textBlocks + ImageRects(p.rawBlocks) + DrawingRects(p.drawings)
  }

  // ---------------------------------------------------------------
  // Union and the content bounding box
  // ---------------------------------------------------------------

  function Min(a: real, b: real): real {
    if a <= b then a else b
  }

  function Max(a: real, b: real): real {
    if a >= b then a else b
  }

  /** The edge-wise union of a non-empty list of rectangles: it contains each
      of them and each of its edges is an edge of one of them. */
  function Union(rs: seq<Rect>): (u: Rect)
    requires |rs| > 0
    ensures forall i :: 0 <= i < |rs| ==> u.Contains(rs[i])
    ensures exists i :: 0 <= i < |rs| && u.x0 == rs[i].x0
    ensures exists i :: 0 <= i < |rs| && u.y0 == rs[i].y0
    ensures exists i :: 0 <= i < |rs| && u.x1 == rs[i].x1
    ensures exists i :: 0 <= i < |rs| && u.y1 == rs[i].y1
  {
    if |rs| == 1 then rs[0]
    else
      var t := Union(rs[1..]);
      var h := rs[0];
      var u := Rect(Min(h.x0, t.x0), Min(h.y0, t.y0), Max(h.x1, t.x1), Max(h.y1, t.y1));
      assert forall i :: 1 <= i < |rs| ==> rs[i] == rs[1..][i - 1];
      u
  }

  /** The union widened by `margin` on every side and clamped to the page. */
  function ExpandAndClamp(u: Rect, margin: real, p: Page): Rect {
    Rect(Max(u.x0 - margin, 0.0), Max(u.y0 - margin, 0.0),
         Min(u.x1 + margin, p.width), Min(u.y1 + margin, p.height))
  }

  /** `detect_content_bbox(page, margin)`: the whole page without content,
      otherwise the clamped, widened union when it is a valid rectangle, and
      the whole page again when it is not. */
  function DetectContentBbox(p: Page, margin: real): (r: Rect)
    // no content: the whole page, margin not applied
    ensures ContentRects(p) == [] ==> r == PageRect(p)
    // otherwise the page rect or a valid rectangle inside the page
    ensures r == PageRect(p)
            || (r.IsValid() && 0.0 <= r.x0 && r.x1 <= p.width && 0.0 <= r.y0 && r.y1 <= p.height)
  {
    var rs := ContentRects(p);
    if rs == [] then PageRect(p)
    else
      var clip := ExpandAndClamp(Union(rs), margin, p);
      if clip.IsValid() then clip else PageRect(p)
  }

  /** A crop covers every content rectangle widened by the margin (within
      the page), and each of its edges comes from one of them. */
  lemma DetectContentBboxCovers(p: Page, margin: real)
    ensures var r := DetectContentBbox(p, margin);
            r != PageRect(p) ==>
              && (forall c :: c in ContentRects(p) ==> r.Contains(ExpandAndClamp(c, margin, p)))
              && (exists c :: c in ContentRects(p) && r.x0 == ExpandAndClamp(c, margin, p).x0)
              && (exists c :: c in ContentRects(p) && r.x1 == ExpandAndClamp(c, margin, p).x1)
              && (exists c :: c in ContentRects(p) && r.y0 == ExpandAndClamp(c, margin, p).y0)
              && (exists c :: c in ContentRects(p) && r.y1 == ExpandAndClamp(c, margin, p).y1)
  {
    var rs := ContentRects(p);
    if rs != [] {
      EdgesFromContent(rs, Union(rs), margin, p);
    }
  }

  /** Each edge of the clamped union is the clamped edge of some content rect,
      and the clamped union contains every clamped content rect. */
  lemma EdgesFromContent(rs: seq<Rect>, u: Rect, margin: real, p: Page)
    requires |rs| > 0 && u == Union(rs)
    ensures forall c :: c in rs ==> ExpandAndClamp(u, margin, p).Contains(ExpandAndClamp(c, margin, p))
    ensures exists c :: c in rs && ExpandAndClamp(u, margin, p).x0 == ExpandAndClamp(c, margin, p).x0
    ensures exists c :: c in rs && ExpandAndClamp(u, margin, p).x1 == ExpandAndClamp(c, margin, p).x1
    ensures exists c :: c in rs && ExpandAndClamp(u, margin, p).y0 == ExpandAndClamp(c, margin, p).y0
    ensures exists c :: c in rs && ExpandAndClamp(u, margin, p).y1 == ExpandAndClamp(c, margin, p).y1
  {
    var i0 :| 0 <= i0 < |rs| && u.x0 == rs[i0].x0;
    var j0 :| 0 <= j0 < |rs| && u.y0 == rs[j0].y0;
    var i1 :| 0 <= i1 < |rs| && u.x1 == rs[i1].x1;
    var j1 :| 0 <= j1 < |rs| && u.y1 == rs[j1].y1;
    assert rs[i0] in rs && rs[j0] in rs && rs[i1] in rs && rs[j1] in rs;
  }

  /** A page whose content is made of valid rectangles lying inside it, with a
      non-negative margin, is always cropped to its clamped content union:
      the full-page fallback is never taken for it. */
  lemma OrdinaryPageIsCropped(p: Page, margin: real)
    requires margin >= 0.0
    requires ContentRects(p) != []
    requires forall c :: c in ContentRects(p) ==> c.IsValid() && PageRect(p).Contains(c)
    ensures DetectContentBbox(p, margin) == ExpandAndClamp(Union(ContentRects(p)), margin, p)
  {
    var rs := ContentRects(p);
    var u := Union(rs);
    var i0 :| 0 <= i0 < |rs| && u.x0 == rs[i0].x0;
    var j0 :| 0 <= j0 < |rs| && u.y0 == rs[j0].y0;
    var i1 :| 0 <= i1 < |rs| && u.x1 == rs[i1].x1;
    var j1 :| 0 <= j1 < |rs| && u.y1 == rs[j1].y1;
    assert rs[i0] in rs && rs[j0] in rs && rs[i1] in rs && rs[j1] in rs;
    assert u.Contains(rs[0]);
    assert ExpandAndClamp(u, margin, p).IsValid();
  }

  // ---------------------------------------------------------------
  // Column geometry of the imposed sheet
  // ---------------------------------------------------------------

  /** A4 landscape output sheet, in points. */
  const OutWidth: real := 842.0
  const OutHeight: real := 595.0

  /** `margin_cm * 72 / 2.54`: centimetres to points. */
  function MarginPoints(marginCm: real): (m: real)
    ensures m * 2.54 == marginCm * 72.0
  {
    marginCm * 72.0 / 2.54
  }

  /** The two columns of a sheet: outer margin, column, centre margin,
      column, outer margin across; margin, column, margin down. */
  datatype Columns = Columns(margin: real, width: real, height: real)

  function ColumnsFor(margin: real): (c: Columns)
    ensures c.margin == margin
    ensures 3.0 * margin + 2.0 * c.width == OutWidth
    ensures 2.0 * margin + c.height == OutHeight
  {
    Columns(margin, (OutWidth - 3.0 * margin) / 2.0, OutHeight - 2.0 * margin)
  }

  /** The whole column whose top-left corner is (x, y). */
  function ColumnRect(x: real, y: real, c: Columns): (r: Rect)
    ensures r.x1 - r.x0 == c.width && r.y1 - r.y0 == c.height
    ensures r.x0 == x && r.y0 == y
  {
    Rect(x, y, x + c.width, y + c.height)
  }

  /** Where `place_page` draws a crop box of positive size: scaled uniformly
      to fit the column and centred in it both ways. */
  function FitInColumn(bbox: Rect, x: real, y: real, c: Columns): (d: Rect)
    requires bbox.Width() > 0.0 && bbox.Height() > 0.0
    // fits inside the column
    ensures ColumnRect(x, y, c).Contains(d)
    // centred horizontally and vertically
    ensures d.x0 - x == (x + c.width) - d.x1
    ensures d.y0 - y == (y + c.height) - d.y1
    // and one dimension fills the column
    ensures d.x1 - d.x0 == c.width || d.y1 - d.y0 == c.height
  {
    var w := bbox.Width();
    var h := bbox.Height();
    var scale := Min(c.width / w, c.height / h);
    ScaleFits(w, h, c.width, c.height);
    var ws := w * scale;
    var hs := h * scale;
    var xd := x + (c.width - ws) / 2.0;
    var yd := y + (c.height - hs) / 2.0;
    Rect(xd, yd, xd + ws, yd + hs)
  }

  /** The drawn rectangle keeps the aspect ratio of the crop box. */
  lemma FitInColumnKeepsAspect(bbox: Rect, x: real, y: real, c: Columns)
    requires bbox.Width() > 0.0 && bbox.Height() > 0.0
    ensures var d := FitInColumn(bbox, x, y, c);
            (d.x1 - d.x0) * bbox.Height() == (d.y1 - d.y0) * bbox.Width()
  {
    ScaleFits(bbox.Width(), bbox.Height(), c.width, c.height);
  }

  /** The uniform scale `min(cw / w, ch / h)` fits both sides and fills one. */
  lemma ScaleFits(w: real, h: real, cw: real, ch: real)
    requires w > 0.0 && h > 0.0
    ensures var s := Min(cw / w, ch / h);
            && w * s <= cw && h * s <= ch
            && (w * s == cw || h * s == ch)
            && (w * s) * h == (h * s) * w
  {
    var s := Min(cw / w, ch / h);
    assert w * (cw / w) == cw;
    assert h * (ch / h) == ch;
    if cw / w <= ch / h {
      assert s == cw / w;
      assert h * s <= h * (ch / h);
    } else {
      assert s == ch / h;
      assert w * s <= w * (cw / w);
    }
  }
}

=== FILE: imposer.dfy ===
/** The booklet imposition of `create_booklet` and the watermark of
    `add_watermark_to_first_page` (booklets/services.py): padding to a
    multiple of four pages, saddle-stitch pairing, the left/right swap, the
    180° turn of odd sheets, the three-step placement fallback and the
    column geometry. */
module Imposer {
  import opened Errors
  import opened Geometry

  // ---------------------------------------------------------------
  // Padding and pairing
  // ---------------------------------------------------------------

  /** The page `insert_page(-1)` appends: the library's default A4 portrait
      blank page, whatever the size of the other pages. */
  const PaddingBlank: Page := BlankPage(595.0, 842.0)

  /** Appends blank pages at the end until the count is a multiple of four
      (lines 175-178): the count becomes the least multiple of four not below
      the original one, and the original pages keep their indices. */
  function Pad(pages: seq<Page>): (padded: seq<Page>)
    ensures |padded| % 4 == 0
    ensures |pages| <= |padded| < |pages| + 4
    ensures padded[..|pages|] == pages
    ensures forall i :: |pages| <= i < |padded| ==> padded[i] == PaddingBlank
    decreases (4 - |pages| % 4) % 4
  {
    if |pages| % 4 == 0 then pages
    else
      var more := Pad(pages + [PaddingBlank]);
      assert more[..|pages|] == (pages + [PaddingBlank])[..|pages|];
      more
  }

  /** The two pages of sheet `k` (1-based) of an `n`-page padded document:
      `left_pages[k-1]` counts down from the last page and `right_pages[k-1]`
      counts up from the first (lines 180-183). */
  function HighPage(n: nat, k: nat): nat
    requires 1 <= k <= n / 2
  {
    n - k
  }

  function LowPage(n: nat, k: nat): nat
    requires 1 <= k <= n / 2
  {
    k - 1
  }

  /** The sheet that carries page `p` of an `n`-page padded document. */
  function SheetOf(n: nat, p: nat): (k: nat)
    requires n % 4 == 0 && p < n
    ensures 1 <= k <= n / 2
    ensures HighPage(n, k) == p || LowPage(n, k) == p
  {
    if p < n / 2 then p + 1 else n - p
  }

  /** The pairing of a padded document: `n / 2` sheets, each pair adding up
      to `n - 1` with one page from each half, and every page index on
      exactly one sheet, the one `SheetOf` names. */
  lemma PairingIsBijective(n: nat, p: nat, k: nat)
    requires n % 4 == 0 && p < n && 1 <= k <= n / 2
    ensures HighPage(n, k) + LowPage(n, k) == n - 1
    ensures LowPage(n, k) < n / 2 <= HighPage(n, k) < n
    ensures HighPage(n, k) == p || LowPage(n, k) == p <==> k == SheetOf(n, p)
  {
  }

  lemma PairingExample()
    ensures forall k :: 1 <= k <= 6 ==> (HighPage(12, k), LowPage(12, k)) == (12 - k, k - 1)
    ensures [HighPage(12, 1), LowPage(12, 1), HighPage(12, 6), LowPage(12, 6)] == [11, 0, 6, 5]
  {
  }

  // ---------------------------------------------------------------
  // Rotation
  // ---------------------------------------------------------------

  /** The rotation a page is drawn with on sheet `k` (lines 195-196): turned
      by 180° on odd sheets, unchanged on even ones. */
  function SheetRotation(k: nat, rotation: int): (r: int)
    ensures k % 2 == 0 ==> r == rotation
    ensures k % 2 == 1 ==> 0 <= r < 360 && (r - rotation - 180) % 360 == 0
  {
    if k % 2 == 1 then (rotation + 180) % 360 else rotation
  }

  // ---------------------------------------------------------------
  // Placing one page into a column
  // ---------------------------------------------------------------

  /** One call of `show_pdf_page`: where to draw, which page, the clip and the
      rotation. */
  datatype ShowRequest = ShowRequest(dest: Rect, pageIndex: nat, source: Page, clip: Option<Rect>, rotation: int)

  /** What ends up in a column: the clipped draw, the unclipped draw of the
      whole page into the whole column, or a white filled rectangle. */
  datatype Placement =
    | Clipped(request: ShowRequest)
    | Unclipped(request: ShowRequest)
    | WhiteFill(area: Rect)
  {
    /** The rectangle of the sheet this placement covers. */
    function Area(): Rect {
      match this
      case Clipped(q) => q.dest
      case Unclipped(q) => q.dest
      case WhiteFill(a) => a
    }
  }

  /** `place_page` (lines 198-226). `fails` says which `show_pdf_page` calls
      raise ValueError; a crop box of zero width or height raises
      ZeroDivisionError, which the fallback does not catch. */
  function Place(index: nat, page: Page, bbox: Rect, x: real, y: real, rotation: int,
                 cols: Columns, fails: ShowRequest -> bool): (r: Result<Placement>)
    ensures r.Err? <==> bbox.Width() == 0.0 || bbox.Height() == 0.0
    ensures r.Err? ==> r.error.ZeroDivisionError?
    // whatever is drawn stays inside the column
    ensures r.Ok? ==> ColumnRect(x, y, cols).Contains(r.value.Area())
    // both draws show the requested page with the requested rotation
    ensures r.Ok? && !r.value.WhiteFill? ==>
              r.value.request.pageIndex == index && r.value.request.source == page
              && r.value.request.rotation == rotation
  {
    if bbox.Width() == 0.0 || bbox.Height() == 0.0 then
      Err(ZeroDivisionError("float division by zero"))
    else
      var clip := if bbox != PageRect(page) then Some(bbox) else None;
      var first := ShowRequest(FitInColumn(bbox, x, y, cols), index, page, clip, rotation);
      if !fails(first) then Ok(Clipped(first))
      else
        var column := ColumnRect(x, y, cols);
        var second := ShowRequest(column, index, page, None, rotation);
        if !fails(second) then Ok(Unclipped(second))
        else Ok(WhiteFill(column))
  }

  /** The three attempts of `place_page`: (1) the crop box scaled and
      centred, clipped unless it is the whole page; (2) after that draw
      fails, the whole page into the whole column, unclipped; (3) after both
      fail, a white column. */
  lemma PlaceAttempts(index: nat, page: Page, bbox: Rect, x: real, y: real, rotation: int,
                      cols: Columns, fails: ShowRequest -> bool)
    requires bbox.Width() != 0.0 && bbox.Height() != 0.0
    ensures var r := Place(index, page, bbox, x, y, rotation, cols, fails);
            var first := ShowRequest(FitInColumn(bbox, x, y, cols), index, page,
                                     if bbox == PageRect(page) then None else Some(bbox), rotation);
            var second := ShowRequest(ColumnRect(x, y, cols), index, page, None, rotation);
            && r.Ok?
            && (r.value.Clipped? <==> !fails(first))
            && (r.value.Clipped? ==> r.value.request == first)
            && (r.value.Unclipped? <==> fails(first) && !fails(second))
            && (r.value.Unclipped? ==> r.value.request == second)
            && (r.value.WhiteFill? <==> fails(first) && fails(second))
            && (r.value.WhiteFill? ==> r.value.area == ColumnRect(x, y, cols))
  {
  }

  // ---------------------------------------------------------------
  // Watermark
  // ---------------------------------------------------------------

  /** The "*" of `add_watermark_to_first_page`, 20 points from the top-right
      corner, Helvetica 20 pt; `textWidth` is the library's measured width of
      the glyph (`get_text_length`). */
  datatype Stamp = Stamp(x: real, y: real, text: string, font: string, fontSize: real)

  function StarStamp(pageWidth: real, textWidth: real): (s: Stamp)
    ensures s.x + textWidth + 20.0 == pageWidth && s.y == 40.0
    ensures s.text == "*" && s.font == "helv" && s.fontSize == 20.0
  {
    Stamp(pageWidth - textWidth - 20.0, 20.0 + 20.0, "*", "helv", 20.0)
  }

  /** One output sheet: its number, the two source pages, what is drawn in
      each column, and the stamps put on it. */
  datatype Sheet = Sheet(number: nat, low: nat, high: nat, left: Placement, right: Placement, stamps: seq<Stamp>)

  /** `add_watermark_to_first_page` (lines 53-69): an empty document is left
      alone, otherwise page 0 gets one more stamp and nothing else changes. */
  function AddWatermark(doc: seq<Sheet>, textWidth: real): (out: seq<Sheet>)
    ensures |out| == |doc|
    ensures doc == [] ==> out == doc
    ensures doc != [] ==> out[0] == doc[0].(stamps := doc[0].stamps + [StarStamp(OutWidth, textWidth)])
    ensures forall i :: 1 <= i < |doc| ==> out[i] == doc[i]
  {
    if doc == [] then doc
    else doc[0 := doc[0].(stamps := doc[0].stamps + [StarStamp(OutWidth, textWidth)])]
  }

  // ---------------------------------------------------------------
  // Sheets
  // ---------------------------------------------------------------

  /** The crop box of a page cannot be scaled: it has no width or height. */
  predicate Degenerate(p: Page, margin: real) {
    var b := DetectContentBbox(p, margin);
    b.Width() == 0.0 || b.Height() == 0.0
  }

  /** The x of the column page `i` of an `n`-page padded document goes into:
      pages of the first half are the low pages of their sheets and go left
      (x = margin), the others go right (x = 2 * margin + column width). */
  function ColumnX(n: nat, i: nat, cols: Columns): real {
    if i < n / 2 then cols.margin else 2.0 * cols.margin + cols.width
  }

  /** What `place_page` promises for page `i`: ZeroDivisionError exactly on a
      degenerate crop box; otherwise the drawing stays in the page's column
      and shows page `i` with the rotation of the sheet that carries it. */
  predicate PlacedWell(r: Result<Placement>, padded: seq<Page>, i: nat, cols: Columns)
    requires |padded| % 4 == 0 && i < |padded|
  {
    && (r.Err? <==> Degenerate(padded[i], cols.margin))
    && (r.Err? ==> r.error.ZeroDivisionError?)
    && DrawsWell(r, padded, i, cols)
  }

  /** A successful placement of page `i` stays in its column and shows page
      `i` (its index and the page itself) with its sheet's rotation. */
  predicate DrawsWell(r: Result<Placement>, padded: seq<Page>, i: nat, cols: Columns)
    requires |padded| % 4 == 0 && i < |padded|
  {
    var n := |padded|;
    && (r.Ok? ==> ColumnRect(ColumnX(n, i, cols), cols.margin, cols).Contains(r.value.Area()))
    && (r.Ok? && !r.value.WhiteFill? ==>
          r.value.request.pageIndex == i && r.value.request.source == padded[i]
          && r.value.request.rotation == SheetRotation(SheetOf(n, i), padded[i].rotation))
  }

  /** Page `i` placed with its content box into its column on its sheet,
      turned with that sheet's rotation (lines 185-230). */
  function PlacePage(padded: seq<Page>, i: nat, cols: Columns, fails: ShowRequest -> bool): (r: Result<Placement>)
    requires |padded| % 4 == 0 && i < |padded|
    ensures PlacedWell(r, padded, i, cols)
  {
    var n := |padded|;
    var m := cols.margin;
    Place(i, padded[i], DetectContentBbox(padded[i], m), ColumnX(n, i, cols), m,
          SheetRotation(SheetOf(n, i), padded[i].rotation), cols, fails)
  }

  /** Every page of the padded document placed where its sheet puts it. The
      placements are pure, so computing them all up front and reading them in
      sheet order gives what the loop of lines 183-234 draws and raises. */
  function Placements(padded: seq<Page>, cols: Columns, fails: ShowRequest -> bool): (ps: seq<Result<Placement>>)
    requires |padded| % 4 == 0
    ensures |ps| == |padded|
  {
    seq(|padded|, i requires 0 <= i < |padded| => PlacePage(padded, i, cols, fails))
  }

  /** Each placement keeps the promise of `place_page` for its page. */
  lemma PlacementsWell(padded: seq<Page>, cols: Columns, fails: ShowRequest -> bool)
    requires |padded| % 4 == 0
    ensures AllPlacedWell(Placements(padded, cols, fails), padded, cols)
  {
    var ps := Placements(padded, cols, fails);
    forall i | 0 <= i < |padded|
      ensures PlacedWell(ps[i], padded, i, cols)
    {
      assert ps[i] == PlacePage(padded, i, cols, fails);
    }
  }

  /** Every placement keeps the promise of `place_page`. */
  predicate AllPlacedWell(ps: seq<Result<Placement>>, padded: seq<Page>, cols: Columns)
    requires |padded| % 4 == 0
  {
    |ps| == |padded| && forall i :: 0 <= i < |padded| ==> PlacedWell(ps[i], padded, i, cols)
  }

  /** Sheet `k` of a padded document (lines 184-230): the low (first-half)
      page in the LEFT column, the high page in the RIGHT column; the low
      page is placed first, so its error is the one raised. */
  function BuildSheet(ps: seq<Result<Placement>>, k: nat): (r: Result<Sheet>)
    requires |ps| % 4 == 0 && 1 <= k <= |ps| / 2
  {
    var n := |ps|;
    var high := HighPage(n, k);
    var low := LowPage(n, k);
    var left :- ps[low];
    var right :- ps[high];
    Ok(Sheet(k, low, high, left, right, []))
  }

  /** Sheet `i + 1` of a padded document carries the right pages in the right
      columns: page `i` on the left at x = margin, page `n - 1 - i` on the
      right at x = 2 * margin + column width, each drawn (when drawn) with the
      sheet's rotation. */
  predicate SheetShape(s: Sheet, padded: seq<Page>, i: nat, cols: Columns)
    requires |padded| % 4 == 0 && i < |padded| / 2
  {
    var n := |padded|;
    var m := cols.margin;
    && s.number == i + 1
    && s.low == i && s.high == n - 1 - i
    && ColumnRect(m, m, cols).Contains(s.left.Area())
    && ColumnRect(2.0 * m + cols.width, m, cols).Contains(s.right.Area())
    && (!s.left.WhiteFill? ==>
          s.left.request.pageIndex == i && s.left.request.source == padded[i]
          && s.left.request.rotation == SheetRotation(i + 1, padded[i].rotation))
    && (!s.right.WhiteFill? ==>
          s.right.request.pageIndex == n - 1 - i && s.right.request.source == padded[n - 1 - i]
          && s.right.request.rotation == SheetRotation(i + 1, padded[n - 1 - i].rotation))
  }

  /** The first `count` sheets: each in shape, the stamps all on sheet 0. */
  predicate SheetsShape(sheets: seq<Sheet>, padded: seq<Page>, count: nat, cols: Columns,
                        addWatermark: bool, textWidth: real)
    requires |padded| % 4 == 0 && count <= |padded| / 2
  {
    && |sheets| == count
    && (forall i :: 0 <= i < count ==> SheetShape(sheets[i], padded, i, cols))
    && (forall i :: 1 <= i < count ==> sheets[i].stamps == [])
    && (count > 0 ==> sheets[0].stamps == Stamps(if addWatermark then count else 0, textWidth))
  }

  /** Building sheet `k` fails exactly on a degenerate crop box of one of its
      two pages; otherwise the sheet is in shape and carries no stamp yet. */
  lemma BuildSheetShape(ps: seq<Result<Placement>>, padded: seq<Page>, k: nat, cols: Columns)
    requires |padded| % 4 == 0 && 1 <= k <= |padded| / 2
    requires AllPlacedWell(ps, padded, cols)
    ensures var r := BuildSheet(ps, k);
            && (r.Err? <==> (Degenerate(padded[HighPage(|padded|, k)], cols.margin)
                             || Degenerate(padded[LowPage(|padded|, k)], cols.margin)))
            && (r.Err? ==> r.error.ZeroDivisionError?)
            && (r.Ok? ==> SheetShape(r.value, padded, k - 1, cols) && r.value.stamps == [])
  {
    BuildSheetErr(ps, padded, k, cols);
    if BuildSheet(ps, k).Ok? {
      assert PlacedWell(ps[k - 1], padded, k - 1, cols);
      assert PlacedWell(ps[|padded| - k], padded, |padded| - k, cols);
      BuildSheetOk(ps, padded, k, cols);
    }
  }

  lemma BuildSheetErr(ps: seq<Result<Placement>>, padded: seq<Page>, k: nat, cols: Columns)
    requires |padded| % 4 == 0 && 1 <= k <= |padded| / 2
    requires AllPlacedWell(ps, padded, cols)
    ensures var r := BuildSheet(ps, k);
            && (r.Err? <==> (Degenerate(padded[HighPage(|padded|, k)], cols.margin)
                             || Degenerate(padded[LowPage(|padded|, k)], cols.margin)))
            && (r.Err? ==> r.error.ZeroDivisionError?)
  {
    assert PlacedWell(ps[k - 1], padded, k - 1, cols);
    assert PlacedWell(ps[|padded| - k], padded, |padded| - k, cols);
  }

  lemma BuildSheetOk(ps: seq<Result<Placement>>, padded: seq<Page>, k: nat, cols: Columns)
    requires |padded| % 4 == 0 && 1 <= k <= |padded| / 2 && |ps| == |padded|
    requires DrawsWell(ps[k - 1], padded, k - 1, cols)
    requires DrawsWell(ps[|padded| - k], padded, |padded| - k, cols)
    requires BuildSheet(ps, k).Ok?
    ensures SheetShape(BuildSheet(ps, k).value, padded, k - 1, cols)
    ensures BuildSheet(ps, k).value.stamps == []
  {
    var n := |padded|;
    var low := ps[k - 1];
    var high := ps[n - k];
    SheetColumns(n, k, cols);
    assert BuildSheet(ps, k) == Ok(Sheet(k, k - 1, n - k, low.value, high.value, []));
    PlacedShape(padded, k, cols, low.value, high.value);
  }

  /** Sheet `k` takes its low page into the left column and its high page
      into the right one, and both pages name it as their sheet. */
  lemma SheetColumns(n: nat, k: nat, cols: Columns)
    requires n % 4 == 0 && 1 <= k <= n / 2
    ensures ColumnX(n, k - 1, cols) == cols.margin
    ensures ColumnX(n, n - k, cols) == 2.0 * cols.margin + cols.width
    ensures SheetOf(n, k - 1) == k && SheetOf(n, n - k) == k
  {
  }

  /** The two placements of sheet `k` put it in shape. */
  lemma PlacedShape(padded: seq<Page>, k: nat, cols: Columns, left: Placement, right: Placement)
    requires |padded| % 4 == 0 && 1 <= k <= |padded| / 2
    requires ColumnRect(cols.margin, cols.margin, cols).Contains(left.Area())
    requires ColumnRect(2.0 * cols.margin + cols.width, cols.margin, cols).Contains(right.Area())
    requires !left.WhiteFill? ==>
               left.request.pageIndex == k - 1 && left.request.source == padded[k - 1]
               && left.request.rotation == SheetRotation(k, padded[k - 1].rotation)
    requires !right.WhiteFill? ==>
               right.request.pageIndex == |padded| - k && right.request.source == padded[|padded| - k]
               && right.request.rotation == SheetRotation(k, padded[|padded| - k].rotation)
    ensures SheetShape(Sheet(k, k - 1, |padded| - k, left, right, []), padded, k - 1, cols)
  {
  }

  /** `count` copies of the star stamp. */
  function Stamps(count: nat, textWidth: real): (s: seq<Stamp>)
    ensures |s| == count
    ensures forall i :: 0 <= i < count ==> s[i] == StarStamp(OutWidth, textWidth)
  {
    seq(count, i => StarStamp(OutWidth, textWidth))
  }

  /** Some page of the document has a degenerate crop box. */
  predicate AnyDegenerate(padded: seq<Page>, margin: real) {
    exists i :: 0 <= i < |padded| && Degenerate(padded[i], margin)
  }

  /** Some page placed on sheets `from..n/2` has a degenerate crop box. */
  predicate SomeDegenerateFrom(padded: seq<Page>, from: nat, margin: real)
    requires |padded| % 4 == 0
  {
    exists k :: from <= k <= |padded| / 2 && 1 <= k
      && (Degenerate(padded[HighPage(|padded|, k)], margin) || Degenerate(padded[LowPage(|padded|, k)], margin))
  }

  /** The sheet loop (lines 183-234) from sheet `k`, with the sheets so far. */
  function SheetLoop(ps: seq<Result<Placement>>, k: nat, acc: seq<Sheet>,
                     addWatermark: bool, textWidth: real): Result<seq<Sheet>>
    requires |ps| % 4 == 0 && 1 <= k <= |ps| / 2 + 1
    decreases |ps| / 2 + 1 - k
  {
    if k > |ps| / 2 then Ok(acc)
    else
      var sheet :- BuildSheet(ps, k);
      var withSheet := acc + [sheet];
      var stamped := if addWatermark then AddWatermark(withSheet, textWidth) else withSheet;
      SheetLoop(ps, k + 1, stamped, addWatermark, textWidth)
  }

  /** One sheet more, then the watermark when asked for, keeps the shape. */
  lemma StepShape(padded: seq<Page>, k: nat, acc: seq<Sheet>, sheet: Sheet, cols: Columns,
                  addWatermark: bool, textWidth: real)
    requires |padded| % 4 == 0 && 1 <= k <= |padded| / 2
    requires SheetsShape(acc, padded, k - 1, cols, addWatermark, textWidth)
    requires SheetShape(sheet, padded, k - 1, cols) && sheet.stamps == []
    ensures var withSheet := acc + [sheet];
            SheetsShape(if addWatermark then AddWatermark(withSheet, textWidth) else withSheet,
                        padded, k, cols, addWatermark, textWidth)
  {
    var withSheet := acc + [sheet];
    var out := if addWatermark then AddWatermark(withSheet, textWidth) else withSheet;
    assert forall i :: 0 <= i < k ==> out[i].(stamps := []) == withSheet[i].(stamps := []);
    forall i | 0 <= i < k
      ensures SheetShape(out[i], padded, i, cols)
    {
      assert SheetShape(withSheet[i], padded, i, cols);
    }
    assert out[0].stamps == Stamps(if addWatermark then k else 0, textWidth);
  }

  /** The loop either builds every remaining sheet in shape, or stops with
      ZeroDivisionError exactly when a remaining page has a degenerate crop box. */
  lemma {:induction false} SheetLoopShape(ps: seq<Result<Placement>>, padded: seq<Page>, k: nat,
                                          acc: seq<Sheet>, cols: Columns, addWatermark: bool, textWidth: real)
    requires |padded| % 4 == 0 && 1 <= k <= |padded| / 2 + 1
    requires AllPlacedWell(ps, padded, cols)
    requires SheetsShape(acc, padded, k - 1, cols, addWatermark, textWidth)
    ensures var r := SheetLoop(ps, k, acc, addWatermark, textWidth);
            && (r.Err? <==> SomeDegenerateFrom(padded, k, cols.margin))
            && (r.Err? ==> r.error.ZeroDivisionError?)
            && (r.Ok? ==> SheetsShape(r.value, padded, |padded| / 2, cols, addWatermark, textWidth))
    decreases |padded| / 2 + 1 - k
  {
    var n := |padded|;
    if k <= n / 2 {
      var b := BuildSheet(ps, k);
      var m := cols.margin;
      BuildSheetShape(ps, padded, k, cols);
      if b.Ok? {
        StepShape(padded, k, acc, b.value, cols, addWatermark, textWidth);
        var withSheet := acc + [b.value];
        var stamped := if addWatermark then AddWatermark(withSheet, textWidth) else withSheet;
        SheetLoopShape(ps, padded, k + 1, stamped, cols, addWatermark, textWidth);
      }
      DegenerateFromStep(padded, k, m);
    }
  }

  /** Sheet `k` has a degenerate page, or the question moves on to sheet `k + 1`. */
  lemma DegenerateFromStep(padded: seq<Page>, k: nat, margin: real)
    requires |padded| % 4 == 0 && 1 <= k <= |padded| / 2
    ensures SomeDegenerateFrom(padded, k, margin) <==>
              (Degenerate(padded[HighPage(|padded|, k)], margin) || Degenerate(padded[LowPage(|padded|, k)], margin)
               || SomeDegenerateFrom(padded, k + 1, margin))
  {
  }

  /** `create_booklet` (lines 160-238) as a plan of output sheets. `fails`
      answers which `show_pdf_page` calls raise ValueError and `textWidth` is
      the measured width of the watermark glyph. */
  function CreateBooklet(pages: seq<Page>, marginCm: real, addWatermark: bool,
                         textWidth: real, fails: ShowRequest -> bool): (r: Result<seq<Sheet>>)
  {
    var sheets :- ImposeSheets(pages, marginCm, addWatermark, textWidth, fails);
    // `doc_out.save` (line 236) rejects a document without pages
    SaveDocument(sheets)
  }

  /** The sheet loop of `create_booklet` on the padded document. */
  function ImposeSheets(pages: seq<Page>, marginCm: real, addWatermark: bool,
                        textWidth: real, fails: ShowRequest -> bool): Result<seq<Sheet>>
  {
    var padded := Pad(pages);
    var cols := ColumnsFor(MarginPoints(marginCm));
    SheetLoop(Placements(padded, cols, fails), 1, [], addWatermark, textWidth)
  }

  /** The sheet loop fails, with ZeroDivisionError, exactly when some padded
      page is degenerate; otherwise it builds every sheet in shape. */
  lemma ImposeSheetsOutcome(pages: seq<Page>, marginCm: real, addWatermark: bool,
                            textWidth: real, fails: ShowRequest -> bool)
    ensures var r := ImposeSheets(pages, marginCm, addWatermark, textWidth, fails);
            && (r.Err? <==> AnyDegenerate(Pad(pages), MarginPoints(marginCm)))
            && (r.Err? ==> r.error.ZeroDivisionError?)
            && (r.Ok? ==> SheetsShape(r.value, Pad(pages), |Pad(pages)| / 2, ColumnsFor(MarginPoints(marginCm)),
                                      addWatermark, textWidth))
  {
    var padded := Pad(pages);
    var cols := ColumnsFor(MarginPoints(marginCm));
    PlacementsWell(padded, cols, fails);
    assert SheetsShape([], padded, 0, cols, addWatermark, textWidth);
    SheetLoopShape(Placements(padded, cols, fails), padded, 1, [], cols, addWatermark, textWidth);
    DegenerateOnSomeSheet(padded, cols.margin);
  }

  /** An empty document has no sheet to save and fails with the zero-page
      ValueError. Any other document fails, with ZeroDivisionError, exactly
      when some padded page has a crop box of zero width or height: every
      page is placed on some sheet and the fallback does not catch that
      error. */
  lemma CreateBookletFailure(pages: seq<Page>, marginCm: real, addWatermark: bool,
                             textWidth: real, fails: ShowRequest -> bool)
    ensures var r := CreateBooklet(pages, marginCm, addWatermark, textWidth, fails);
            && (pages == [] ==> r == Err(ValueError(ZeroPagesMessage)))
            && (pages != [] ==> (r.Err? <==> AnyDegenerate(Pad(pages), MarginPoints(marginCm))))
            && (pages != [] && r.Err? ==> r.error.ZeroDivisionError?)
  {
    ImposeSheetsOutcome(pages, marginCm, addWatermark, textWidth, fails);
    var loop := ImposeSheets(pages, marginCm, addWatermark, textWidth, fails);
    if loop.Ok? {
      assert |loop.value| == |Pad(pages)| / 2;
      if pages == [] {
        assert |Pad(pages)| == 0;
      } else {
        assert |Pad(pages)| >= 4;
      }
    }
  }

  /** What a successful `create_booklet` produces: half as many sheets as
      padded pages, sheet k pairing pages `N - k` and `k - 1`, the low page in
      the left column and the high page in the right one, odd sheets turned
      by 180°, and all watermark stamps (one per sheet) on the first sheet. */
  lemma CreateBookletShape(pages: seq<Page>, marginCm: real, addWatermark: bool,
                           textWidth: real, fails: ShowRequest -> bool)
    requires CreateBooklet(pages, marginCm, addWatermark, textWidth, fails).Ok?
    ensures var sheets := CreateBooklet(pages, marginCm, addWatermark, textWidth, fails).value;
            && |sheets| == |Pad(pages)| / 2 == (|pages| + 3) / 4 * 2
            && SheetsShape(sheets, Pad(pages), |Pad(pages)| / 2, ColumnsFor(MarginPoints(marginCm)),
                           addWatermark, textWidth)
  {
    ImposeSheetsOutcome(pages, marginCm, addWatermark, textWidth, fails);
    var r := ImposeSheets(pages, marginCm, addWatermark, textWidth, fails);
    assert r.Ok? && r.value == CreateBooklet(pages, marginCm, addWatermark, textWidth, fails).value;
    PaddedCount(|pages|, |Pad(pages)|);
  }

  /** A booklet of `n` pages takes `ceil(n / 4) * 2` sheets. */
  lemma CreateBookletSize(pages: seq<Page>, marginCm: real, addWatermark: bool,
                          textWidth: real, fails: ShowRequest -> bool)
    requires CreateBooklet(pages, marginCm, addWatermark, textWidth, fails).Ok?
    ensures |CreateBooklet(pages, marginCm, addWatermark, textWidth, fails).value| == (|pages| + 3) / 4 * 2
  {
    CreateBookletShape(pages, marginCm, addWatermark, textWidth, fails);
  }

  /** The padded count is four times the number of started groups of four. */
  lemma PaddedCount(n: nat, padded: nat)
    requires padded % 4 == 0 && n <= padded < n + 4
    ensures padded / 2 == (n + 3) / 4 * 2
  {
    var q := padded / 4;
    assert padded == 4 * q;
    assert (n + 3) / 4 == q;
  }

  /** A page with a degenerate crop box sits on some sheet, and every page of
      a sheet is a page of the document. */
  lemma DegenerateOnSomeSheet(padded: seq<Page>, margin: real)
    requires |padded| % 4 == 0
    ensures SomeDegenerateFrom(padded, 1, margin) <==> AnyDegenerate(padded, margin)
  {
    var n := |padded|;
    if exists i :: 0 <= i < n && Degenerate(padded[i], margin) {
      var i :| 0 <= i < n && Degenerate(padded[i], margin);
      var k := SheetOf(n, i);
      assert Degenerate(padded[HighPage(n, k)], margin) || Degenerate(padded[LowPage(n, k)], margin);
    }
    if SomeDegenerateFrom(padded, 1, margin) {
      var k :| 1 <= k <= n / 2
        && (Degenerate(padded[HighPage(n, k)], margin) || Degenerate(padded[LowPage(n, k)], margin));
      if Degenerate(padded[HighPage(n, k)], margin) {
        assert 0 <= HighPage(n, k) < n;
      } else {
        assert 0 <= LowPage(n, k) < n;
      }
    }
  }

  /** The watermark lands only on the first output sheet, once per sheet. */
  lemma WatermarkOnlyOnFirstSheet(pages: seq<Page>, marginCm: real, textWidth: real,
                                  fails: ShowRequest -> bool)
    requires CreateBooklet(pages, marginCm, true, textWidth, fails).Ok?
    requires pages != []
    ensures var sheets := CreateBooklet(pages, marginCm, true, textWidth, fails).value;
            && |sheets| > 0 && |sheets[0].stamps| == |sheets|
            && forall i :: 1 <= i < |sheets| ==> sheets[i].stamps == []
  {
    CreateBookletShape(pages, marginCm, true, textWidth, fails);
  }
}

=== FILE: manage.dfy ===
/** The clickable URL `manage.py` announces before `runserver` starts
    (`_print_clickable_url_if_runserver`): printing is replaced by returning
    the URL, or nothing when the command is not `runserver`. */
module Manage {
  import opened Errors
  import opened Text
  import opened Settings

  /** Where the development server listens: host and port as given. */
  datatype Address = Address(host: string, port: string)

  const DefaultHost: string := "127.0.0.1"
  const DefaultPort: string := "8000"

  /** An argument the address loop stops at: not an option, and either holding
      a ':' (`addr:port`) or made of digits only (a bare port). */
  predicate Decisive(a: string) {
    !StartsWith(a, "-") && (IndexOf(a, ':') < |a| || IsDigits(a))
  }

  /** What one decisive argument sets: `h:p` splits at the first ':' and an
      empty side keeps its default; a bare port replaces the port only. */
  function Decide(a: string, host: string, port: string): (r: Address)
    requires Decisive(a)
    ensures IndexOf(a, ':') == |a| ==> r == Address(host, a)
    ensures IndexOf(a, ':') < |a| ==>
              && (if IndexOf(a, ':') == 0 then r.host == host else r.host + a[IndexOf(a, ':')..] == a)
              && (if IndexOf(a, ':') + 1 == |a| then r.port == port else a[..IndexOf(a, ':') + 1] + r.port == a)
  {
    if IndexOf(a, ':') < |a| then
      var (h, p) := SplitOnce(a, ':');
      assert a[..|h|] == h && a[|h| + 1..] == p;
      Address(if h != "" then h else host, if p != "" then p else port)
    else Address(host, a)
  }

  /** The loop over `sys.argv[2:]` (lines 29-41): options are skipped, the
      first decisive argument decides, anything else is passed over. */
  function ScanArgs(args: seq<string>, host: string, port: string): (r: Address)
    decreases |args|
  {
    if args == [] then Address(host, port)
    else if Decisive(args[0]) then Decide(args[0], host, port)
    else ScanArgs(args[1..], host, port)
  }

  /** Position of the first decisive argument, or `|args|` when none is. */
  function FirstDecisive(args: seq<string>): (k: nat)
    ensures k <= |args|
    ensures forall i :: 0 <= i < k ==> !Decisive(args[i])
    ensures k < |args| ==> Decisive(args[k])
    decreases |args|
  {
    if args == [] then 0
    else if Decisive(args[0]) then 0
    else
      var k := 1 + FirstDecisive(args[1..]);
      assert forall i :: 1 <= i < k ==> args[i] == args[1..][i - 1];
      k
  }

  /** The loop's outcome depends only on the first decisive argument: the
      defaults survive when there is none, and arguments after it are never
      looked at. */
  lemma {:induction false} ScanArgsSpec(args: seq<string>, host: string, port: string)
    ensures FirstDecisive(args) == |args| ==> ScanArgs(args, host, port) == Address(host, port)
    ensures FirstDecisive(args) < |args| ==>
              ScanArgs(args, host, port) == Decide(args[FirstDecisive(args)], host, port)
    decreases |args|
  {
    if args != [] && !Decisive(args[0]) {
      ScanArgsSpec(args[1..], host, port);
    }
  }

  /** Arguments after a decisive one never change the address. */
  lemma {:induction false} ScanArgsStops(args: seq<string>, more: seq<string>, host: string, port: string)
    requires FirstDecisive(args) < |args|
    ensures ScanArgs(args + more, host, port) == ScanArgs(args, host, port)
    decreases |args|
  {
    assert (args + more)[0] == args[0];
    if !Decisive(args[0]) {
      assert (args + more)[1..] == args[1..] + more;
      assert FirstDecisive(args) > 0;
      ScanArgsStops(args[1..], more, host, port);
    }
  }

  /** With non-empty defaults the host and port found are never empty. */
  lemma {:induction false} ScanArgsNonEmpty(args: seq<string>, host: string, port: string)
    requires host != "" && port != ""
    ensures ScanArgs(args, host, port).host != "" && ScanArgs(args, host, port).port != ""
    decreases |args|
  {
    if args != [] && !Decisive(args[0]) {
      ScanArgsNonEmpty(args[1..], host, port);
    }
  }

  /** Listening on every interface (or on an empty host) is shown as the
      loopback address. */
  function ClickHost(host: string): (h: string)
    ensures h != "0.0.0.0" && h != ""
    ensures host == "0.0.0.0" || host == "" ==> h == DefaultHost
    ensures host != "0.0.0.0" && host != "" ==> h == host
  {
    if host == "0.0.0.0" || host == "" then DefaultHost else host
  }

  /** `_print_clickable_url_if_runserver` (lines 6-49) with `argv` for
      `sys.argv` and `env` for the environment. */
  function ClickableUrl(argv: seq<string>, env: map<string, string>): (r: Option<string>)
    ensures r.Some? <==> |argv| >= 2 && argv[1] == "runserver"
  {
    if |argv| < 2 || argv[1] != "runserver" then None
    else
      var subpath := TrimSubpath(EnvGet(env, "PDF_MANAGER_SUBPATH", DefaultSubpath));
      var addr := ScanArgs(argv[2..], DefaultHost, DefaultPort);
      Some(Url(ClickHost(addr.host), addr.port, subpath))
  }

  function Url(host: string, port: string, subpath: string): string {
    "http://" + host + ":" + port + subpath + "/booklets/"
  }

  /** The URL the announcement shows when `runserver` is given: the host
      and port of the first decisive argument after it (the defaults when
      there is none), the loopback address for 0.0.0.0, and the sub-path
      without trailing slashes. */
  lemma ClickableUrlSpec(argv: seq<string>, env: map<string, string>)
    requires |argv| >= 2 && argv[1] == "runserver"
    ensures var args := argv[2..];
            var k := FirstDecisive(args);
            var addr := if k < |args| then Decide(args[k], DefaultHost, DefaultPort)
                        else Address(DefaultHost, DefaultPort);
            var subpath := TrimSubpath(EnvGet(env, "PDF_MANAGER_SUBPATH", DefaultSubpath));
            && ClickableUrl(argv, env) == Some(Url(ClickHost(addr.host), addr.port, subpath))
            && addr.host != "" && addr.port != ""
  {
    ScanArgsSpec(argv[2..], DefaultHost, DefaultPort);
    ScanArgsNonEmpty(argv[2..], DefaultHost, DefaultPort);
  }

  /** `runserver h:p` with a plain host and a port shows exactly that host
      and port (the loopback address for 0.0.0.0). */
  lemma HostPortArgument(prog: string, h: string, p: string, rest: seq<string>, env: map<string, string>)
    requires h != "" && p != "" && h[0] != '-'
    requires forall i :: 0 <= i < |h| ==> h[i] != ':'
    ensures ClickableUrl([prog, "runserver", h + ":" + p] + rest, env)
            == Some(Url(ClickHost(h), p, TrimSubpath(EnvGet(env, "PDF_MANAGER_SUBPATH", DefaultSubpath))))
  {
    var a := h + ":" + p;
    var argv := [prog, "runserver", a] + rest;
    assert argv[2..] == [a] + rest;
    assert a[0] == h[0];
    IndexOfAfter(h, p);
    assert Decisive(a);
    var (h', p') := SplitOnce(a, ':');
    assert a[..|h|] == h && a[|h| + 1..] == p;
    assert Decide(a, DefaultHost, DefaultPort) == Address(h, p);
  }

  /** The first ':' of `h + ":" + p` is the one after `h` when `h` has none. */
  lemma IndexOfAfter(h: string, p: string)
    requires forall i :: 0 <= i < |h| ==> h[i] != ':'
    ensures IndexOf(h + ":" + p, ':') == |h|
  {
    var a := h + ":" + p;
    assert a[|h|] == ':';
    assert forall i :: 0 <= i < |h| ==> a[i] == h[i];
  }

  /** `runserver` with a bare port shows the loopback address and that port. */
  lemma PortArgument(prog: string, port: string, rest: seq<string>, env: map<string, string>)
    requires IsDigits(port)
    ensures ClickableUrl([prog, "runserver", port] + rest, env)
            == Some(Url(DefaultHost, port, TrimSubpath(EnvGet(env, "PDF_MANAGER_SUBPATH", DefaultSubpath))))
  {
    var argv := [prog, "runserver", port] + rest;
    assert argv[2..] == [port] + rest;
    assert port[0] != '-';
    assert IndexOf(port, ':') == |port|;
  }

  /** Any command other than `runserver` announces nothing. */
  lemma OtherCommandsSilent(argv: seq<string>, env: map<string, string>)
    requires |argv| < 2 || argv[1] != "runserver"
    ensures ClickableUrl(argv, env) == None
  {
  }
}

=== FILE: merger.dfy ===
/** Merging documents: the booklet pipeline's `merge_pdfs` and the join
    feature's `join_pdfs` with its optional parity blanks. */
module Merger {
  import opened Errors
  import opened Text
  import opened Geometry
  import opened Sequences

  // ---------------------------------------------------------------
  // merge_pdfs
  // ---------------------------------------------------------------

  /** The `insert_pdf` loop of `merge_pdfs`: the pages of every input
      document, document after document, each one whole at its offset. */
  function MergedPages<T>(docs: seq<seq<T>>): (merged: seq<T>)
    ensures |merged| == Sum(Lengths(docs))
    ensures LaidOut(merged, docs)
  {
    ConcatLength(docs);
    ConcatPlacesAll(docs);
    Concat(docs)
  }

  /** `merge_pdfs`: the merged pages, or the ValueError `save` raises when
      the inputs hold no page at all (no input, or only empty ones). */
  function MergePdfs<T>(docs: seq<seq<T>>): (r: Result<seq<T>>)
    ensures r.Err? <==> Sum(Lengths(docs)) == 0
    ensures r.Err? ==> r.error == ValueError(ZeroPagesMessage)
    ensures r.Ok? ==> |r.value| == Sum(Lengths(docs)) && LaidOut(r.value, docs)
  {
    SaveDocument(MergedPages(docs))
  }

  // ---------------------------------------------------------------
  // join_pdfs on the opened documents
  // ---------------------------------------------------------------

  /** The parity rule: a blank goes in before a non-empty document when the
      output so far has an odd (non-zero) number of pages. */
  predicate BlankBefore(out: seq<Page>, d: seq<Page>, preserveParity: bool) {
    preserveParity && |d| > 0 && |out| > 0 && |out| % 2 == 1
  }

  /** One loop iteration: an empty document is skipped; otherwise an
      optional blank sized like its first page, then all its pages. */
  function AppendDoc(out: seq<Page>, d: seq<Page>, preserveParity: bool): (r: seq<Page>)
    ensures |d| == 0 ==> r == out
    ensures |d| > 0 && !BlankBefore(out, d, preserveParity) ==> r == out + d
    ensures BlankBefore(out, d, preserveParity) ==> r == out + [BlankLike(d[0])] + d
  {
    if |d| == 0 then out
    else if BlankBefore(out, d, preserveParity) then out + [BlankLike(d[0])] + d
    else out + d
  }

  /** The output after joining all of `docs` in order. */
  function JoinDocs(docs: seq<seq<Page>>, preserveParity: bool): seq<Page>
    decreases |docs|
  {
    if docs == [] then []
    else AppendDoc(JoinDocs(docs[..|docs| - 1], preserveParity), docs[|docs| - 1], preserveParity)
  }

  /** Where document `i`'s first page lands in the output. */
  function JoinOffset(docs: seq<seq<Page>>, preserveParity: bool, i: nat): nat
    requires i < |docs|
  {
    var before := JoinDocs(docs[..i], preserveParity);
    if BlankBefore(before, docs[i], preserveParity) then |before| + 1 else |before|
  }

  /** Number of parity blanks inserted. */
  function Blanks(docs: seq<seq<Page>>, preserveParity: bool): nat
    decreases |docs|
  {
    if docs == [] then 0
    else
      var prefix := docs[..|docs| - 1];
      Blanks(prefix, preserveParity)
        + (if BlankBefore(JoinDocs(prefix, preserveParity), docs[|docs| - 1], preserveParity) then 1 else 0)
  }

  /** Number of non-empty documents. */
  function NonEmpty(docs: seq<seq<Page>>): nat
    decreases |docs|
  {
    if docs == [] then 0
    else NonEmpty(docs[..|docs| - 1]) + (if |docs[|docs| - 1]| > 0 then 1 else 0)
  }

  /** Each document's first page starts at an odd 1-based page (an even
      index) when parity is preserved. */
  lemma JoinStartsEven(docs: seq<seq<Page>>, i: nat)
    requires i < |docs| && |docs[i]| > 0
    ensures JoinOffset(docs, true, i) % 2 == 0
  {
  }

  /** Joining a prefix yields a prefix of the full output. */
  lemma {:induction false} JoinPrefix(docs: seq<seq<Page>>, preserveParity: bool, i: nat)
    requires i <= |docs|
    ensures |JoinDocs(docs[..i], preserveParity)| <= |JoinDocs(docs, preserveParity)|
    ensures JoinDocs(docs, preserveParity)[..|JoinDocs(docs[..i], preserveParity)|]
            == JoinDocs(docs[..i], preserveParity)
    decreases |docs| - i
  {
    if i == |docs| {
      assert docs[..i] == docs;
    } else {
      JoinPrefix(docs[..|docs| - 1], preserveParity, i);
      assert docs[..|docs| - 1][..i] == docs[..i];
    }
  }

  /** Every document appears whole and contiguous at its offset. */
  lemma JoinPlacesEach(docs: seq<seq<Page>>, preserveParity: bool, i: nat)
    requires i < |docs|
    ensures JoinOffset(docs, preserveParity, i) + |docs[i]| <= |JoinDocs(docs, preserveParity)|
    ensures JoinDocs(docs, preserveParity)[JoinOffset(docs, preserveParity, i)..JoinOffset(docs, preserveParity, i) + |docs[i]|]
            == docs[i]
  {
    var upTo := docs[..i + 1];
    assert upTo[..|upTo| - 1] == docs[..i];
    JoinPrefix(docs, preserveParity, i + 1);
    var whole := JoinDocs(docs, preserveParity);
    var part := JoinDocs(upTo, preserveParity);
    var off := JoinOffset(docs, preserveParity, i);
    assert part[off..off + |docs[i]|] == docs[i];
    assert whole[off..off + |docs[i]|] == part[off..off + |docs[i]|];
  }

  /** The output holds every input page plus the parity blanks. */
  lemma {:induction false} JoinLength(docs: seq<seq<Page>>, preserveParity: bool)
    ensures |JoinDocs(docs, preserveParity)| == Sum(Lengths(docs)) + Blanks(docs, preserveParity)
    decreases |docs|
  {
    if docs != [] {
      var prefix := docs[..|docs| - 1];
      JoinLength(prefix, preserveParity);
      assert Lengths(docs) == Lengths(prefix) + [|docs[|docs| - 1]|];
      SumAppend(Lengths(prefix), |docs[|docs| - 1]|);
    }
  }

  /** The output is empty exactly when every document is empty, and there
      are fewer blanks than non-empty documents (none without parity). */
  lemma {:induction false} JoinBlanksBound(docs: seq<seq<Page>>, preserveParity: bool)
    ensures JoinDocs(docs, preserveParity) == [] <==> NonEmpty(docs) == 0
    ensures NonEmpty(docs) > 0 ==> Blanks(docs, preserveParity) < NonEmpty(docs)
    ensures NonEmpty(docs) == 0 ==> Blanks(docs, preserveParity) == 0
    ensures !preserveParity ==> Blanks(docs, preserveParity) == 0
    decreases |docs|
  {
    if docs != [] {
      JoinBlanksBound(docs[..|docs| - 1], preserveParity);
    }
  }

  /** A blank is never the first page: the first non-empty document starts
      the output. */
  lemma JoinFirstAtZero(docs: seq<seq<Page>>, preserveParity: bool, i: nat)
    requires i < |docs|
    requires forall j :: 0 <= j < i ==> |docs[j]| == 0
    ensures JoinOffset(docs, preserveParity, i) == 0
  {
    JoinBlanksBound(docs[..i], preserveParity);
    assert NonEmpty(docs[..i]) == 0 by {
      AllEmptyNonEmpty(docs[..i]);
    }
  }

  lemma {:induction false} AllEmptyNonEmpty(docs: seq<seq<Page>>)
    requires forall j :: 0 <= j < |docs| ==> |docs[j]| == 0
    ensures NonEmpty(docs) == 0
    decreases |docs|
  {
    if docs != [] {
      AllEmptyNonEmpty(docs[..|docs| - 1]);
    }
  }

  /** A blank is never the last page: the last non-empty document ends the
      output. */
  lemma {:induction false} JoinLastAtEnd(docs: seq<seq<Page>>, preserveParity: bool, i: nat)
    requires i < |docs|
    requires forall j :: i < j < |docs| ==> |docs[j]| == 0
    ensures JoinOffset(docs, preserveParity, i) + |docs[i]| == |JoinDocs(docs, preserveParity)|
    decreases |docs|
  {
    if i == |docs| - 1 {
      assert docs[..|docs| - 1] == docs[..i];
    } else {
      var prefix := docs[..|docs| - 1];
      assert prefix[..i] == docs[..i] && prefix[i] == docs[i];
      JoinLastAtEnd(prefix, preserveParity, i);
    }
  }

  /** Without parity, joining is plain merging. */
  lemma {:induction false} JoinWithoutParityIsMerge(docs: seq<seq<Page>>)
    ensures JoinDocs(docs, false) == MergedPages(docs)
    decreases |docs|
  {
    if docs != [] {
      var prefix := docs[..|docs| - 1];
      JoinWithoutParityIsMerge(prefix);
      assert docs == prefix + [docs[|docs| - 1]];
      ConcatAppend(prefix, docs[|docs| - 1]);
    }
  }

  /** A three-page chapter followed by a two-page chapter: one blank, and
      the second chapter starts at index 4 (page 5). */
  lemma JoinExample(a: Page, b: Page, c: Page, d: Page, e: Page)
    ensures JoinDocs([[a, b, c], [d, e]], true) == [a, b, c, BlankLike(d), d, e]
    ensures JoinOffset([[a, b, c], [d, e]], true, 1) == 4
  {
    var docs := [[a, b, c], [d, e]];
    var first: seq<seq<Page>> := [[a, b, c]];
    assert docs[..1] == first && docs[..|docs| - 1] == first;
    assert first[..0] == [];
    assert JoinDocs(first, true) == [a, b, c];
    assert BlankBefore([a, b, c], [d, e], true);
  }

  // ---------------------------------------------------------------
  // join_pdfs on paths
  // ---------------------------------------------------------------

  /** The documents the paths hold, as `fitz.open` would read them. */
  function Docs(paths: seq<string>, open: string -> seq<Page>): (docs: seq<seq<Page>>)
    ensures |docs| == |paths|
    ensures forall i :: 0 <= i < |paths| ==> docs[i] == open(paths[i])
  {
    seq(|paths|, i requires 0 <= i < |paths| => open(paths[i]))
  }

  /** Index of the first path that is not an existing file. */
  function FirstMissing(paths: seq<string>, isFile: set<string>, from: nat): (k: nat)
    requires from <= |paths|
    ensures from <= k <= |paths|
    ensures forall j :: from <= j < k ==> paths[j] in isFile
    ensures k < |paths| ==> paths[k] !in isFile
    decreases |paths| - from
  {
    if from == |paths| then from
    else if paths[from] !in isFile then from
    else FirstMissing(paths, isFile, from + 1)
  }

  /** The loop of `join_pdfs`, from path `i` on with output `out`. */
  function JoinLoop(paths: seq<string>, i: nat, out: seq<Page>, isFile: set<string>,
                    open: string -> seq<Page>, preserveParity: bool): Result<seq<Page>>
    requires i <= |paths|
    decreases |paths| - i
  {
    if i == |paths| then Ok(out)
    else if paths[i] !in isFile then Err(FileNotFoundError("No existe: " + paths[i]))
    else JoinLoop(paths, i + 1, AppendDoc(out, open(paths[i]), preserveParity), isFile, open, preserveParity)
  }

  /** `join_pdfs`: the joined pages that would be saved, or the exception. */
  function JoinPdfs(paths: seq<string>, isFile: set<string>, open: string -> seq<Page>,
                    preserveParity: bool): (r: Result<seq<Page>>)
    ensures paths == [] ==> r == Err(ValueError("No hay PDFs para unir"))
    ensures r.Ok? ==> r.value != []
  {
    if paths == [] then Err(ValueError("No hay PDFs para unir"))
    else
      var out :- JoinLoop(paths, 0, [], isFile, open, preserveParity);
      if out == [] then Err(ValueError("Resultado vacío (todos los PDFs estaban vacíos)"))
      else Ok(out)
  }

  /** The loop either stops at the first missing path or joins every document. */
  lemma {:induction false} JoinLoopResult(paths: seq<string>, i: nat, isFile: set<string>,
                                          open: string -> seq<Page>, preserveParity: bool)
    requires i <= |paths|
    ensures var k := FirstMissing(paths, isFile, i);
            var r := JoinLoop(paths, i, JoinDocs(Docs(paths, open)[..i], preserveParity), isFile, open, preserveParity);
            && (k < |paths| ==> r == Err(FileNotFoundError("No existe: " + paths[k])))
            && (k == |paths| ==> r == Ok(JoinDocs(Docs(paths, open), preserveParity)))
    decreases |paths| - i
  {
    var docs := Docs(paths, open);
    if i == |paths| {
      assert docs[..i] == docs;
    } else if paths[i] in isFile {
      assert docs[..i + 1][..i] == docs[..i];
      JoinLoopResult(paths, i + 1, isFile, open, preserveParity);
    }
  }

  /** The full behaviour of `join_pdfs`: the empty list, the first missing
      file, the all-empty result, and otherwise the joined pages. */
  lemma JoinPdfsOutcome(paths: seq<string>, isFile: set<string>, open: string -> seq<Page>,
                        preserveParity: bool)
    requires paths != []
    ensures var k := FirstMissing(paths, isFile, 0);
            var r := JoinPdfs(paths, isFile, open, preserveParity);
            && (k < |paths| ==> r == Err(FileNotFoundError("No existe: " + paths[k])))
            && (k == |paths| && NonEmpty(Docs(paths, open)) == 0 ==>
                  r == Err(ValueError("Resultado vacío (todos los PDFs estaban vacíos)")))
            && (k == |paths| && NonEmpty(Docs(paths, open)) > 0 ==>
                  r == Ok(JoinDocs(Docs(paths, open), preserveParity)))
  {
    var docs := Docs(paths, open);
    assert docs[..0] == [];
    JoinLoopResult(paths, 0, isFile, open, preserveParity);
    JoinBlanksBound(docs, preserveParity);
  }

  // ---------------------------------------------------------------
  // build_join_pipeline
  // ---------------------------------------------------------------

  datatype JoinJobResult = JoinJobResult(jobId: string, outputPath: string, pages: seq<Page>)

  const JoinedSuffix: string := "_joined.pdf"

  /** `build_join_pipeline` with the job id given (it is a random uuid hex). */
  function BuildJoinPipeline(paths: seq<string>, outputDir: string, jobId: string,
                             isFile: set<string>, open: string -> seq<Page>,
                             preserveParity: bool): (r: Result<JoinJobResult>)
    ensures JoinPdfs(paths, isFile, open, preserveParity).Err? <==> r.Err?
    ensures r.Err? ==> r.error == JoinPdfs(paths, isFile, open, preserveParity).error
    ensures r.Ok? ==> && r.value.jobId == jobId
                      && r.value.pages == JoinPdfs(paths, isFile, open, preserveParity).value
                      && r.value.outputPath == PathJoin(outputDir, JobFileName(jobId, JoinedSuffix))
  {
    var pages :- JoinPdfs(paths, isFile, open, preserveParity);
    Ok(JoinJobResult(jobId, PathJoin(outputDir, JobFileName(jobId, JoinedSuffix)), pages))
  }
}

=== FILE: ocr.dfy ===
/** The OCR service: locating `ocrmypdf`, building its argument list,
    turning a failed run into an error message, and naming the output. */
module Ocr {
  import opened Errors
  import opened Text

  /** The job options passed to `run_ocrmypdf`. */
  datatype OcrOptions = OcrOptions(language: string, deskew: bool, rotatePages: bool,
                                   forceOcr: bool, optimize: int)

  /** The default options of `run_ocrmypdf` and `build_ocr_pipeline`. */
  const DefaultOptions: OcrOptions := OcrOptions("spa", true, true, false, 2)

  /** What the subprocess reports (`returncode`, captured text streams). */
  datatype Completed = Completed(returnCode: int, stdout: string, stderr: string)

  const MissingMessage: string :=
    "No se encuentra 'ocrmypdf' en el sistema. "
    + "Instálalo (p.ej. 'apt install ocrmypdf' o via pip/venv) y asegúrate de que está en PATH."

  /** `_require_ocrmypdf` given what `shutil.which("ocrmypdf")` returned: a
      missing or empty path is an error. */
  function RequireOcrmypdf(which: Option<string>): (r: Result<string>)
    ensures r.Ok? <==> which.Some? && which.value != ""
    ensures r.Ok? ==> r.value == which.value
    ensures r.Err? ==> r.error == RuntimeError(MissingMessage)
  {
    if which.None? || which.value == "" then Err(RuntimeError(MissingMessage))
    else Ok(which.value)
  }

  // ---------------------------------------------------------------
  // The argument list
  // ---------------------------------------------------------------

  /** `["-l", lang]` for the stripped language, when it is not empty. */
  function LanguageArgs(language: string): (args: seq<string>)
    ensures |args| == 0 || |args| == 2
    // passed exactly when something is left after stripping
    ensures args != [] <==> Strip(language) != ""
    ensures args != [] ==> args[0] == "-l" && args[1] == Strip(language)
  {
    var lang := Strip(language);
    if lang != "" then ["-l", lang] else []
  }

  /** The optional switches, in their fixed order. */
  function FlagArgs(o: OcrOptions): seq<string> {
    (if o.deskew then ["--deskew"] else [])
    + (if o.rotatePages then ["--rotate-pages"] else [])
    + (if o.forceOcr then ["--force-ocr"] else [])
  }

  function CommandPrefix(exe: string, optimize: int): seq<string> {
    [exe, "--output-type", "pdf", "--optimize", IntToString(optimize)]
  }

  /** The `cmd` list of `run_ocrmypdf`. */
  function BuildCommand(exe: string, input: string, output: string, o: OcrOptions): (cmd: seq<string>)
    ensures |cmd| >= 7
    ensures cmd[..5] == CommandPrefix(exe, o.optimize)
    ensures cmd[|cmd| - 2] == input && cmd[|cmd| - 1] == output
    ensures Strip(o.language) != "" ==> cmd[5..7] == ["-l", Strip(o.language)]
    ensures |cmd| == 7 + |LanguageArgs(o.language)| + |FlagArgs(o)|
  {
    var prefix := CommandPrefix(exe, o.optimize);
    var lang := LanguageArgs(o.language);
    var cmd := prefix + lang + FlagArgs(o) + [input, output];
    assert cmd[..5] == prefix;
    assert lang != [] ==> cmd[5..7] == lang;
    cmd
  }

  /** What an argument list says, read back independently of how it was
      built: the executable, the `--optimize` value, the language (if any),
      the three switches and the two paths. */
  datatype CommandView = CommandView(exe: string, optimize: string, language: Option<string>,
                                     deskew: bool, rotatePages: bool, forceOcr: bool,
                                     input: string, output: string)

  function ReadCommand(cmd: seq<string>): CommandView
    requires |cmd| >= 7
  {
    var middle := cmd[5..|cmd| - 2];
    var hasLang := |middle| >= 2 && middle[0] == "-l";
    var flags := if hasLang then middle[2..] else middle;
    CommandView(cmd[0], cmd[4], if hasLang then Some(middle[1]) else None,
                "--deskew" in flags, "--rotate-pages" in flags, "--force-ocr" in flags,
                cmd[|cmd| - 2], cmd[|cmd| - 1])
  }

  /** Reading back a built command recovers every option: the language
      appears (stripped) iff it strips to something, and each switch appears
      iff it is set. */
  lemma CommandRoundTrip(exe: string, input: string, output: string, o: OcrOptions)
    ensures ReadCommand(BuildCommand(exe, input, output, o))
            == CommandView(exe, IntToString(o.optimize),
                           if Strip(o.language) != "" then Some(Strip(o.language)) else None,
                           o.deskew, o.rotatePages, o.forceOcr, input, output)
  {
    FlagMembership(o);
    ReadAssembled(CommandPrefix(exe, o.optimize), LanguageArgs(o.language), FlagArgs(o), input, output);
  }

  /** Reading an argument list assembled from five leading arguments, an
      optional `-l` pair, switches without `-l`, and the two paths. */
  lemma ReadAssembled(prefix: seq<string>, lang: seq<string>, flags: seq<string>,
                      input: string, output: string)
    requires |prefix| == 5
    requires lang == [] || (|lang| == 2 && lang[0] == "-l")
    requires "-l" !in flags
    ensures ReadCommand(prefix + lang + flags + [input, output])
            == CommandView(prefix[0], prefix[4], if lang != [] then Some(lang[1]) else None,
                           "--deskew" in flags, "--rotate-pages" in flags, "--force-ocr" in flags,
                           input, output)
  {
    var cmd := prefix + lang + flags + [input, output];
    var middle := cmd[5..|cmd| - 2];
    assert middle == lang + flags;
    if lang != [] {
      assert middle[2..] == flags;
    } else if |flags| >= 2 {
      assert middle[0] == flags[0];
    }
  }

  /** Each switch is in the list exactly when it is set, and "-l" never is. */
  lemma FlagMembership(o: OcrOptions)
    ensures "--deskew" in FlagArgs(o) <==> o.deskew
    ensures "--rotate-pages" in FlagArgs(o) <==> o.rotatePages
    ensures "--force-ocr" in FlagArgs(o) <==> o.forceOcr
    ensures "-l" !in FlagArgs(o)
  {
    var f := FlagArgs(o);
    assert forall i :: 0 <= i < |f| ==> f[i] in {"--deskew", "--rotate-pages", "--force-ocr"};
    assert "--deskew" != "--rotate-pages" && "--deskew" != "--force-ocr" && "--rotate-pages" != "--force-ocr";
    assert "-l" != "--deskew" && "-l" != "--rotate-pages" && "-l" != "--force-ocr";
  }

  /** The switches never repeat and keep the order deskew, rotate, force. */
  lemma FlagOrder(o: OcrOptions)
    ensures |FlagArgs(o)| == (if o.deskew then 1 else 0) + (if o.rotatePages then 1 else 0)
                              + (if o.forceOcr then 1 else 0)
    ensures o.deskew ==> FlagArgs(o)[0] == "--deskew"
    ensures o.forceOcr ==> FlagArgs(o)[|FlagArgs(o)| - 1] == "--force-ocr"
    ensures o.rotatePages ==> FlagArgs(o)[if o.deskew then 1 else 0] == "--rotate-pages"
  {
  }

  /** The default options give `-l spa --deskew --rotate-pages`. */
  lemma DefaultCommand(exe: string, input: string, output: string)
    ensures BuildCommand(exe, input, output, DefaultOptions)
            == [exe, "--output-type", "pdf", "--optimize", "2", "-l", "spa",
                "--deskew", "--rotate-pages", input, output]
  {
    assert Strip("spa") == "spa" by {
      assert !IsSpace('s') && !IsSpace('a');
      StripUnchanged("spa");
    }
    assert NatToString(2) == "2";
  }

  // ---------------------------------------------------------------
  // Failure messages
  // ---------------------------------------------------------------

  /** `s[:n]` for `n >= 0`. */
  function Take(s: string, n: nat): (t: string)
    ensures |t| <= n && |t| <= |s| && t == s[..|t|]
    ensures |s| <= n ==> t == s
    ensures |s| > n ==> |t| == n
  {
    if |s| <= n then s else s[..n]
  }

  /** The stream whose text explains the failure: stderr, else stdout. */
  function ErrorStream(p: Completed): string {
    if p.stderr != "" then p.stderr else if p.stdout != "" then p.stdout else ""
  }

  /** At most 2000 characters of the stripped stderr, or of the stripped
      stdout when stderr is empty. */
  function ErrorDetail(p: Completed): (d: string)
    ensures |d| <= 2000
    ensures p.stderr != "" ==> d == Take(Strip(p.stderr), 2000)
    ensures p.stderr == "" ==> d == Take(Strip(p.stdout), 2000)
  {
    var stream := ErrorStream(p);
    assert stream == if p.stderr != "" then p.stderr else p.stdout;
    Take(Strip(stream), 2000)
  }

  /** A whitespace-only stderr hides stdout and yields an empty detail. */
  lemma BlankStderrWins(p: Completed)
    requires p.stderr != ""
    requires forall i :: 0 <= i < |p.stderr| ==> IsSpace(p.stderr[i])
    ensures ErrorDetail(p) == ""
  {
    StripAllSpace(p.stderr);
  }

  const FailurePrefix: string := "OCR falló (code="
  const DetailSeparator: string := "). Detalle: "

  function FailureMessage(code: int, detail: string): (m: string)
    ensures StartsWith(m, FailurePrefix) && EndsWith(m, detail)
  {
    FailurePrefix + IntToString(code) + DetailSeparator + detail
  }

  /** The message of a failed run keeps the return code and the detail
      apart: different codes or details give different messages. */
  lemma FailureMessageInjective(c1: int, d1: string, c2: int, d2: string)
    requires c1 != c2 || d1 != d2
    ensures FailureMessage(c1, d1) != FailureMessage(c2, d2)
  {
    if c1 != c2 {
      IntToStringInjective(c1, c2);
    }
    IntToStringChars(c1);
    IntToStringChars(c2);
    DelimitedDistinct(FailurePrefix, IntToString(c1), d1, IntToString(c2), d2, DetailSeparator);
  }

  /** Two texts `p + s + sep + d` differ when their `s` or `d` parts differ,
      provided no `s` holds the first character of `sep`. */
  lemma DelimitedDistinct(p: string, s1: string, d1: string, s2: string, d2: string, sep: string)
    requires sep != ""
    requires forall k :: 0 <= k < |s1| ==> s1[k] != sep[0]
    requires forall k :: 0 <= k < |s2| ==> s2[k] != sep[0]
    requires s1 != s2 || d1 != d2
    ensures p + s1 + sep + d1 != p + s2 + sep + d2
  {
    var m1 := p + s1 + sep + d1;
    var m2 := p + s2 + sep + d2;
    var n := |p|;
    if s1 == s2 {
      var q := n + |s1| + |sep|;
      assert m1[q..] == d1 && m2[q..] == d2;
    } else if |s1| == |s2| {
      var k :| 0 <= k < |s1| && s1[k] != s2[k];
      assert m1[n + k] == s1[k] && m2[n + k] == s2[k];
    } else if |s1| < |s2| {
      assert m1[n + |s1|] == sep[0];
      assert m2[n + |s1|] == s2[|s1|];
    } else {
      assert m2[n + |s2|] == sep[0];
      assert m1[n + |s2|] == s1[|s2|];
    }
  }

  /** `str(n)` is a sign and digits: no parenthesis in it. */
  lemma IntToStringChars(n: int)
    ensures forall k :: 0 <= k < |IntToString(n)| ==> IntToString(n)[k] != ')'
  {
    forall k | 0 <= k < |IntToString(n)|
      ensures IntToString(n)[k] != ')'
    {
      if n < 0 && k > 0 {
        assert IntToString(n)[k] == NatToString(-n)[k - 1];
      }
    }
  }

  // ---------------------------------------------------------------
  // run_ocrmypdf and build_ocr_pipeline
  // ---------------------------------------------------------------

  /** `run_ocrmypdf`: on success, the argument list that ran. `which` is the
      executable lookup and `run` the subprocess, which either completes or
      raises (an OSError when the executable cannot be started). */
  function RunOcrmypdf(input: string, output: string, o: OcrOptions,
                       which: Option<string>, run: seq<string> -> Result<Completed>): (r: Result<seq<string>>)
    ensures RequireOcrmypdf(which).Err? ==> r == Err(RuntimeError(MissingMessage))
    ensures RequireOcrmypdf(which).Ok? ==>
              var cmd := BuildCommand(which.value, input, output, o);
              && (run(cmd).Err? ==> r == Err(run(cmd).error))
              && (run(cmd).Ok? ==>
                    && (r.Ok? <==> run(cmd).value.returnCode == 0)
                    && (r.Ok? ==> r.value == cmd)
                    && (r.Err? ==> r.error == RuntimeError(FailureMessage(run(cmd).value.returnCode,
                                                                          ErrorDetail(run(cmd).value)))))
  {
    var exe :- RequireOcrmypdf(which);
    var cmd := BuildCommand(exe, input, output, o);
    var proc :- run(cmd);
    if proc.returnCode != 0 then Err(RuntimeError(FailureMessage(proc.returnCode, ErrorDetail(proc))))
    else Ok(cmd)
  }

  datatype OcrJobResult = OcrJobResult(jobId: string, outputPath: string)

  const OcrSuffix: string := "_ocr.pdf"

  /** `build_ocr_pipeline` with the job id given (it is a random uuid hex):
      the output is written where the result says. */
  function BuildOcrPipeline(input: string, outputDir: string, jobId: string, o: OcrOptions,
                            which: Option<string>, run: seq<string> -> Result<Completed>): (r: Result<OcrJobResult>)
    ensures r.Err? <==> RunOcrmypdf(input, PathJoin(outputDir, JobFileName(jobId, OcrSuffix)), o, which, run).Err?
    ensures r.Err? ==> r.error == RunOcrmypdf(input, PathJoin(outputDir, JobFileName(jobId, OcrSuffix)), o, which, run).error
    ensures r.Ok? ==> && r.value.jobId == jobId
                      && r.value.outputPath == PathJoin(outputDir, JobFileName(jobId, OcrSuffix))
  {
    var output := PathJoin(outputDir, JobFileName(jobId, OcrSuffix));
    var _ :- RunOcrmypdf(input, output, o, which, run);
    Ok(OcrJobResult(jobId, output))
  }

  /** A successful pipeline ran `ocrmypdf` on the input with the output path
      it reports, and the process exited with code 0. */
  lemma OcrPipelineRanCommand(input: string, outputDir: string, jobId: string, o: OcrOptions,
                              which: Option<string>, run: seq<string> -> Result<Completed>)
    requires BuildOcrPipeline(input, outputDir, jobId, o, which, run).Ok?
    ensures which.Some? && which.value != ""
    ensures var cmd := BuildCommand(which.value, input,
                                    BuildOcrPipeline(input, outputDir, jobId, o, which, run).value.outputPath, o);
            && run(cmd).Ok? && run(cmd).value.returnCode == 0
            && ReadCommand(cmd).input == input
            && ReadCommand(cmd).output == BuildOcrPipeline(input, outputDir, jobId, o, which, run).value.outputPath
  {
    var out := PathJoin(outputDir, JobFileName(jobId, OcrSuffix));
    CommandRoundTrip(which.value, input, out, o);
  }
}

=== FILE: pipeline.dfy ===
/** `build_booklets_pipeline`: split the input, impose every split as a
    booklet, and merge the booklets into one printable document. */
module Pipeline {
  import opened Errors
  import opened Text
  import opened Geometry
  import opened Sequences
  import opened Splitter
  import opened Imposer
  import opened Merger

  datatype BookletJobResult = BookletJobResult(jobId: string, outputPath: string, sheets: seq<Sheet>)

  /** Number of output sheets a booklet of `n` pages takes. */
  function SheetCount(n: nat): nat {
    (n + 3) / 4 * 2
  }

  /** The sheets each split turns into. */
  function SheetCounts(splits: seq<seq<Page>>): (cs: seq<nat>)
    ensures |cs| == |splits|
    ensures forall i :: 0 <= i < |splits| ==> cs[i] == SheetCount(|splits[i]|)
  {
    seq(|splits|, i requires 0 <= i < |splits| => SheetCount(|splits[i]|))
  }

  /** True when every split imposes without error. */
  predicate AllImpose(splits: seq<seq<Page>>, marginCm: real, addWatermark: bool,
                      textWidth: real, fails: ShowRequest -> bool) {
    forall i :: 0 <= i < |splits| ==> CreateBooklet(splits[i], marginCm, addWatermark, textWidth, fails).Ok?
  }

  /** The loop over the splits: `create_booklet` on each, in order; the first
      failure ends the pipeline. */
  function Booklets(splits: seq<seq<Page>>, marginCm: real, addWatermark: bool,
                    textWidth: real, fails: ShowRequest -> bool): (r: Result<seq<seq<Sheet>>>)
    ensures r.Ok? <==> AllImpose(splits, marginCm, addWatermark, textWidth, fails)
    ensures r.Ok? ==> |r.value| == |splits|
    ensures r.Ok? ==> forall i :: 0 <= i < |splits| ==>
              r.value[i] == CreateBooklet(splits[i], marginCm, addWatermark, textWidth, fails).value
    ensures r.Err? ==>
              exists i :: 0 <= i < |splits| &&
                CreateBooklet(splits[i], marginCm, addWatermark, textWidth, fails) == Err(r.error) &&
                forall j :: 0 <= j < i ==> CreateBooklet(splits[j], marginCm, addWatermark, textWidth, fails).Ok?
  {
    MapUntilError(splits, split => CreateBooklet(split, marginCm, addWatermark, textWidth, fails))
  }

  const BookletsSuffix: string := "_booklets_for_printing.pdf"

  /** `build_booklets_pipeline` with the job id given (it is a random uuid
      hex); the result's `sheets` are the pages of the saved document. */
  function BuildBookletsPipeline(pages: seq<Page>, maxPages: int, samePageParity: bool,
                                 marginCm: real, addWatermark: bool, outputDir: string,
                                 jobId: string, textWidth: real,
                                 fails: ShowRequest -> bool): (r: Result<BookletJobResult>)
    ensures SplitPdf(pages, maxPages, samePageParity).Err? ==> r == Err(ValueError("PDF vacío"))
    // no split at all: `merge_pdfs` saves a document without pages
    ensures SplitPdf(pages, maxPages, samePageParity) == Ok([]) ==> r == Err(ValueError(ZeroPagesMessage))
    ensures SplitPdf(pages, maxPages, samePageParity).Ok? && SplitPdf(pages, maxPages, samePageParity).value != [] ==>
              (r.Ok? <==> AllImpose(SplitPdf(pages, maxPages, samePageParity).value,
                                    marginCm, addWatermark, textWidth, fails))
    ensures r.Ok? ==> && r.value.jobId == jobId
                      && r.value.outputPath == PathJoin(outputDir, JobFileName(jobId, BookletsSuffix))
  {
    var splits :- SplitPdf(pages, maxPages, samePageParity);
    var booklets :- Booklets(splits, marginCm, addWatermark, textWidth, fails);
    BookletsHaveSheets(splits, marginCm, addWatermark, textWidth, fails);
    var sheets :- MergePdfs(booklets);
    Ok(BookletJobResult(jobId, PathJoin(outputDir, JobFileName(jobId, BookletsSuffix)), sheets))
  }

  /** The booklets of non-empty splits hold all their sheets, at least two
      per split. */
  lemma BookletsHaveSheets(splits: seq<seq<Page>>, marginCm: real, addWatermark: bool,
                           textWidth: real, fails: ShowRequest -> bool)
    requires AllImpose(splits, marginCm, addWatermark, textWidth, fails)
    requires forall k :: 0 <= k < |splits| ==> |splits[k]| >= 1
    ensures Sum(Lengths(Booklets(splits, marginCm, addWatermark, textWidth, fails).value)) == Sum(SheetCounts(splits))
    ensures splits != [] ==> Sum(SheetCounts(splits)) >= 2
  {
    BookletLengths(splits, marginCm, addWatermark, textWidth, fails);
    if splits != [] {
      var cs := SheetCounts(splits);
      SheetCountAtLeastTwo(|splits[0]|);
      assert Sum(cs) == cs[0] + Sum(cs[1..]);
    }
  }

  /** A booklet with a page takes at least one sheet, printed on both sides. */
  lemma SheetCountAtLeastTwo(n: nat)
    requires n >= 1
    ensures SheetCount(n) >= 2
  {
    assert (n + 3) / 4 >= 1;
  }

  /** The pipeline fails only on an empty input (ValueError "PDF vacío"
      without parity preservation, the zero-page save with it) or with the
      ZeroDivisionError of a degenerate crop box. */
  lemma PipelineErrors(pages: seq<Page>, maxPages: int, samePageParity: bool,
                       marginCm: real, addWatermark: bool, outputDir: string,
                       jobId: string, textWidth: real, fails: ShowRequest -> bool)
    ensures var r := BuildBookletsPipeline(pages, maxPages, samePageParity, marginCm, addWatermark,
                                           outputDir, jobId, textWidth, fails);
            && (pages == [] ==> r.Err? && r.error == if samePageParity then ValueError(ZeroPagesMessage)
                                                     else ValueError("PDF vacío"))
            && (pages != [] && r.Err? ==> r.error.ZeroDivisionError?)
  {
    var r := BuildBookletsPipeline(pages, maxPages, samePageParity, marginCm, addWatermark,
                                   outputDir, jobId, textWidth, fails);
    var s := SplitPdf(pages, maxPages, samePageParity);
    if r.Err? && pages != [] {
      assert s.Ok? && s.value != [];
      var b := Booklets(s.value, marginCm, addWatermark, textWidth, fails);
      assert b.Err? && r.error == b.error;
      var i :| 0 <= i < |s.value|
        && CreateBooklet(s.value[i], marginCm, addWatermark, textWidth, fails) == Err(b.error);
      CreateBookletFailure(s.value[i], marginCm, addWatermark, textWidth, fails);
    }
  }

  /** Every split's booklet sits whole, in order, in the final document, which
      has `sum of ceil(n_i / 4) * 2` sheets for splits of `n_i` pages. */
  lemma PipelineLayout(pages: seq<Page>, maxPages: int, samePageParity: bool,
                       marginCm: real, addWatermark: bool, outputDir: string,
                       jobId: string, textWidth: real, fails: ShowRequest -> bool)
    requires BuildBookletsPipeline(pages, maxPages, samePageParity, marginCm, addWatermark,
                                   outputDir, jobId, textWidth, fails).Ok?
    ensures var splits := SplitPdf(pages, maxPages, samePageParity).value;
            var booklets := Booklets(splits, marginCm, addWatermark, textWidth, fails).value;
            var sheets := BuildBookletsPipeline(pages, maxPages, samePageParity, marginCm, addWatermark,
                                                outputDir, jobId, textWidth, fails).value.sheets;
            |sheets| == Sum(SheetCounts(splits)) && LaidOut(sheets, booklets)
  {
    var s := SplitPdf(pages, maxPages, samePageParity);
    assert s.Ok?;
    var b := Booklets(s.value, marginCm, addWatermark, textWidth, fails);
    assert b.Ok?;
    assert BuildBookletsPipeline(pages, maxPages, samePageParity, marginCm, addWatermark,
                                 outputDir, jobId, textWidth, fails).value.sheets == MergePdfs(b.value).value;
    BookletLengths(s.value, marginCm, addWatermark, textWidth, fails);
  }

  /** Each booklet has the sheet count of its split. */
  lemma BookletLengths(splits: seq<seq<Page>>, marginCm: real, addWatermark: bool,
                       textWidth: real, fails: ShowRequest -> bool)
    requires AllImpose(splits, marginCm, addWatermark, textWidth, fails)
    ensures Lengths(Booklets(splits, marginCm, addWatermark, textWidth, fails).value) == SheetCounts(splits)
  {
    var booklets := Booklets(splits, marginCm, addWatermark, textWidth, fails).value;
    forall i | 0 <= i < |splits|
      ensures |booklets[i]| == SheetCount(|splits[i]|)
    {
      CreateBookletSize(splits[i], marginCm, addWatermark, textWidth, fails);
    }
  }

  /** The sheets give every page a side: `n <= 2 * SheetCount(n) < n + 4`. */
  lemma {:induction false} SheetCapacity(splits: seq<seq<Page>>)
    ensures Sum(Lengths(splits)) <= 2 * Sum(SheetCounts(splits))
    ensures 2 * Sum(SheetCounts(splits)) <= Sum(Lengths(splits)) + 3 * |splits|
  {
    if splits != [] {
      SheetCapacity(splits[1..]);
      assert Lengths(splits)[1..] == Lengths(splits[1..]);
      assert SheetCounts(splits)[1..] == SheetCounts(splits[1..]);
    }
  }

  /** With `maxPages >= 2` the booklets have room for every page of the
      working document and waste fewer than four sides per split. */
  lemma PipelineCapacity(pages: seq<Page>, maxPages: int, samePageParity: bool,
                         marginCm: real, addWatermark: bool, outputDir: string,
                         jobId: string, textWidth: real, fails: ShowRequest -> bool)
    requires maxPages >= 2
    requires BuildBookletsPipeline(pages, maxPages, samePageParity, marginCm, addWatermark,
                                   outputDir, jobId, textWidth, fails).Ok?
    ensures var doc := WorkingDocument(pages, samePageParity).value;
            var splits := SplitPdf(pages, maxPages, samePageParity).value;
            var sheets := BuildBookletsPipeline(pages, maxPages, samePageParity, marginCm, addWatermark,
                                                outputDir, jobId, textWidth, fails).value.sheets;
            && |doc| <= 2 * |sheets| <= |doc| + 3 * |splits|
  {
    var splits := SplitPdf(pages, maxPages, samePageParity).value;
    SplitPdfRoundTrip(pages, maxPages, samePageParity);
    ConcatLength(splits);
    SheetCapacity(splits);
    PipelineLayout(pages, maxPages, samePageParity, marginCm, addWatermark, outputDir, jobId, textWidth, fails);
  }

  // ---------------------------------------------------------------
  // Intermediate file names
  // ---------------------------------------------------------------

  /** Where the `k`-th split (0-based) is imposed: the booklets directory
      joined with the split file's base name. */
  function BookletPath(tmp: string, k: nat): (p: string)
    ensures p == PathJoin(PathJoin(tmp, "booklets"), SplitFileName(k + 1))
  {
    var splitPath := PathJoin(PathJoin(tmp, "splits"), SplitFileName(k + 1));
    SplitNameHasNoSlash(k + 1);
    BaseNameOfJoin(PathJoin(tmp, "splits"), SplitFileName(k + 1));
    PathJoin(PathJoin(tmp, "booklets"), BaseName(splitPath))
  }

  lemma SplitNameHasNoSlash(count: nat)
    ensures forall i :: 0 <= i < |SplitFileName(count)| ==> SplitFileName(count)[i] != '/'
  {
    var d := Pad2(count);
    assert forall i :: 0 <= i < |d| ==> IsDigit(d[i]);
    assert forall i :: 5 <= i < 5 + |d| ==> SplitFileName(count)[i] == d[i - 5];
  }

  lemma SplitNameRelative(count: nat)
    ensures !StartsWith(SplitFileName(count), "/")
  {
    assert SplitFileName(count)[0] == 's';
  }

  /** No two booklets are written to the same file. */
  lemma BookletPathsDistinct(tmp: string, a: nat, b: nat)
    requires a != b
    ensures BookletPath(tmp, a) != BookletPath(tmp, b)
  {
    SplitFileNamesDistinct(a + 1, b + 1);
    var na := SplitFileName(a + 1);
    var nb := SplitFileName(b + 1);
    SplitNameRelative(a + 1);
    SplitNameRelative(b + 1);
    PathJoinInjective(PathJoin(tmp, "booklets"), na, nb);
  }
}

=== FILE: sequences.dfy ===
/** Concatenation of a list of documents and sums of page counts. */
module Sequences {

  /** All the elements of `docs`, document after document. */
  function Concat<T>(docs: seq<seq<T>>): seq<T> {
    if docs == [] then [] else docs[0] + Concat(docs[1..])
  }

  function Sum(xs: seq<nat>): nat {
    if xs == [] then 0 else xs[0] + Sum(xs[1..])
  }

  /** The lengths of the documents. */
  function Lengths<T>(docs: seq<seq<T>>): (ls: seq<nat>)
    ensures |ls| == |docs|
    ensures forall i :: 0 <= i < |docs| ==> ls[i] == |docs[i]|
  {
    seq(|docs|, i requires 0 <= i < |docs| => |docs[i]|)
  }

  /** Where document `i` starts inside `Concat(docs)`. */
  function Offset<T>(docs: seq<seq<T>>, i: nat): nat
    requires i <= |docs|
  {
    |Concat(docs[..i])|
  }

  lemma {:induction false} ConcatLength<T>(docs: seq<seq<T>>)
    ensures |Concat(docs)| == Sum(Lengths(docs))
  {
    if docs != [] {
      ConcatLength(docs[1..]);
      assert Lengths(docs)[1..] == Lengths(docs[1..]);
    }
  }

  lemma {:induction false} ConcatAppend<T>(docs: seq<seq<T>>, d: seq<T>)
    ensures Concat(docs + [d]) == Concat(docs) + d
  {
    if docs == [] {
      assert docs + [d] == [d];
    } else {
      assert (docs + [d])[1..] == docs[1..] + [d];
      ConcatAppend(docs[1..], d);
    }
  }

  /** Concatenation keeps every document whole, in order, at its offset. */
  lemma {:induction false} ConcatPlacesEach<T>(docs: seq<seq<T>>, i: nat)
    requires i < |docs|
    ensures Offset(docs, i) + |docs[i]| <= |Concat(docs)|
    ensures Concat(docs)[Offset(docs, i)..Offset(docs, i) + |docs[i]|] == docs[i]
    ensures Offset(docs, i + 1) == Offset(docs, i) + |docs[i]|
  {
    ConcatPrefix(docs, i + 1);
    assert docs[..i + 1] == docs[..i] + [docs[i]];
    ConcatAppend(docs[..i], docs[i]);
  }

  /** The concatenation of a prefix of the documents is a prefix of the whole. */
  lemma {:induction false} ConcatPrefix<T>(docs: seq<seq<T>>, i: nat)
    requires i <= |docs|
    ensures |Concat(docs[..i])| <= |Concat(docs)|
    ensures Concat(docs)[..|Concat(docs[..i])|] == Concat(docs[..i])
    decreases |docs| - i
  {
    if i < |docs| {
      ConcatPrefix(docs, i + 1);
      assert docs[..i + 1] == docs[..i] + [docs[i]];
      ConcatAppend(docs[..i], docs[i]);
    } else {
      assert docs[..i] == docs;
    }
  }

  /** Every part sits whole, in order, at its offset in `whole`. */
  ghost predicate LaidOut<T>(whole: seq<T>, parts: seq<seq<T>>) {
    forall i :: 0 <= i < |parts| ==>
      && Offset(parts, i) + |parts[i]| <= |whole|
      && whole[Offset(parts, i)..Offset(parts, i) + |parts[i]|] == parts[i]
  }

  /** Every document sits whole, in order, at its offset in the concatenation. */
  lemma ConcatPlacesAll<T>(docs: seq<seq<T>>)
    ensures LaidOut(Concat(docs), docs)
  {
    forall i | 0 <= i < |docs|
      ensures Offset(docs, i) + |docs[i]| <= |Concat(docs)|
      ensures Concat(docs)[Offset(docs, i)..Offset(docs, i) + |docs[i]|] == docs[i]
    {
      ConcatPlacesEach(docs, i);
    }
  }

  lemma {:induction false} SumAppend(xs: seq<nat>, x: nat)
    ensures Sum(xs + [x]) == Sum(xs) + x
  {
    if xs == [] {
      assert xs + [x] == [x];
    } else {
      assert (xs + [x])[1..] == xs[1..] + [x];
      SumAppend(xs[1..], x);
    }
  }
}

=== FILE: settings.dfy ===
/** The settings derived from environment variables: debug flag, allowed
    hosts, trusted CSRF origins, and the URL sub-path with the static and
    media URLs under it. */
module Settings {
  import opened Text

  /** `os.environ.get(name, default)`. */
  function EnvGet(env: map<string, string>, name: string, default: string): (v: string)
    ensures name in env ==> v == env[name]
    ensures name !in env ==> v == default
  {
    if name in env then env[name] else default
  }

  // ---------------------------------------------------------------
  // DEBUG
  // ---------------------------------------------------------------

  /** `DEBUG`: the variable, lower-cased, is exactly "true". */
  function Debug(env: map<string, string>): bool {
    Lower(EnvGet(env, "DJANGO_DEBUG", "False")) == "true"
  }

  /** DEBUG is on exactly for the four letters t, r, u, e in any case, and
      off when the variable is unset. */
  lemma DebugSpec(env: map<string, string>)
    ensures "DJANGO_DEBUG" !in env ==> !Debug(env)
    ensures "DJANGO_DEBUG" in env ==>
              (Debug(env) <==> var v := env["DJANGO_DEBUG"];
                               && |v| == 4
                               && (v[0] == 't' || v[0] == 'T') && (v[1] == 'r' || v[1] == 'R')
                               && (v[2] == 'u' || v[2] == 'U') && (v[3] == 'e' || v[3] == 'E'))
  {
    if "DJANGO_DEBUG" !in env {
      assert Lower("False")[0] == 'f';
    } else {
      var v := env["DJANGO_DEBUG"];
      var l := Lower(v);
      if |v| == 4 {
        assert l == [LowerChar(v[0]), LowerChar(v[1]), LowerChar(v[2]), LowerChar(v[3])];
      }
    }
  }

  // ---------------------------------------------------------------
  // ALLOWED_HOSTS and CSRF_TRUSTED_ORIGINS
  // ---------------------------------------------------------------

  const DefaultHosts: string := "localhost,127.0.0.1"

  /** `[p.strip() for p in parts if p.strip()]`. */
  function StrippedNonEmpty(parts: seq<string>): (hosts: seq<string>)
    ensures |hosts| <= |parts|
    ensures forall k :: 0 <= k < |hosts| ==> hosts[k] != ""
    decreases |parts|
  {
    if parts == [] then []
    else
      var h := Strip(parts[0]);
      var rest := StrippedNonEmpty(parts[1..]);
      if h != "" then [h] + rest else rest
  }

  /** A host is kept exactly when it is the non-empty strip of some piece. */
  lemma {:induction false} StrippedNonEmptyMembers(parts: seq<string>, h: string)
    ensures h in StrippedNonEmpty(parts) <==> h != "" && exists i :: 0 <= i < |parts| && Strip(parts[i]) == h
    decreases |parts|
  {
    if parts != [] {
      StrippedNonEmptyMembers(parts[1..], h);
      if exists i :: 0 <= i < |parts| && Strip(parts[i]) == h {
        var i :| 0 <= i < |parts| && Strip(parts[i]) == h;
        if i > 0 {
          assert Strip(parts[1..][i - 1]) == h;
        }
      }
      if exists i :: 0 <= i < |parts[1..]| && Strip(parts[1..][i]) == h {
        var i :| 0 <= i < |parts[1..]| && Strip(parts[1..][i]) == h;
        assert Strip(parts[i + 1]) == h;
      }
    }
  }

  /** The comprehension works piece by piece, in order: the pieces of
      `a + b` give the hosts of `a` followed by those of `b`. */
  lemma {:induction false} StrippedNonEmptyAppend(a: seq<string>, b: seq<string>)
    ensures StrippedNonEmpty(a + b) == StrippedNonEmpty(a) + StrippedNonEmpty(b)
    decreases |a|
  {
    if a == [] {
      assert a + b == b;
    } else {
      assert (a + b)[0] == a[0];
      assert (a + b)[1..] == a[1..] + b;
      StrippedNonEmptyAppend(a[1..], b);
    }
  }

  /** One piece gives its strip when that is not empty, and nothing otherwise. */
  lemma StrippedNonEmptyOne(p: string)
    ensures StrippedNonEmpty([p]) == if Strip(p) != "" then [Strip(p)] else []
  {
    assert [p][1..] == [];
  }

  /** When no piece is blank, host `k` is the strip of piece `k`. */
  lemma {:induction false} StrippedNonEmptyInOrder(parts: seq<string>)
    requires forall k :: 0 <= k < |parts| ==> Strip(parts[k]) != ""
    ensures |StrippedNonEmpty(parts)| == |parts|
    ensures forall k :: 0 <= k < |parts| ==> StrippedNonEmpty(parts)[k] == Strip(parts[k])
    decreases |parts|
  {
    if parts != [] {
      var tail := parts[1..];
      StrippedNonEmptyInOrder(tail);
      var rest := StrippedNonEmpty(tail);
      assert Strip(parts[0]) != "";
      var hosts := StrippedNonEmpty(parts);
      assert hosts == [Strip(parts[0])] + rest;
      forall k | 1 <= k < |parts|
        ensures hosts[k] == Strip(parts[k])
      {
        assert tail[k - 1] == parts[k];
        assert hosts[k] == rest[k - 1];
      }
    }
  }

  /** The stripped `DJANGO_ALLOWED_HOSTS` value. */
  function RawHosts(env: map<string, string>): string {
    Strip(EnvGet(env, "DJANGO_ALLOWED_HOSTS", DefaultHosts))
  }

  /** The host list a stripped value describes. */
  function HostsOf(raw: string): seq<string> {
    if raw == "*" then ["*"] else StrippedNonEmpty(Split(raw, ','))
  }

  /** `ALLOWED_HOSTS`. */
  function AllowedHosts(env: map<string, string>): seq<string> {
    HostsOf(RawHosts(env))
  }

  /** A host is allowed exactly when the stripped variable is "*" alone and
      the host is "*", or the host is the non-empty strip of one of the
      variable's comma-separated pieces. */
  lemma HostsOfMembers(raw: string, h: string)
    ensures raw == "*" ==> HostsOf(raw) == ["*"]
    ensures raw != "*" ==>
              (h in HostsOf(raw) <==>
                 h != "" && exists i :: 0 <= i < |Split(raw, ',')| && Strip(Split(raw, ',')[i]) == h)
  {
    if raw != "*" {
      PiecesMembers(raw, h);
    }
  }

  /** For a value other than the lone wildcard whose comma-separated pieces
      are all non-blank, host `k` is the strip of piece `k`. */
  lemma HostsOfInOrder(raw: string)
    requires raw != "*"
    requires forall k :: 0 <= k < |Split(raw, ',')| ==> Strip(Split(raw, ',')[k]) != ""
    ensures |HostsOf(raw)| == |Split(raw, ',')|
    ensures forall k :: 0 <= k < |Split(raw, ',')| ==> HostsOf(raw)[k] == Strip(Split(raw, ',')[k])
  {
    StrippedNonEmptyInOrder(Split(raw, ','));
  }

  lemma PiecesMembers(raw: string, h: string)
    ensures h in StrippedNonEmpty(Split(raw, ',')) <==>
              h != "" && exists i :: 0 <= i < |Split(raw, ',')| && Strip(Split(raw, ',')[i]) == h
  {
    StrippedNonEmptyMembers(Split(raw, ','), h);
  }

  /** A host entry: not empty, no comma, no surrounding whitespace. */
  predicate WellFormedHost(h: string) {
    && h != ""
    && (forall j :: 0 <= j < |h| ==> h[j] != ',')
    && !IsSpace(h[0]) && !IsSpace(h[|h| - 1])
  }

  /** No allowed host is empty, holds a comma, or has whitespace around it. */
  lemma AllowedHostsWellFormed(env: map<string, string>)
    ensures forall k :: 0 <= k < |AllowedHosts(env)| ==> WellFormedHost(AllowedHosts(env)[k])
  {
    HostsOfWellFormed(RawHosts(env));
  }

  lemma HostsOfWellFormed(raw: string)
    ensures forall k :: 0 <= k < |HostsOf(raw)| ==> WellFormedHost(HostsOf(raw)[k])
  {
    if raw != "*" {
      PiecesWellFormed(Split(raw, ','));
    } else {
      assert WellFormedHost("*");
    }
  }

  lemma PiecesWellFormed(parts: seq<string>)
    requires forall k, i :: 0 <= k < |parts| && 0 <= i < |parts[k]| ==> parts[k][i] != ','
    ensures forall k :: 0 <= k < |StrippedNonEmpty(parts)| ==> WellFormedHost(StrippedNonEmpty(parts)[k])
  {
    var hosts := StrippedNonEmpty(parts);
    forall k | 0 <= k < |hosts| ensures WellFormedHost(hosts[k]) {
      HostFromPiece(parts, hosts[k]);
    }
  }

  lemma HostFromPiece(parts: seq<string>, h: string)
    requires forall k, i :: 0 <= k < |parts| && 0 <= i < |parts[k]| ==> parts[k][i] != ','
    requires h in StrippedNonEmpty(parts)
    ensures WellFormedHost(h)
  {
    StrippedNonEmptyMembers(parts, h);
    var i :| 0 <= i < |parts| && Strip(parts[i]) == h;
    PieceHost(parts[i]);
  }

  /** A comma-free piece strips to a well-formed host unless it is blank. */
  lemma PieceHost(p: string)
    requires forall i :: 0 <= i < |p| ==> p[i] != ','
    requires Strip(p) != ""
    ensures WellFormedHost(Strip(p))
  {
    StripInside(p);
    StripSpec(p);
  }

  /** Well-formed hosts pass the strip-and-drop-blanks filter unchanged. */
  lemma {:induction false} CleanHostsKept(hosts: seq<string>)
    requires forall k :: 0 <= k < |hosts| ==> WellFormedHost(hosts[k])
    ensures StrippedNonEmpty(hosts) == hosts
    decreases |hosts|
  {
    if hosts != [] {
      StripUnchanged(hosts[0]);
      CleanHostsKept(hosts[1..]);
    }
  }

  /** Setting the variable to well-formed hosts joined by commas yields
      exactly those hosts, in order (the lone "*" is the wildcard case). */
  lemma HostListRoundTrip(env: map<string, string>, hosts: seq<string>)
    requires |hosts| >= 1 && hosts != ["*"]
    requires forall k :: 0 <= k < |hosts| ==> WellFormedHost(hosts[k])
    requires "DJANGO_ALLOWED_HOSTS" in env && env["DJANGO_ALLOWED_HOSTS"] == JoinWith(hosts, ',')
    ensures AllowedHosts(env) == hosts
  {
    JoinedHostsClean(hosts);
    assert RawHosts(env) == JoinWith(hosts, ',');
    HostsOfJoined(hosts);
  }

  /** The joined hosts have nothing to strip and are not the wildcard. */
  lemma JoinedHostsClean(hosts: seq<string>)
    requires |hosts| >= 1 && hosts != ["*"]
    requires forall k :: 0 <= k < |hosts| ==> WellFormedHost(hosts[k])
    ensures Strip(JoinWith(hosts, ',')) == JoinWith(hosts, ',') != "*"
  {
    var j := JoinWith(hosts, ',');
    JoinWithEnds(hosts, ',');
    StripUnchanged(j);
    if |hosts| > 1 {
      assert |j| > 1;
    }
  }

  lemma HostsOfJoined(hosts: seq<string>)
    requires |hosts| >= 1 && JoinWith(hosts, ',') != "*"
    requires forall k :: 0 <= k < |hosts| ==> WellFormedHost(hosts[k])
    ensures HostsOf(JoinWith(hosts, ',')) == hosts
  {
    SplitJoin(hosts, ',');
    CleanHostsKept(hosts);
  }

  /** With the variable unset, the hosts are localhost and 127.0.0.1. */
  lemma DefaultAllowedHosts(env: map<string, string>)
    requires "DJANGO_ALLOWED_HOSTS" !in env
    ensures AllowedHosts(env) == ["localhost", "127.0.0.1"]
  {
    var hosts := ["localhost", "127.0.0.1"];
    var given := env["DJANGO_ALLOWED_HOSTS" := DefaultHosts];
    assert JoinWith(hosts, ',') == DefaultHosts;
    assert WellFormedHost(hosts[0]) && WellFormedHost(hosts[1]);
    HostListRoundTrip(given, hosts);
    assert RawHosts(given) == RawHosts(env);
  }

  /** `https://h` for every host other than "*", in order. */
  function HttpsOrigins(hosts: seq<string>): (origins: seq<string>)
    ensures |origins| <= |hosts|
    decreases |hosts|
  {
    if hosts == [] then []
    else
      var rest := HttpsOrigins(hosts[1..]);
      if hosts[0] != "*" then ["https://" + hosts[0]] + rest else rest
  }

  /** `CSRF_TRUSTED_ORIGINS`: none for the lone wildcard. */
  function CsrfTrustedOrigins(hosts: seq<string>): seq<string> {
    if hosts == ["*"] then [] else HttpsOrigins(hosts)
  }

  /** An origin is trusted exactly when it is `https://` and a host that is
      not the wildcard, unless the hosts are the lone wildcard. */
  lemma {:induction false} HttpsOriginsMembers(hosts: seq<string>, o: string)
    ensures o in HttpsOrigins(hosts) <==> exists h :: h in hosts && h != "*" && o == "https://" + h
    decreases |hosts|
  {
    if hosts != [] {
      HttpsOriginsMembers(hosts[1..], o);
      if exists h :: h in hosts[1..] && h != "*" && o == "https://" + h {
        var h :| h in hosts[1..] && h != "*" && o == "https://" + h;
        assert h in hosts;
      }
      if exists h :: h in hosts && h != "*" && o == "https://" + h {
        var h :| h in hosts && h != "*" && o == "https://" + h;
        if h != hosts[0] {
          assert h in hosts[1..];
        }
      }
    }
  }

  /** The origins follow the hosts in order: those of `a + b` are those of
      `a` followed by those of `b`. */
  lemma {:induction false} HttpsOriginsAppend(a: seq<string>, b: seq<string>)
    ensures HttpsOrigins(a + b) == HttpsOrigins(a) + HttpsOrigins(b)
    decreases |a|
  {
    if a == [] {
      assert a + b == b;
    } else {
      assert (a + b)[0] == a[0];
      assert (a + b)[1..] == a[1..] + b;
      HttpsOriginsAppend(a[1..], b);
    }
  }

  /** One host gives `https://` and the host, unless it is the wildcard. */
  lemma HttpsOriginsOne(h: string)
    ensures HttpsOrigins([h]) == if h != "*" then ["https://" + h] else []
  {
    assert [h][1..] == [];
  }

  /** Without the wildcard there is one origin per host: origin `k` is
      `https://` and host `k`. */
  lemma {:induction false} HttpsOriginsInOrder(hosts: seq<string>)
    requires forall k :: 0 <= k < |hosts| ==> hosts[k] != "*"
    ensures |HttpsOrigins(hosts)| == |hosts|
    ensures forall k :: 0 <= k < |hosts| ==> HttpsOrigins(hosts)[k] == "https://" + hosts[k]
    decreases |hosts|
  {
    if hosts != [] {
      HttpsOriginsInOrder(hosts[1..]);
      var origins := HttpsOrigins(hosts);
      assert origins == ["https://" + hosts[0]] + HttpsOrigins(hosts[1..]);
      forall k | 1 <= k < |hosts|
        ensures origins[k] == "https://" + hosts[k]
      {
        assert hosts[1..][k - 1] == hosts[k];
      }
    }
  }

  /** The origins derived from the hosts. */
  lemma CsrfSpec(env: map<string, string>, o: string)
    ensures RawHosts(env) == "*" ==> CsrfTrustedOrigins(AllowedHosts(env)) == []
    ensures AllowedHosts(env) != ["*"] ==>
              (o in CsrfTrustedOrigins(AllowedHosts(env)) <==>
                 exists h :: h in AllowedHosts(env) && h != "*" && o == "https://" + h)
    // with no wildcard among the hosts, one origin per host, in order
    ensures var hosts := AllowedHosts(env);
            (forall k :: 0 <= k < |hosts| ==> hosts[k] != "*") ==>
              && |CsrfTrustedOrigins(hosts)| == |hosts|
              && forall k :: 0 <= k < |hosts| ==> CsrfTrustedOrigins(hosts)[k] == "https://" + hosts[k]
  {
    var hosts := AllowedHosts(env);
    HttpsOriginsMembers(hosts, o);
    if forall k :: 0 <= k < |hosts| ==> hosts[k] != "*" {
      if hosts == ["*"] {
        assert hosts[0] == "*";
      }
      HttpsOriginsInOrder(hosts);
    }
  }

  lemma CsrfExample()
    ensures CsrfTrustedOrigins(["a.example", "*", "b.example"]) == ["https://a.example", "https://b.example"]
    ensures CsrfTrustedOrigins(["*"]) == []
  {
    var hosts := ["a.example", "*", "b.example"];
    assert hosts[1..] == ["*", "b.example"];
    assert hosts[1..][1..] == ["b.example"];
    assert hosts[1..][1..][1..] == [];
    assert "a.example"[0] != '*' && "b.example"[0] != '*';
    assert "https://" + "a.example" == "https://a.example";
    assert "https://" + "b.example" == "https://b.example";
    assert HttpsOrigins(["b.example"]) == ["https://b.example"];
  }

  // ---------------------------------------------------------------
  // Sub-path and static/media URLs
  // ---------------------------------------------------------------

  const DefaultSubpath: string := "/pdf_manager"

  /** A sub-path value with every trailing '/' removed. */
  function TrimSubpath(value: string): (s: string)
    ensures s == [] || s[|s| - 1] != '/'
    ensures StartsWith(value, s) && forall i :: |s| <= i < |value| ==> value[i] == '/'
  {
    RStripChar(value, '/')
  }

  /** Trimming twice is trimming once. */
  lemma TrimSubpathIdempotent(value: string)
    ensures TrimSubpath(TrimSubpath(value)) == TrimSubpath(value)
  {
  }

  /** `APP_SUBPATH`. */
  function AppSubpath(env: map<string, string>): (s: string)
    ensures s == [] || s[|s| - 1] != '/'
  {
    TrimSubpath(EnvGet(env, "APP_SUBPATH", DefaultSubpath))
  }

  /** `STATIC_URL`. */
  function StaticUrl(env: map<string, string>): string {
    AppSubpath(env) + "/static/"
  }

  /** `MEDIA_URL`. */
  function MediaUrl(env: map<string, string>): string {
    AppSubpath(env) + "/media/"
  }

  /** The static and media URLs sit directly under the sub-path with a single
      '/' between them, whatever trailing slashes the variable had. */
  lemma UrlsUnderSubpath(env: map<string, string>, slashes: nat)
    ensures var sub := AppSubpath(env);
            var s := StaticUrl(env);
            var m := MediaUrl(env);
            && StartsWith(s, sub) && s[|sub|..] == "/static/"
            && StartsWith(m, sub) && m[|sub|..] == "/media/"
    ensures "APP_SUBPATH" !in env ==> StaticUrl(env) == "/pdf_manager/static/" && MediaUrl(env) == "/pdf_manager/media/"
    ensures var withSlashes := env["APP_SUBPATH" := AppSubpath(env) + seq(slashes, _ => '/')];
            StaticUrl(withSlashes) == StaticUrl(env) && MediaUrl(withSlashes) == MediaUrl(env)
  {
    var sub := AppSubpath(env);
    var v := sub + seq(slashes, _ => '/');
    TrailingSlashes(sub, slashes);
    if "APP_SUBPATH" !in env {
      assert DefaultSubpath[|DefaultSubpath| - 1] == 'r';
    }
  }

  lemma {:induction false} TrailingSlashes(sub: string, slashes: nat)
    requires sub == [] || sub[|sub| - 1] != '/'
    ensures TrimSubpath(sub + seq(slashes, _ => '/')) == sub
    decreases slashes
  {
    if slashes > 0 {
      var v := sub + seq(slashes, _ => '/');
      assert v[..|v| - 1] == sub + seq(slashes - 1, _ => '/');
      TrailingSlashes(sub, slashes - 1);
    } else {
      assert sub + seq(0, _ => '/') == sub;
    }
  }
}

=== FILE: splitter.dfy ===
/** The split plan of `split_pdf_to_dir` (booklets/services.py): the optional
    leading blank page, then the cursor loop that cuts the working document
    into inclusive page ranges. */
module Splitter {
  import opened Errors
  import opened Text
  import opened Geometry
  import opened Sequences

  /** An inclusive range `[first, last]` of zero-based page indices. */
  datatype Range = Range(first: nat, last: nat) {
    function Size(): int {
      last - first + 1
    }
  }

  function IntMin(a: int, b: int): int {
    if a <= b then a else b
  }

  function IntMax(a: int, b: int): int {
    if a >= b then a else b
  }

  // ---------------------------------------------------------------
  // The cursor loop
  // ---------------------------------------------------------------

  /** How many pages a chunk that is not the last holds: `maxPages`, or one
      fewer when `maxPages` is odd so that the next chunk starts at an even
      index. */
  function FullSize(maxPages: int): int {
    if maxPages % 2 == 0 then maxPages else maxPages - 1
  }

  /** The inclusive end of the chunk that starts at `start`: the tentative end
      `start + maxPages - 1` capped at the last page, one page shorter when
      the next chunk would otherwise start at an odd index, and never before
      `start`. */
  function ChunkEnd(total: nat, maxPages: int, start: nat): (last: nat)
    requires start < total
    ensures start <= last < total
    ensures last - start + 1 <= IntMax(maxPages, 1)
    // with room for two pages, a chunk from an even index ends so that the
    // next one starts at an even index (or the document is used up)
    ensures maxPages >= 2 && start % 2 == 0 ==> last + 1 == total || (last + 1) % 2 == 0
    // and unless it reaches the end it is full
    ensures maxPages >= 2 && start % 2 == 0 ==> last + 1 == total || last - start + 1 == FullSize(maxPages)
    // with room for at most one page, a chunk from an even index is one page
    ensures maxPages <= 1 && start % 2 == 0 ==> last == start
  {
    var tentative := IntMin(start + maxPages - 1, total - 1);
    var nextStart := tentative + 1;
    var shrunk := if nextStart < total && nextStart % 2 == 1 then tentative - 1 else tentative;
    if shrunk < start then start else shrunk
  }

  /** Where the next chunk starts: after the first chunk an odd cursor is
      moved to the next (even) page. */
  function ChunkStart(started: bool, cur: nat): (start: nat)
    ensures started || cur % 2 == 0 ==> start % 2 == 0
    ensures start == cur || (start == cur + 1 && cur % 2 == 1)
  {
    if started && cur % 2 == 1 then cur + 1 else cur
  }

  /** The loop from cursor `cur`; `started` is `split_count > 0`. */
  function Chunks(total: nat, maxPages: int, started: bool, cur: nat): seq<Range>
    decreases total - cur
  {
    if cur >= total then []
    else
      var start := ChunkStart(started, cur);
      if start >= total then []
      else
        var last := ChunkEnd(total, maxPages, start);
        [Range(start, last)] + Chunks(total, maxPages, true, last + 1)
  }

  /** All ranges of a working document of `total` pages. */
  function SplitRanges(total: nat, maxPages: int): seq<Range> {
    Chunks(total, maxPages, false, 0)
  }

  /** Page `p` lies in one of the ranges. */
  predicate Covers(rs: seq<Range>, p: nat) {
    exists k :: 0 <= k < |rs| && rs[k].first <= p <= rs[k].last
  }

  /** The ranges tile `[from, total)`: each starts right after the previous
      one ends, the first at `from`, the last ends at `total - 1`. */
  predicate Tiles(rs: seq<Range>, from: nat, total: nat) {
    if rs == [] then from == total
    else rs[0].first == from && rs[0].first <= rs[0].last < total
         && Tiles(rs[1..], rs[0].last + 1, total)
  }

  /** Every range is non-empty, starts at an even index, lies in
      `[from, total)` and respects the page limit; the ranges are in
      increasing order; every even page index of `[from, total)` is kept. */
  predicate WellFormed(rs: seq<Range>, maxPages: int, from: nat, total: nat) {
    && (forall k :: 0 <= k < |rs| ==>
          && rs[k].first % 2 == 0
          && from <= rs[k].first <= rs[k].last < total
          && rs[k].Size() <= IntMax(maxPages, 1))
    && (forall k :: 0 < k < |rs| ==> rs[k - 1].last < rs[k].first)
    && (forall p: nat :: from <= p < total && p % 2 == 0 ==> Covers(rs, p))
  }

  /** The loop's ranges are well formed for every `maxPages`. */
  lemma {:induction false} ChunksWellFormed(total: nat, maxPages: int, started: bool, cur: nat)
    requires started || cur % 2 == 0
    ensures WellFormed(Chunks(total, maxPages, started, cur), maxPages, cur, total)
    decreases total - cur
  {
    var rs := Chunks(total, maxPages, started, cur);
    var start := ChunkStart(started, cur);
    if cur < total && start < total {
      var last := ChunkEnd(total, maxPages, start);
      var rest := Chunks(total, maxPages, true, last + 1);
      assert rs == [Range(start, last)] + rest;
      ChunksWellFormed(total, maxPages, true, last + 1);
      ConsWellFormed(Range(start, last), rest, maxPages, cur, total);
    } else {
      assert rs == [];
      EmptyWellFormed(maxPages, cur, total);
    }
  }

  /** No ranges are needed when no even page index remains. */
  lemma EmptyWellFormed(maxPages: int, from: nat, total: nat)
    requires from >= total || (from + 1 == total && from % 2 == 1)
    ensures WellFormed([], maxPages, from, total)
  {
  }

  /** Putting a well-formed first range before the ranges of the rest of the
      document keeps the list well formed. */
  lemma ConsWellFormed(r: Range, rest: seq<Range>, maxPages: int, from: nat, total: nat)
    requires from <= r.first <= r.last < total && r.first % 2 == 0
    requires r.first == from || (r.first == from + 1 && from % 2 == 1)
    requires r.Size() <= IntMax(maxPages, 1)
    requires WellFormed(rest, maxPages, r.last + 1, total)
    ensures WellFormed([r] + rest, maxPages, from, total)
  {
    var rs := [r] + rest;
    assert forall k :: 0 < k < |rs| ==> rs[k] == rest[k - 1];
    forall p: nat | from <= p < total && p % 2 == 0
      ensures Covers(rs, p)
    {
      if p <= r.last {
        assert rs[0].first <= p <= rs[0].last;
      } else {
        assert Covers(rest, p);
        var k :| 0 <= k < |rest| && rest[k].first <= p <= rest[k].last;
        assert rs[k + 1] == rest[k];
      }
    }
  }

  /** With `maxPages >= 2` the loop from an even cursor loses nothing: its
      ranges tile the rest of the document. */
  lemma {:induction false} ChunksTile(total: nat, maxPages: int, started: bool, cur: nat)
    requires maxPages >= 2 && cur % 2 == 0 && cur <= total
    ensures Tiles(Chunks(total, maxPages, started, cur), cur, total)
    decreases total - cur
  {
    if cur < total {
      var last := ChunkEnd(total, maxPages, cur);
      if last + 1 < total {
        ChunksTile(total, maxPages, true, last + 1);
      }
    }
  }

  /** Every range but the last holds `FullSize(maxPages)` pages. */
  predicate FullBeforeLast(rs: seq<Range>, maxPages: int) {
    forall k :: 0 <= k < |rs| - 1 ==> rs[k].Size() == FullSize(maxPages)
  }

  /** With `maxPages >= 2` every chunk from an even cursor but the last one
      is full. */
  lemma {:induction false} ChunksFull(total: nat, maxPages: int, started: bool, cur: nat)
    requires cur % 2 == 0
    ensures maxPages >= 2 ==> FullBeforeLast(Chunks(total, maxPages, started, cur), maxPages)
    decreases total - cur
  {
    var rs := Chunks(total, maxPages, started, cur);
    if maxPages >= 2 && cur < total {
      var last := ChunkEnd(total, maxPages, cur);
      var rest := Chunks(total, maxPages, true, last + 1);
      assert rs == [Range(cur, last)] + rest;
      if last + 1 < total {
        ChunksFull(total, maxPages, true, last + 1);
        forall k | 1 <= k < |rs| - 1
          ensures rs[k].Size() == FullSize(maxPages)
        {
          assert rs[k] == rest[k - 1];
        }
        assert rs[0].Size() == FullSize(maxPages);
      } else {
        assert rest == [];
      }
    }
  }

  /** From an odd cursor, after the first chunk, the loop skips to the next index. */
  lemma ChunksSkipOdd(total: nat, maxPages: int, cur: nat)
    requires cur % 2 == 1
    ensures Chunks(total, maxPages, true, cur) == Chunks(total, maxPages, true, cur + 1)
  {
  }

  /** One single-page range for every even index from `from` on. */
  function EvenPages(from: nat, total: nat): (rs: seq<Range>)
    decreases total - from
  {
    if from >= total then [] else [Range(from, from)] + EvenPages(from + 2, total)
  }

  /** With `maxPages <= 1` the loop keeps exactly the even-indexed pages, one
      per range: every odd-indexed page is dropped. */
  lemma {:induction false} ChunksAtMostOne(total: nat, maxPages: int, started: bool, cur: nat)
    requires maxPages <= 1 && cur % 2 == 0
    ensures Chunks(total, maxPages, started, cur) == EvenPages(cur, total)
    decreases total - cur
  {
    if cur < total {
      assert ChunkEnd(total, maxPages, cur) == cur;
      if cur + 2 <= total {
        ChunksSkipOdd(total, maxPages, cur + 1);
        ChunksAtMostOne(total, maxPages, true, cur + 2);
      }
    }
  }

  /** `EvenPages(from, total)` in closed form. */
  lemma {:induction false} EvenPagesClosedForm(from: nat, total: nat)
    requires from % 2 == 0
    ensures var rs := EvenPages(from, total);
            && |rs| == (if from >= total then 0 else (total - from + 1) / 2)
            && forall i :: 0 <= i < |rs| ==> rs[i] == Range(from + 2 * i, from + 2 * i)
    decreases total - from
  {
    if from < total {
      EvenPagesClosedForm(from + 2, total);
    }
  }

  /** The split ranges of the whole working document: contiguous, in order,
      covering every page, each at most `maxPages` long and starting at an
      even index, when `maxPages >= 2`. */
  lemma SplitRangesPartition(total: nat, maxPages: int)
    requires maxPages >= 2
    ensures var rs := SplitRanges(total, maxPages);
            && Tiles(rs, 0, total)
            && (rs == [] <==> total == 0)
            && (forall k :: 0 <= k < |rs| ==>
                  rs[k].first % 2 == 0 && 1 <= rs[k].Size() <= maxPages)
            && (forall k :: 0 <= k < |rs| - 1 ==> rs[k].Size() == FullSize(maxPages))
            && (forall p: nat :: p < total ==> Covers(rs, p))
  {
    ChunksFull(total, maxPages, false, 0);
    ChunksTile(total, maxPages, false, 0);
    ChunksWellFormed(total, maxPages, false, 0);
    TilesCover(SplitRanges(total, maxPages), 0, total);
  }

  /** Tiling ranges cover every index of the interval they tile. */
  lemma {:induction false} TilesCover(rs: seq<Range>, from: nat, total: nat)
    requires Tiles(rs, from, total)
    ensures forall p: nat :: from <= p < total ==> Covers(rs, p)
    ensures from <= total
    decreases |rs|
  {
    if rs != [] {
      TilesCover(rs[1..], rs[0].last + 1, total);
      forall p: nat | from <= p < total
        ensures Covers(rs, p)
      {
        if p > rs[0].last {
          assert Covers(rs[1..], p);
          var k :| 0 <= k < |rs[1..]| && rs[1..][k].first <= p <= rs[1..][k].last;
          assert rs[k + 1] == rs[1..][k];
        } else {
          assert rs[0].first <= p <= rs[0].last;
        }
      }
    }
  }

  /** With `maxPages <= 1`, the split ranges are the even pages, one each. */
  lemma SplitRangesAtMostOne(total: nat, maxPages: int)
    requires maxPages <= 1
    ensures var rs := SplitRanges(total, maxPages);
            && |rs| == (total + 1) / 2
            && forall i :: 0 <= i < |rs| ==> rs[i] == Range(2 * i, 2 * i)
  {
    ChunksAtMostOne(total, maxPages, false, 0);
    EvenPagesClosedForm(0, total);
  }

  /** 100 pages by 40 give 40, 40 and 20 pages; 10 pages by 5 give 4, 4
      and 2, an odd size leaving one page for the next chunk. */
  lemma FullSizeExamples()
    ensures SplitRanges(100, 40) == [Range(0, 39), Range(40, 79), Range(80, 99)]
    ensures SplitRanges(10, 5) == [Range(0, 3), Range(4, 7), Range(8, 9)]
  {
    assert ChunkEnd(100, 40, 0) == 39;
    assert ChunkEnd(100, 40, 40) == 79;
    assert ChunkEnd(100, 40, 80) == 99;
    assert ChunkEnd(10, 5, 0) == 3;
    assert ChunkEnd(10, 5, 4) == 7;
    assert ChunkEnd(10, 5, 8) == 9;
    assert Chunks(100, 40, true, 100) == [];
    assert Chunks(100, 40, true, 80) == [Range(80, 99)];
    assert Chunks(100, 40, true, 40) == [Range(40, 79), Range(80, 99)];
    assert Chunks(10, 5, true, 10) == [];
    assert Chunks(10, 5, true, 8) == [Range(8, 9)];
    assert Chunks(10, 5, true, 4) == [Range(4, 7), Range(8, 9)];
  }

  lemma SplitRangesExamples()
    ensures SplitRanges(9, 4) == [Range(0, 3), Range(4, 7), Range(8, 8)]
    ensures SplitRanges(3, 1) == [Range(0, 0), Range(2, 2)]
    ensures SplitRanges(0, 4) == []
  {
    SplitRangesAtMostOne(3, 1);
    assert ChunkEnd(9, 4, 0) == 3;
    assert ChunkEnd(9, 4, 4) == 7;
    assert ChunkEnd(9, 4, 8) == 8;
    assert Chunks(9, 4, true, 9) == [];
    assert Chunks(9, 4, true, 8) == [Range(8, 8)];
    assert Chunks(9, 4, true, 4) == [Range(4, 7), Range(8, 8)];
  }

  // ---------------------------------------------------------------
  // Cutting the document
  // ---------------------------------------------------------------

  /** The document the loop cuts (lines 94-111): the input itself when
      `samePageParity` holds, else a blank page sized like the first page
      followed by the input; a blank page cannot be sized after an empty
      input, which raises ValueError. */
  function WorkingDocument(pages: seq<Page>, samePageParity: bool): (r: Result<seq<Page>>)
    ensures samePageParity ==> r == Ok(pages)
    ensures !samePageParity ==> (r.Err? <==> pages == [])
    ensures r.Err? ==> r.error == ValueError("PDF vacío")
    ensures !samePageParity && r.Ok? ==>
              && |r.value| == |pages| + 1
              && r.value[1..] == pages
              && ContentRects(r.value[0]) == []
              && PageRect(r.value[0]) == PageRect(pages[0])
  {
    if samePageParity then Ok(pages)
    else if pages == [] then Err(ValueError("PDF vacío"))
    else Ok([BlankLike(pages[0])] + pages)
  }

  /** The pages of each range, in order (`insert_pdf(from_page, to_page)`). */
  function Extract(doc: seq<Page>, rs: seq<Range>): (parts: seq<seq<Page>>)
    requires forall k :: 0 <= k < |rs| ==> rs[k].first <= rs[k].last < |doc|
    ensures |parts| == |rs|
    ensures forall k :: 0 <= k < |rs| ==> parts[k] == doc[rs[k].first..rs[k].last + 1]
  {
    seq(|rs|, k requires 0 <= k < |rs| => doc[rs[k].first..rs[k].last + 1])
  }

  /** Cutting along tiling ranges and gluing the parts back gives the tiled
      part of the document back. */
  lemma {:induction false} ExtractTilesConcat(doc: seq<Page>, rs: seq<Range>, from: nat)
    requires Tiles(rs, from, |doc|)
    requires forall k :: 0 <= k < |rs| ==> rs[k].first <= rs[k].last < |doc|
    ensures from <= |doc|
    ensures Concat(Extract(doc, rs)) == doc[from..]
    decreases |rs|
  {
    if rs != [] {
      ExtractTilesConcat(doc, rs[1..], rs[0].last + 1);
      assert Extract(doc, rs)[1..] == Extract(doc, rs[1..]);
      assert doc[from..] == doc[from..rs[0].last + 1] + doc[rs[0].last + 1..];
    }
  }

  /** `split_pdf_to_dir` as a plan: the page lists of the splits, in order. */
  function SplitPdf(pages: seq<Page>, maxPages: int, samePageParity: bool): (r: Result<seq<seq<Page>>>)
    // only an empty input without parity preservation fails
    ensures r.Err? <==> !samePageParity && pages == []
    ensures r.Err? ==> r.error == ValueError("PDF vacío")
    // an empty input with parity preservation gives no split at all
    ensures samePageParity && pages == [] ==> r == Ok([])
    // any other input gives at least one split
    ensures r.Ok? && pages != [] ==> r.value != []
    // every split is a non-empty run of at most max(maxPages, 1) pages
    ensures r.Ok? ==> forall k :: 0 <= k < |r.value| ==> 1 <= |r.value[k]| <= IntMax(maxPages, 1)
    // with room for two pages, every split but the last is full
    ensures r.Ok? && maxPages >= 2 ==> forall k :: 0 <= k < |r.value| - 1 ==> |r.value[k]| == FullSize(maxPages)
  {
    var doc :- WorkingDocument(pages, samePageParity);
    var rs := SplitRanges(|doc|, maxPages);
    ChunksWellFormed(|doc|, maxPages, false, 0);
    ChunksFull(|doc|, maxPages, false, 0);
    Ok(Extract(doc, rs))
  }

  /** With `maxPages >= 2` nothing is lost: gluing the splits back together
      gives the working document (the input, or the blank page and the input). */
  lemma SplitPdfRoundTrip(pages: seq<Page>, maxPages: int, samePageParity: bool)
    requires maxPages >= 2
    requires samePageParity || pages != []
    ensures SplitPdf(pages, maxPages, samePageParity).Ok?
    ensures samePageParity ==> Concat(SplitPdf(pages, maxPages, samePageParity).value) == pages
    ensures !samePageParity ==>
              Concat(SplitPdf(pages, maxPages, samePageParity).value) == [BlankLike(pages[0])] + pages
  {
    var doc := WorkingDocument(pages, samePageParity).value;
    var rs := SplitRanges(|doc|, maxPages);
    ChunksWellFormed(|doc|, maxPages, false, 0);
    ChunksTile(|doc|, maxPages, false, 0);
    ExtractTilesConcat(doc, rs, 0);
    assert doc[0..] == doc;
  }

  /** With `maxPages <= 1` the splits are the single even-indexed pages of the
      working document: 3 pages give the splits [page 0] and [page 2]. */
  lemma SplitPdfAtMostOne(pages: seq<Page>, maxPages: int, samePageParity: bool)
    requires maxPages <= 1
    requires samePageParity || pages != []
    ensures var doc := WorkingDocument(pages, samePageParity).value;
            var splits := SplitPdf(pages, maxPages, samePageParity).value;
            && |splits| == (|doc| + 1) / 2
            && forall i :: 0 <= i < |splits| ==> splits[i] == [doc[2 * i]]
  {
    var doc := WorkingDocument(pages, samePageParity).value;
    SplitRangesAtMostOne(|doc|, maxPages);
    var splits := SplitPdf(pages, maxPages, samePageParity).value;
    forall i | 0 <= i < |splits|
      ensures splits[i] == [doc[2 * i]]
    {
      assert splits[i] == doc[2 * i..2 * i + 1];
    }
  }

  // ---------------------------------------------------------------
  // Split file names
  // ---------------------------------------------------------------

  /** `f"{n:02}"` for a natural number: at least two digits, zero-padded. */
  function Pad2(n: nat): (s: string)
    ensures |s| >= 2 && IsDigits(s)
    ensures n < 10 ==> s == "0" + NatToString(n)
    ensures n >= 10 ==> s == NatToString(n)
  {
    if n < 10 then "0" + NatToString(n) else NatToString(n)
  }

  /** The file name of the `count`-th split (`split01.pdf`, `split02.pdf`, …). */
  function SplitFileName(count: nat): string {
    "split" + Pad2(count) + ".pdf"
  }

  lemma Pad2Injective(a: nat, b: nat)
    requires a != b
    ensures Pad2(a) != Pad2(b)
  {
    NatToStringInjective(a, b);
    if a < 10 && b < 10 {
      assert Pad2(a)[1..] == NatToString(a);
      assert Pad2(b)[1..] == NatToString(b);
    } else if a < 10 {
      assert Pad2(a)[0] == '0' != Pad2(b)[0];
    } else if b < 10 {
      assert Pad2(b)[0] == '0' != Pad2(a)[0];
    }
  }

  /** Different splits get different file names, so no split (and no booklet
      named after it) overwrites another. */
  lemma SplitFileNamesDistinct(a: nat, b: nat)
    requires a != b
    ensures SplitFileName(a) != SplitFileName(b)
  {
    Pad2Injective(a, b);
    var pa := Pad2(a);
    var pb := Pad2(b);
    if |pa| == |pb| {
      var j :| 0 <= j < |pa| && pa[j] != pb[j];
      assert SplitFileName(a)[5 + j] == pa[j];
      assert SplitFileName(b)[5 + j] == pb[j];
    } else {
      assert |SplitFileName(a)| != |SplitFileName(b)|;
    }
  }
}

=== FILE: tasks.dfy ===
/** The background OCR job (`run_ocr_job`) as a transition on a job record. */
module Tasks {
  import opened Errors
  import opened Text
  import opened Ocr

  /** The four statuses a job can have, stored as their codes. */
  datatype Status = Queued | Running | Done | Failed {
    /** The stored code: one of the field's choices, within its 16-character
        limit. */
    function Code(): (c: string)
      ensures c in StatusChoices
      ensures |c| <= 16
    {
      match this
      case Queued => "queued"
      case Running => "running"
      case Done => "done"
      case Failed => "error"
    }
  }

  /** The codes of the status field's choices. */
  const StatusChoices: seq<string> := ["queued", "running", "done", "error"]

  /** The job record's fields that `run_ocr_job` reads or writes. */
  datatype OcrJob = OcrJob(
    jobId: string,
    inputPath: string,
    outputPath: string,
    status: Status,
    errorMessage: string,
    language: string,
    optimize: int,
    deskew: bool,
    rotatePages: bool,
    forceOcr: bool)
  {
    /** The options the pipeline is called with: the stored ones, unchanged. */
    function Options(): (o: OcrOptions)
      ensures o.language == language && o.optimize == optimize && o.deskew == deskew
      ensures o.rotatePages == rotatePages && o.forceOcr == forceOcr
    {
      OcrOptions(language, deskew, rotatePages, forceOcr, optimize)
    }
  }

  /** The two saved states of a run: after marking it running, and at the end. */
  datatype JobRun = JobRun(started: OcrJob, finished: OcrJob)

  /** Where OCR outputs go under the media root. */
  function OutputsDir(mediaRoot: string): string {
    PathJoin(mediaRoot, "ocr_outputs")
  }

  /** `run_ocr_job` on a loaded job. `newJobId` is the uuid the pipeline
      draws; `which` and `run` are the executable lookup and the subprocess. */
  function RunOcrJob(job: OcrJob, mediaRoot: string, newJobId: string,
                     which: Option<string>, run: seq<string> -> Result<Completed>): (r: JobRun)
    ensures r.started == job.(status := Running, errorMessage := "")
    ensures r.finished.status == Done || r.finished.status == Failed
    ensures r.finished.(status := Running, errorMessage := "", outputPath := job.outputPath) == r.started
  {
    var started := job.(status := Running, errorMessage := "");
    var outcome := BuildOcrPipeline(started.inputPath, OutputsDir(mediaRoot), newJobId,
                                    started.Options(), which, run);
    var finished :=
      match outcome
      case Ok(result) => started.(outputPath := result.outputPath, status := Done)
      case Err(e) => started.(status := Failed, errorMessage := e.Str());
    JobRun(started, finished)
  }

  /** The outcome of a run: done with the pipeline's output path and no
      error message exactly when the pipeline succeeds; otherwise the error
      text is the exception's message and the output path is untouched. */
  lemma RunOcrJobOutcome(job: OcrJob, mediaRoot: string, newJobId: string,
                         which: Option<string>, run: seq<string> -> Result<Completed>)
    ensures var r := RunOcrJob(job, mediaRoot, newJobId, which, run);
            var outcome := BuildOcrPipeline(job.inputPath, OutputsDir(mediaRoot), newJobId,
                                            job.Options(), which, run);
            && (r.finished.status == Done <==> outcome.Ok?)
            && (outcome.Ok? ==> && r.finished.outputPath == PathJoin(OutputsDir(mediaRoot), JobFileName(newJobId, OcrSuffix))
                                && r.finished.errorMessage == "")
            && (outcome.Err? ==> && r.finished.errorMessage == outcome.error.Str()
                                 && r.finished.outputPath == job.outputPath)
  {
  }

  /** A run whose executable is missing always ends in the error status with
      the installation hint. */
  lemma MissingExecutableFails(job: OcrJob, mediaRoot: string, newJobId: string,
                               run: seq<string> -> Result<Completed>)
    ensures var r := RunOcrJob(job, mediaRoot, newJobId, None, run);
            r.finished.status == Failed && r.finished.errorMessage == MissingMessage
  {
    RunOcrJobOutcome(job, mediaRoot, newJobId, None, run);
  }

  /** A failing `ocrmypdf` run records its exit code and detail. */
  lemma FailedProcessRecorded(job: OcrJob, mediaRoot: string, newJobId: string, exe: string,
                              run: seq<string> -> Result<Completed>)
    requires exe != ""
    ensures var out := PathJoin(OutputsDir(mediaRoot), JobFileName(newJobId, OcrSuffix));
            var p := run(BuildCommand(exe, job.inputPath, out, job.Options()));
            var r := RunOcrJob(job, mediaRoot, newJobId, Some(exe), run);
            p.Ok? && p.value.returnCode != 0 ==>
              r.finished.status == Failed
              && r.finished.errorMessage == FailureMessage(p.value.returnCode, ErrorDetail(p.value))
  {
    RunOcrJobOutcome(job, mediaRoot, newJobId, Some(exe), run);
  }

  /** A subprocess that cannot be started (the exception `subprocess.run`
      raises) also ends in the error status, with that exception's text. */
  lemma LaunchFailureRecorded(job: OcrJob, mediaRoot: string, newJobId: string, exe: string,
                              run: seq<string> -> Result<Completed>)
    requires exe != ""
    ensures var out := PathJoin(OutputsDir(mediaRoot), JobFileName(newJobId, OcrSuffix));
            var p := run(BuildCommand(exe, job.inputPath, out, job.Options()));
            var r := RunOcrJob(job, mediaRoot, newJobId, Some(exe), run);
            p.Err? ==>
              r.finished.status == Failed && r.finished.errorMessage == p.error.Str()
  {
    RunOcrJobOutcome(job, mediaRoot, newJobId, Some(exe), run);
  }
}

=== FILE: text.dfy ===
/** The few pieces of Python's string and path library the core relies on:
    `str.strip`, `str.rstrip(c)`, `str.split`, `str.lower`, `str.isdigit`,
    `str(int)`, `os.path.join` and `os.path.splitext` (POSIX flavour). */
module Text {

  /** Python's `str.isspace` for one character (the Unicode whitespace set). */
  predicate IsSpace(c: char) {
    || c == ' '
    || ('\t' <= c <= '\r')
    || ('\U{1C}' <= c <= '\U{1F}')
    || c == '\U{85}' || c == '\U{A0}' || c == '\U{1680}'
    || ('\U{2000}' <= c <= '\U{200A}')
    || c == '\U{2028}' || c == '\U{2029}' || c == '\U{202F}'
    || c == '\U{205F}' || c == '\U{3000}'
  }

  predicate IsDigit(c: char) {
    '0' <= c <= '9'
  }

  predicate StartsWith(s: string, prefix: string) {
    |prefix| <= |s| && s[..|prefix|] == prefix
  }

  predicate EndsWith(s: string, suffix: string) {
    |suffix| <= |s| && s[|s| - |suffix|..] == suffix
  }

  // ---------------------------------------------------------------
  // strip / rstrip
  // ---------------------------------------------------------------

  /** Where `s.strip()` starts: the number of leading whitespace characters. */
  function StripStart(s: string): (a: nat)
    ensures a <= |s|
    ensures forall i :: 0 <= i < a ==> IsSpace(s[i])
    ensures a < |s| ==> !IsSpace(s[a])
    decreases |s|
  {
    if s == [] || !IsSpace(s[0]) then 0
    else
      var a := StripStart(s[1..]);
      assert forall i :: 1 <= i < a + 1 ==> s[i] == s[1..][i - 1];
      1 + a
  }

  /** Where `s.strip()` ends: the length left after dropping the trailing
      whitespace. */
  function StripEnd(s: string): (e: nat)
    ensures e <= |s|
    ensures forall i :: e <= i < |s| ==> IsSpace(s[i])
    ensures e > 0 ==> !IsSpace(s[e - 1])
    decreases |s|
  {
    if s == [] || !IsSpace(s[|s| - 1]) then |s|
    else StripEnd(s[..|s| - 1])
  }

  /** `s.strip()`: `s.lstrip().rstrip()`, the text between the leading and
      the trailing whitespace (empty when `s` is all whitespace). */
  function Strip(s: string): (r: string)
    ensures |r| <= |s|
  {
    if StripStart(s) <= StripEnd(s) then s[StripStart(s)..StripEnd(s)] else []
  }

  /** `s.strip()` is the slice of `s` left after dropping the whitespace at
      both ends, and it neither starts nor ends with whitespace. */
  lemma StripSpec(s: string)
    ensures StripStart(s) + |Strip(s)| <= |s|
    ensures Strip(s) == s[StripStart(s)..StripStart(s) + |Strip(s)|]
    ensures Strip(s) == [] || (!IsSpace(Strip(s)[0]) && !IsSpace(Strip(s)[|Strip(s)| - 1]))
    ensures forall i :: StripStart(s) + |Strip(s)| <= i < |s| ==> IsSpace(s[i])
  {
    StripSlice(s);
    StripEdges(s);
  }

  /** Where the stripped text sits in `s`, and that only whitespace follows it. */
  lemma StripSlice(s: string)
    ensures StripStart(s) + |Strip(s)| <= |s|
    ensures Strip(s) == s[StripStart(s)..StripStart(s) + |Strip(s)|]
    ensures forall i :: StripStart(s) + |Strip(s)| <= i < |s| ==> IsSpace(s[i])
  {
    var a, e := StripStart(s), StripEnd(s);
    if a <= e {
      assert Strip(s) == s[a..e];
    } else {
      StripBlank(s);
    }
  }

  /** When the leading whitespace runs past the trailing whitespace, `s` is
      all whitespace. */
  lemma StripBlank(s: string)
    requires StripStart(s) > StripEnd(s)
    ensures StripStart(s) == |s|
  {
  }

  /** The stripped text neither starts nor ends with whitespace. */
  lemma StripEdges(s: string)
    ensures Strip(s) == [] || (!IsSpace(Strip(s)[0]) && !IsSpace(Strip(s)[|Strip(s)| - 1]))
  {
    var a, e := StripStart(s), StripEnd(s);
    var r := Strip(s);
    if a < e {
      assert r == s[a..e];
      assert r[0] == s[a] && r[|r| - 1] == s[e - 1];
    }
  }

  /** Stripping a string made only of whitespace gives the empty string. */
  lemma StripAllSpace(s: string)
    requires forall i :: 0 <= i < |s| ==> IsSpace(s[i])
    ensures Strip(s) == ""
  {
    assert StripStart(s) == |s|;
    if s != [] {
      assert StripEnd(s) < |s|;
    }
  }

  /** A string with no whitespace at either end strips to itself. */
  lemma StripUnchanged(s: string)
    requires s != [] ==> !IsSpace(s[0]) && !IsSpace(s[|s| - 1])
    ensures Strip(s) == s
  {
    assert StripStart(s) == 0 && StripEnd(s) == |s|;
    assert s[0..|s|] == s;
  }

  /** Every character of `s.strip()` comes from `s`. */
  lemma {:induction false} StripInside(s: string)
    ensures forall j :: 0 <= j < |Strip(s)| ==> Strip(s)[j] in s
  {
    StripSpec(s);
    var a := StripStart(s);
    var r := Strip(s);
    forall j | 0 <= j < |r| ensures r[j] in s {
      assert r[j] == s[a + j];
    }
  }

  /** `s.rstrip(c)` for a single character `c`. */
  function RStripChar(s: string, c: char): (r: string)
    ensures |r| <= |s| && r == s[..|r|]
    ensures forall i :: |r| <= i < |s| ==> s[i] == c
    ensures r == [] || r[|r| - 1] != c
  {
    if s != [] && s[|s| - 1] == c then RStripChar(s[..|s| - 1], c) else s
  }

  // ---------------------------------------------------------------
  // lower
  // ---------------------------------------------------------------

  function LowerChar(c: char): char {
    if 'A' <= c <= 'Z' then (c as int + 32) as char else c
  }

  /** `s.lower()` restricted to the ASCII case mapping. */
  function Lower(s: string): (r: string)
    ensures |r| == |s|
    ensures forall i :: 0 <= i < |s| ==> r[i] == LowerChar(s[i])
  {
    seq(|s|, i requires 0 <= i < |s| => LowerChar(s[i]))
  }

  // ---------------------------------------------------------------
  // split
  // ---------------------------------------------------------------

  /** Index of the first occurrence of `c` in `s`, or `|s|` when absent. */
  function IndexOf(s: string, c: char): (k: nat)
    ensures k <= |s|
    ensures forall i :: 0 <= i < k ==> s[i] != c
    ensures k < |s| ==> s[k] == c
  {
    if s == [] then 0
    else if s[0] == c then 0
    else 1 + IndexOf(s[1..], c)
  }

  /** Pieces of `parts` glued back together with `sep` between them. */
  function JoinWith(parts: seq<string>, sep: char): string {
    if |parts| == 0 then ""
    else if |parts| == 1 then parts[0]
    else parts[0] + [sep] + JoinWith(parts[1..], sep)
  }

  /** `s.split(sep)` for a one-character separator: the pieces contain no
      separator and glue back to exactly `s`. */
  function Split(s: string, sep: char): (parts: seq<string>)
    ensures |parts| >= 1
    ensures forall k, i :: 0 <= k < |parts| && 0 <= i < |parts[k]| ==> parts[k][i] != sep
    ensures JoinWith(parts, sep) == s
    decreases |s|
  {
    var k := IndexOf(s, sep);
    if k == |s| then [s]
    else
      var rest := Split(s[k + 1..], sep);
      assert s == s[..k] + [sep] + s[k + 1..];
      [s[..k]] + rest
  }

  /** A string without the separator is a single piece. */
  lemma SplitNone(s: string, sep: char)
    requires forall i :: 0 <= i < |s| ==> s[i] != sep
    ensures Split(s, sep) == [s]
  {
    assert IndexOf(s, sep) == |s|;
  }

  /** The first piece runs up to the first separator; the rest is split on. */
  lemma SplitFirst(x: string, y: string, sep: char)
    requires forall i :: 0 <= i < |x| ==> x[i] != sep
    ensures Split(x + [sep] + y, sep) == [x] + Split(y, sep)
  {
    var s := x + [sep] + y;
    var k := IndexOf(s, sep);
    assert s[|x|] == sep;
    assert k == |x|;
    assert s[..k] == x && s[k + 1..] == y;
  }

  /** Splitting pieces that hold no separator, glued with it, gives the
      pieces back. */
  lemma {:induction false} SplitJoin(parts: seq<string>, sep: char)
    requires |parts| >= 1
    requires forall k, i :: 0 <= k < |parts| && 0 <= i < |parts[k]| ==> parts[k][i] != sep
    ensures Split(JoinWith(parts, sep), sep) == parts
    decreases |parts|
  {
    if |parts| == 1 {
      SplitNone(parts[0], sep);
    } else {
      SplitJoin(parts[1..], sep);
      SplitFirst(parts[0], JoinWith(parts[1..], sep), sep);
    }
  }

  /** Non-empty pieces glue into a string that starts with the first
      piece's first character and ends with the last piece's last one. */
  lemma {:induction false} JoinWithEnds(parts: seq<string>, sep: char)
    requires |parts| >= 1 && forall k :: 0 <= k < |parts| ==> parts[k] != []
    ensures var j := JoinWith(parts, sep);
            && j != [] && j[0] == parts[0][0]
            && j[|j| - 1] == parts[|parts| - 1][|parts[|parts| - 1]| - 1]
    decreases |parts|
  {
    if |parts| > 1 {
      var rest := parts[1..];
      if |rest| > 1 {
        JoinWithEnds(rest, sep);
      }
    }
  }

  /** `s.split(sep, 1)` when `sep` occurs in `s`: split at the first occurrence. */
  function SplitOnce(s: string, sep: char): (pair: (string, string))
    requires IndexOf(s, sep) < |s|
    ensures pair.0 + [sep] + pair.1 == s
    ensures forall i :: 0 <= i < |pair.0| ==> pair.0[i] != sep
  {
    var k := IndexOf(s, sep);
    assert s == s[..k] + [sep] + s[k + 1..];
    (s[..k], s[k + 1..])
  }

  // ---------------------------------------------------------------
  // digits and str(int)
  // ---------------------------------------------------------------

  /** `s.isdigit()` over ASCII digits: non-empty and every character a digit. */
  predicate IsDigits(s: string) {
    |s| > 0 && forall i :: 0 <= i < |s| ==> IsDigit(s[i])
  }

  function DigitChar(d: nat): char
    requires d < 10
  {
    ('0' as int + d) as char
  }

  /** `str(n)` for a natural number: decimal, no leading zero. */
  function NatToString(n: nat): (s: string)
    ensures IsDigits(s)
    ensures s[0] == '0' ==> n == 0 && |s| == 1
    decreases n
  {
    if n < 10 then [DigitChar(n)]
    else NatToString(n / 10) + [DigitChar(n % 10)]
  }

  /** The value of a string of decimal digits. */
  function ParseDigits(s: string): nat
    requires forall i :: 0 <= i < |s| ==> IsDigit(s[i])
  {
    if s == [] then 0
    else
      assert IsDigit(s[|s| - 1]);
      ParseDigits(s[..|s| - 1]) * 10 + (s[|s| - 1] as int - '0' as int)
  }

  /** Reading back the decimal text of `n` gives `n`. */
  lemma {:induction false} ParseNatToString(n: nat)
    ensures ParseDigits(NatToString(n)) == n
    decreases n
  {
    if n >= 10 {
      ParseNatToString(n / 10);
      var s := NatToString(n);
      assert s[..|s| - 1] == NatToString(n / 10);
    }
  }

  /** Different numbers have different decimal texts. */
  lemma NatToStringInjective(m: nat, n: nat)
    requires m != n
    ensures NatToString(m) != NatToString(n)
  {
    ParseNatToString(m);
    ParseNatToString(n);
  }

  /** Texts sharing a prefix and a suffix differ when their middles do. */
  lemma MiddleDistinct(p: string, s1: string, s2: string, e: string)
    requires s1 != s2
    ensures p + s1 + e != p + s2 + e
  {
    if |s1| == |s2| {
      var k :| 0 <= k < |s1| && s1[k] != s2[k];
      assert (p + s1 + e)[|p| + k] == s1[k];
      assert (p + s2 + e)[|p| + k] == s2[k];
    }
  }

  /** `str(n)` for any integer. */
  function IntToString(n: int): (s: string)
    ensures n >= 0 ==> s == NatToString(n)
    ensures n < 0 ==> s == "-" + NatToString(-n)
  {
    if n >= 0 then NatToString(n) else "-" + NatToString(-n)
  }

  /** Different integers have different decimal texts. */
  lemma IntToStringInjective(m: int, n: int)
    requires m != n
    ensures IntToString(m) != IntToString(n)
  {
    if m >= 0 && n >= 0 {
      NatToStringInjective(m, n);
    } else if m < 0 && n < 0 {
      NatToStringInjective(-m, -n);
      assert IntToString(m)[1..] == NatToString(-m);
      assert IntToString(n)[1..] == NatToString(-n);
    } else if m < 0 {
      assert IntToString(m)[0] == '-' && IsDigit(IntToString(n)[0]);
    } else {
      assert IntToString(n)[0] == '-' && IsDigit(IntToString(m)[0]);
    }
  }

  // ---------------------------------------------------------------
  // os.path
  // ---------------------------------------------------------------

  /** `os.path.join(a, b)` for two POSIX components. */
  function PathJoin(a: string, b: string): (p: string)
    ensures StartsWith(b, "/") ==> p == b
    ensures !StartsWith(b, "/") ==> EndsWith(p, b) && StartsWith(p, a)
    ensures !StartsWith(b, "/") && a != "" && !EndsWith(a, "/") ==> p == a + "/" + b
  {
    if StartsWith(b, "/") then b
    else if a == "" || EndsWith(a, "/") then a + b
    else a + "/" + b
  }

  /** For a fixed directory, different names that agree on whether they are
      absolute give different joined paths. */
  lemma PathJoinInjective(a: string, b1: string, b2: string)
    requires StartsWith(b1, "/") == StartsWith(b2, "/")
    requires b1 != b2
    ensures PathJoin(a, b1) != PathJoin(a, b2)
  {
    if !StartsWith(b1, "/") {
      var x := if a == "" || EndsWith(a, "/") then a else a + "/";
      assert PathJoin(a, b1) == x + b1 && PathJoin(a, b2) == x + b2;
      if |b1| == |b2| {
        var k :| 0 <= k < |b1| && b1[k] != b2[k];
        assert (x + b1)[|x| + k] != (x + b2)[|x| + k];
      }
    }
  }

  /** A job's output file name: the job id followed by a fixed suffix
      (`f"{job_id}_joined.pdf"` and its two siblings). */
  function JobFileName(jobId: string, suffix: string): (name: string)
    ensures StartsWith(name, jobId) && EndsWith(name, suffix)
    ensures |name| == |jobId| + |suffix|
  {
    jobId + suffix
  }

  /** A relative job id and a relative suffix give a relative file name. */
  lemma JobFileNameRelative(jobId: string, suffix: string)
    requires !StartsWith(jobId, "/") && !StartsWith(suffix, "/")
    ensures !StartsWith(JobFileName(jobId, suffix), "/")
  {
    var n := JobFileName(jobId, suffix);
    if jobId == [] {
      assert n == suffix;
    } else {
      assert n[0] == jobId[0];
    }
  }

  /** Distinct relative job ids give distinct output paths in one directory. */
  lemma JobPathsDistinct(dir: string, id1: string, id2: string, suffix: string)
    requires !StartsWith(id1, "/") && !StartsWith(id2, "/") && !StartsWith(suffix, "/")
    requires id1 != id2
    ensures PathJoin(dir, JobFileName(id1, suffix)) != PathJoin(dir, JobFileName(id2, suffix))
  {
    var n1 := JobFileName(id1, suffix);
    var n2 := JobFileName(id2, suffix);
    if |id1| == |id2| {
      var k :| 0 <= k < |id1| && id1[k] != id2[k];
      assert n1[k] != n2[k];
    }
    JobFileNameRelative(id1, suffix);
    JobFileNameRelative(id2, suffix);
    PathJoinInjective(dir, n1, n2);
  }

  /** Index of the last occurrence of `c` in `s`, or -1 (Python's `rfind`). */
  function RFind(s: string, c: char): (k: int)
    ensures -1 <= k < |s|
    ensures k >= 0 ==> s[k] == c
    ensures forall i :: k < i < |s| ==> s[i] != c
  {
    if s == [] then -1
    else if s[|s| - 1] == c then |s| - 1
    else RFind(s[..|s| - 1], c)
  }

  /** `os.path.basename(p)`: what follows the last '/'. */
  function BaseName(p: string): (b: string)
    ensures EndsWith(p, b)
    ensures forall i :: 0 <= i < |b| ==> b[i] != '/'
    ensures |b| < |p| ==> p[|p| - |b| - 1] == '/'
  {
    p[RFind(p, '/') + 1..]
  }

  /** The base name of a name joined onto a directory is the name itself. */
  lemma {:induction false} BaseNameOfJoin(a: string, name: string)
    requires forall i :: 0 <= i < |name| ==> name[i] != '/'
    ensures BaseName(PathJoin(a, name)) == name
  {
    var x := if a == "" || EndsWith(a, "/") then a else a + "/";
    if name != [] {
      assert name[0] != '/';
    }
    assert PathJoin(a, name) == x + name;
    LastSlash(x, name);
    assert (x + name)[|x|..] == name;
  }

  /** The last '/' of `x + name` is the last character of `x` when `name`
      has none. */
  lemma LastSlash(x: string, name: string)
    requires x == [] || x[|x| - 1] == '/'
    requires forall i :: 0 <= i < |name| ==> name[i] != '/'
    ensures RFind(x + name, '/') == |x| - 1
  {
    var p := x + name;
    var k := RFind(p, '/');
    if x != [] {
      assert p[|x| - 1] == '/';
    }
    forall i | |x| <= i < |p|
      ensures p[i] != '/'
    {
      assert p[i] == name[i - |x|];
    }
  }

  /** True when `s[from..to]` holds a character other than '.'. */
  predicate HasNonDot(s: string, from: int, to: int)
    requires 0 <= from && to <= |s|
  {
    exists i :: from <= i < to && s[i] != '.'
  }

  /** `os.path.splitext(p)`: the extension starts at the last '.' of the final
      path component, unless only dots precede it in that component. */
  function SplitExt(p: string): (parts: (string, string))
    ensures parts.0 + parts.1 == p
    ensures parts.1 == [] || parts.1[0] == '.'
    ensures forall i :: 1 <= i < |parts.1| ==> parts.1[i] != '.' && parts.1[i] != '/'
    ensures parts.1 != [] ==> HasNonDot(p, RFind(p, '/') + 1, |parts.0|)
  {
    var sepIndex := RFind(p, '/');
    var dotIndex := RFind(p, '.');
    if dotIndex > sepIndex && HasNonDot(p, sepIndex + 1, dotIndex) then
      (p[..dotIndex], p[dotIndex..])
    else
      (p, "")
  }

  lemma SplitExtExamples()
    ensures SplitExt("a.tar.gz") == ("a.tar", ".gz")
    ensures SplitExt(".bashrc") == (".bashrc", "")
    ensures SplitExt("report.pdf") == ("report", ".pdf")
    ensures SplitExt("notes") == ("notes", "")
  {
    var p := "a.tar.gz";
    assert forall i :: 0 <= i < |p| ==> p[i] != '/';
    assert p[5] == '.' && p[6] != '.' && p[7] != '.';
    assert p[0] != '.';
    assert RFind(p, '.') == 5;
    assert RFind(p, '/') == -1;
    assert HasNonDot(p, 0, 5);
    assert p[..5] == "a.tar" && p[5..] == ".gz";
    var q := ".bashrc";
    assert forall i :: 0 <= i < |q| ==> q[i] != '/';
    assert forall i :: 0 < i < |q| ==> q[i] != '.';
    var r := "report.pdf";
    assert forall i :: 0 <= i < |r| ==> r[i] != '/';
    assert r[6] == '.' && r[7] != '.' && r[8] != '.' && r[9] != '.';
    assert r[0] != '.';
    assert RFind(r, '.') == 6;
    assert RFind(r, '/') == -1;
    assert HasNonDot(r, 0, 6);
    assert r[..6] == "report" && r[6..] == ".pdf";
    var n := "notes";
    assert forall i :: 0 <= i < |n| ==> n[i] != '.';
  }
}

=== FILE: views.dfy ===
/** The upload handling shared by the three views: `_unique_path`, which
    picks a file name that does not exist yet, and the per-file loop of the
    booklet view, where one failing file is reported and the others go on. */
module Views {
  import opened Errors
  import opened Text

  // ---------------------------------------------------------------
  // _unique_path
  // ---------------------------------------------------------------

  /** `f"{base}_{i}{ext}"` for the name split by `os.path.splitext`. */
  function NumberedName(filename: string, i: nat): string {
    var (base, ext) := SplitExt(filename);
    base + "_" + NatToString(i) + ext
  }

  /** The paths `_unique_path` tries, in order: the name itself first, then
      the numbered names from 1 on. */
  function Candidate(dir: string, filename: string, i: nat): string {
    if i == 0 then PathJoin(dir, filename) else PathJoin(dir, NumberedName(filename, i))
  }

  /** The numbered candidates are pairwise different. */
  lemma CandidatesDistinct(dir: string, filename: string, a: nat, b: nat)
    requires 1 <= a && 1 <= b && a != b
    ensures Candidate(dir, filename, a) != Candidate(dir, filename, b)
  {
    var (base, ext) := SplitExt(filename);
    NatToStringInjective(a, b);
    MiddleDistinct(base + "_", NatToString(a), NatToString(b), ext);
    var na := NumberedName(filename, a);
    var nb := NumberedName(filename, b);
    if base != "" {
      assert na[0] == base[0] && nb[0] == base[0];
    } else {
      assert na[0] == '_' && nb[0] == '_';
    }
    PathJoinInjective(dir, na, nb);
  }

  /** The first `i` numbered candidates. */
  ghost function Numbered(dir: string, filename: string, i: nat): set<string> {
    set j | 1 <= j <= i :: Candidate(dir, filename, j)
  }

  /** There are exactly `i` of them. */
  lemma {:induction false} NumberedCount(dir: string, filename: string, i: nat)
    ensures |Numbered(dir, filename, i)| == i
  {
    if i > 0 {
      NumberedCount(dir, filename, i - 1);
      var c := Candidate(dir, filename, i);
      assert Numbered(dir, filename, i) == Numbered(dir, filename, i - 1) + {c};
      forall j | 1 <= j <= i - 1
        ensures Candidate(dir, filename, j) != c
      {
        CandidatesDistinct(dir, filename, j, i);
      }
    }
  }

  /** A set holding the first `i` numbered candidates has at least `i` paths. */
  lemma NumberedBound(dir: string, filename: string, i: nat, existing: set<string>)
    requires forall j :: 1 <= j <= i ==> Candidate(dir, filename, j) in existing
    ensures i <= |existing|
  {
    var taken := Numbered(dir, filename, i);
    NumberedCount(dir, filename, i);
    assert existing == taken + (existing - taken);
  }

  /** `p` is the `i`-th candidate and every earlier one is taken. */
  ghost predicate FirstFree(p: string, dir: string, filename: string, existing: set<string>) {
    exists i: nat :: p == Candidate(dir, filename, i)
      && forall j :: 0 <= j < i ==> Candidate(dir, filename, j) in existing
  }

  /** `_unique_path` (lines 19-33) with `existing` for the paths that
      `os.path.exists` reports: the first candidate, in the order tried,
      that does not exist. The loop ends because the numbered candidates
      are all different and only finitely many paths exist. */
  method UniquePath(dir: string, filename: string, existing: set<string>) returns (p: string)
    ensures p !in existing
    ensures FirstFree(p, dir, filename, existing)
  {
    var candidate := PathJoin(dir, filename);
    if candidate !in existing {
      assert candidate == Candidate(dir, filename, 0);
      return candidate;
    }
    var i := 1;
    while true
      invariant 1 <= i <= |existing| + 1
      invariant forall j :: 0 <= j < i ==> Candidate(dir, filename, j) in existing
      decreases |existing| + 1 - i
    {
      candidate := PathJoin(dir, NumberedName(filename, i));
      if candidate !in existing {
        assert candidate == Candidate(dir, filename, i);
        return candidate;
      }
      NumberedBound(dir, filename, i, existing);
      i := i + 1;
    }
  }

  /** The first candidate always wins when nothing is in the way. */
  lemma FreeNameKept(dir: string, filename: string, existing: set<string>, p: string)
    requires PathJoin(dir, filename) !in existing
    requires FirstFree(p, dir, filename, existing)
    ensures p == PathJoin(dir, filename)
  {
    var i: nat :| p == Candidate(dir, filename, i)
                  && forall j :: 0 <= j < i ==> Candidate(dir, filename, j) in existing;
    assert Candidate(dir, filename, 0) !in existing;
  }

  // ---------------------------------------------------------------
  // The per-file loop of booklets_view
  // ---------------------------------------------------------------

  /** One line of the results table: the uploaded name and the job to download. */
  datatype Row = Row(originalName: string, jobId: string)

  const NoFilesMessage: string := "No se recibió ningún fichero (revisa enctype multipart)."

  /** The message shown when one file fails. */
  function FileErrorMessage(name: string, e: Error): (m: string)
    ensures EndsWith(m, e.Str())
  {
    "Error generando booklets para '" + name + "': " + e.Str()
  }

  /** The message shown when at least one file succeeded. */
  function SuccessMessage(count: nat): string {
    "Booklets generados para " + NatToString(count) + " fichero(s)."
  }

  /** The rows of the files whose pipeline succeeded, in upload order. */
  function Successes(names: seq<string>, paths: seq<string>, run: string -> Result<string>): (rows: seq<Row>)
    requires |names| == |paths|
    ensures |rows| <= |names|
    decreases |names|
  {
    if names == [] then []
    else
      var n := |names| - 1;
      var rest := Successes(names[..n], paths[..n], run);
      if run(paths[n]).Ok? then rest + [Row(names[n], run(paths[n]).value)] else rest
  }

  /** The error messages of the files whose pipeline failed, in upload order. */
  function Failures(names: seq<string>, paths: seq<string>, run: string -> Result<string>): (msgs: seq<string>)
    requires |names| == |paths|
    ensures |msgs| <= |names|
    decreases |names|
  {
    if names == [] then []
    else
      var n := |names| - 1;
      var rest := Failures(names[..n], paths[..n], run);
      if run(paths[n]).Err? then rest + [FileErrorMessage(names[n], run(paths[n]).error)] else rest
  }

  /** Every file ends up in exactly one of the two lists. */
  lemma {:induction false} SuccessesAndFailures(names: seq<string>, paths: seq<string>, run: string -> Result<string>)
    requires |names| == |paths|
    ensures |Successes(names, paths, run)| + |Failures(names, paths, run)| == |names|
    ensures (forall k :: 0 <= k < |paths| ==> run(paths[k]).Ok?) ==> |Successes(names, paths, run)| == |names|
    decreases |names|
  {
    if names != [] {
      var n := |names| - 1;
      SuccessesAndFailures(names[..n], paths[..n], run);
    }
  }

  /** One more file extends the two lists by its own outcome. */
  lemma OutcomeStep(names: seq<string>, paths: seq<string>, k: nat, p: string,
                    run: string -> Result<string>)
    requires k < |names| && |paths| == k
    ensures var ns := names[..k + 1];
            var ps := paths + [p];
            && Successes(ns, ps, run)
               == (if run(p).Ok? then Successes(names[..k], paths, run) + [Row(names[k], run(p).value)]
                   else Successes(names[..k], paths, run))
            && Failures(ns, ps, run)
               == (if run(p).Err? then Failures(names[..k], paths, run) + [FileErrorMessage(names[k], run(p).error)]
                   else Failures(names[..k], paths, run))
  {
    assert names[..k + 1][..k] == names[..k];
    assert (paths + [p])[..k] == paths;
  }

  /** The paths taken before an upload: those that existed and those the
      earlier uploads were stored under. */
  ghost function Taken(existing: set<string>, earlier: seq<string>): set<string> {
    existing + set x | x in earlier
  }

  /** Each upload's path was free when it was chosen, and it is the first
      free candidate for its name given the paths taken before it. */
  ghost predicate ChosenInOrder(paths: seq<string>, names: seq<string>, dir: string, existing: set<string>)
    requires |paths| == |names|
  {
    forall a :: 0 <= a < |paths| ==>
      && paths[a] !in Taken(existing, paths[..a])
      && FirstFree(paths[a], dir, names[a], Taken(existing, paths[..a]))
  }

  /** One more upload keeps the paths chosen in order. */
  lemma ChosenStep(paths: seq<string>, names: seq<string>, k: nat, dir: string,
                   existing: set<string>, p: string)
    requires |paths| == k < |names|
    requires ChosenInOrder(paths, names[..k], dir, existing)
    requires p !in Taken(existing, paths)
    requires FirstFree(p, dir, names[k], Taken(existing, paths))
    ensures ChosenInOrder(paths + [p], names[..k + 1], dir, existing)
  {
    var ps := paths + [p];
    assert ps[..k] == paths;
    forall a | 0 <= a <= k
      ensures ps[..a] == paths[..a] && names[..k + 1][a] == names[a]
    {
    }
  }

  /** Paths chosen in order are new and pairwise different. */
  lemma ChosenFresh(paths: seq<string>, names: seq<string>, dir: string, existing: set<string>)
    requires |paths| == |names|
    requires ChosenInOrder(paths, names, dir, existing)
    ensures forall k :: 0 <= k < |paths| ==> paths[k] !in existing
    ensures forall k, l :: 0 <= k < l < |paths| ==> paths[k] != paths[l]
  {
    forall k, l | 0 <= k < l < |paths|
      ensures paths[k] != paths[l]
    {
      assert paths[k] in paths[..l];
    }
  }

  /** The first half of one turn of the loop below: the unique path upload
      `k` is stored under. */
  method StoreUpload(names: seq<string>, k: nat, dir: string, existing: set<string>,
                     paths: seq<string>, stored: set<string>) returns (p: string)
    requires |paths| == k < |names|
    requires ChosenInOrder(paths, names[..k], dir, existing)
    requires stored == Taken(existing, paths)
    ensures ChosenInOrder(paths + [p], names[..k + 1], dir, existing)
    ensures stored + {p} == Taken(existing, paths + [p])
  {
    p := UniquePath(dir, names[k], stored);
    ChosenStep(paths, names, k, dir, existing, p);
    assert Taken(existing, paths + [p]) == stored + {p};
  }

  /** The loop of lines 68-94: each upload is stored under a fresh unique
      path, then `run` (the pipeline on that file, returning its job id)
      either adds a row or an error message; a failure does not stop the
      loop. `existing` is the set of paths present before the request. */
  method ProcessUploads(names: seq<string>, dir: string, existing: set<string>,
                        run: string -> Result<string>)
    returns (rows: seq<Row>, errors: seq<string>, paths: seq<string>, stored: set<string>)
    ensures |paths| == |names|
    ensures ChosenInOrder(paths, names, dir, existing)
    ensures forall k :: 0 <= k < |paths| ==> paths[k] !in existing
    ensures forall k, l :: 0 <= k < l < |paths| ==> paths[k] != paths[l]
    ensures stored == Taken(existing, paths)
    ensures rows == Successes(names, paths, run)
    ensures errors == Failures(names, paths, run)
  {
    rows := [];
    errors := [];
    paths := [];
    stored := existing;
    for k := 0 to |names|
      invariant |paths| == k
      invariant ChosenInOrder(paths, names[..k], dir, existing)
      invariant stored == Taken(existing, paths)
      invariant rows == Successes(names[..k], paths, run)
      invariant errors == Failures(names[..k], paths, run)
    {
      var p := StoreUpload(names, k, dir, existing, paths, stored);
      OutcomeStep(names, paths, k, p, run);
      paths := paths + [p];
      stored := stored + {p};
      var outcome := run(p);
      if outcome.Err? {
        errors := errors + [FileErrorMessage(names[k], outcome.error)];
      } else {
        rows := rows + [Row(names[k], outcome.value)];
      }
    }
    assert names[..|names|] == names;
    ChosenFresh(paths, names, dir, existing);
  }

  /** The POST branch of `booklets_view` once the form is valid: no file
      gives the single "no file" error; otherwise the loop runs, and the
      success message with the count is added when some file succeeded. */
  method BookletsPost(names: seq<string>, dir: string, existing: set<string>,
                      run: string -> Result<string>)
    returns (rows: seq<Row>, errors: seq<string>, success: Option<string>, stored: set<string>)
    ensures names == [] ==> rows == [] && errors == [NoFilesMessage] && success == None && stored == existing
    ensures names != [] ==> |rows| + |errors| == |names|
    ensures success.Some? <==> rows != []
    ensures success.Some? ==> success.value == SuccessMessage(|rows|)
  {
    if names == [] {
      return [], [NoFilesMessage], None, existing;
    }
    var paths;
    rows, errors, paths, stored := ProcessUploads(names, dir, existing, run);
    SuccessesAndFailures(names, paths, run);
    success := if rows != [] then Some(SuccessMessage(|rows|)) else None;
  }
}
